=== FILE: README.md ===
# context-common, modelled in Dafny

This project models the core of the Tizen context framework's common library
(`context-common`). It covers:

- **The event-driven worker.** `ctx::EventDrivenThread` and its older twin
  `event_driven_thread` hand each queued message to `onEvent` until they are
  stopped. Stopping drains what is left through `deleteEvent`.
- **The JSON document `ctx::Json`.** This covers dot-separated paths, member
  and array-element setters and getters, and structural equality.
- **The database worker `ctx::DatabaseThread`** and its reference-counted
  handle `ctx::DatabaseManager`. This covers SQL composition, row
  materialisation, the synchronous calls, the asynchronous queue and the
  result dispatcher.
- **The two D-Bus request clients.** These are `ctx::DBusClient` and the older
  `request_handler` over `dbus_client`, with their request-id counter, request
  and reply messages, and listener tables.
- **The timer manager `ctx::TimerManager`** and the day-of-week converters.
- **The signal watcher `ctx::DBusSignalWatcher`** and the shared-variable
  store `ctx::SharedVars`.

One Dafny module corresponds to each source file:

| module | file |
|---|---|
| `Common` | shared types and error codes |
| `WorkQueue`, `Worker` | `EventDrivenThread.cpp` |
| `EventDriven` | `event_driven.cpp` |
| `JsonPath`, `JsonTree`, `JsonLaws`, `JsonDoc` | `Json.cpp` |
| `Database` | `DatabaseThread.cpp` |
| `DatabaseManagement` | `DatabaseManager.cpp` |
| `BusProtocol`, `DBusClientModel` | `DBusClient.cpp` |
| `RequestHandler` | `request_handler.cpp` with `dbus_client.cpp` |
| `Timers` | `TimerManager.cpp` |
| `DayOfWeek` | `timer_util.cpp` |
| `SignalWatch` | `DBusSignalWatcher.cpp` |
| `SharedVariables` | `SharedVars.cpp` |

Objects whose fields the C++ updates in place are Dafny classes whose methods
carry `modifies` clauses. This also holds for file-level statics such as
reference counts, request counters, listener maps and open buses.

Everything outside the process is an input to the operation that meets it:

- allocation outcomes (`infoAlloc`, `paramAlloc`, `dupOk`, ...);
- the bus's reply (`reply: Option<Reply>`, or `callFails`);
- SQLite's answer (`ExecOutcome`);
- the alarm service's id (`alarm: Option<int>`).

A C++ out-pointer is a `Ptr<T>`, either `Null` or `At(value)`. The operation
returns the pointer's new contents.

The worker thread is modelled as one loop action at a time (`Step`), so any
interleaving with the caller is a sequence of method calls. Ghost fields
`accepted` and `log` record each payload that `pushEvent` accepts and what
became of it. The invariant is that every accepted payload is either still
queued or settled, in FIFO order. After `stop()`, each payload has reached
exactly one of `onEvent` or `deleteEvent`.

Where the code does something other than what a reader might expect, the
model follows the code:

- **Worker loop.** `__run` tests the running flag before every pop. A `stop()`
  that races with the loop can therefore leave messages unhandled. The drain
  hands those to `deleteEvent`, not `onEvent`. The model keeps that split
  (`Worker.EventDrivenThread.Stop`).
- **Dispatcher callbacks.** The dispatcher calls no listener at all when the
  result vector or the `QueryResult` cannot be allocated. It also calls none
  for an unknown query type, and none when no listener was given.
- **Bus error codes.** The request without a reply never reports a bus
  failure. `ERR_PERMISSION_DENIED` comes only from `call(method)`, which
  compares the error's code with `G_DBUS_ERROR_ACCESS_DENIED` without
  checking the error's domain; the model does the same
  (`DBusClientModel.CallIgnoresErrorDomain`).

## Model

| member | source | states |
|---|---|---|
| Common.Inc32 | src/DBusSignalWatcher.cpp:41-46 | the unsigned 32-bit `++` of a reference count: one more below 2^32-1, wrapping to 0 above it |
| Common.Dec32 | src/DBusSignalWatcher.cpp:54-59 | the unsigned 32-bit `--`: one less above 0, wrapping 0 to 2^32-1 |
| Common.IncDecInverse | src/DBusSignalWatcher.cpp:41-59 | decrementing after incrementing, and incrementing after decrementing, restore every 32-bit count, wrap-around included |
| WorkQueue.Pending | src/EventDrivenThread.cpp:110-123 | the events still queued, in queue order, one per non-terminal message |
| WorkQueue.Settled | src/EventDrivenThread.cpp:81-103 | one settled event per disposal, in order |
| WorkQueue.HandledAll | src/EventDrivenThread.cpp:131-150 | the worker loop produces one onEvent disposal per message it pops |
| WorkQueue.SettledHandledAll | src/EventDrivenThread.cpp:131-150 | the onEvent calls of the loop settle exactly the queued events, in FIFO order |
| WorkQueue.SettledDrainLog | src/EventDrivenThread.cpp:92-100 | stop's drain settles exactly the events still queued, in order |
| WorkQueue.ExactlyOneHook | src/EventDrivenThread.cpp:81-150 | every accepted payload goes to exactly one of onEvent and deleteEvent: as multisets, accepted = onEvent payloads + deleteEvent payloads |
| WorkQueue.DrainStepSound | src/EventDrivenThread.cpp:92-100 | draining the head moves its event from pending to settled, keeping settled + pending unchanged |
| WorkQueue.DrainLog | src/EventDrivenThread.cpp:92-100 | at most one disposal per message left, and exactly one each when no terminal message is among them |
| WorkQueue.DrainLogCons | src/EventDrivenThread.cpp:92-100 | draining a queue disposes of its head first, then of the rest, in order |
| WorkQueue.PayloadsAppend | src/EventDrivenThread.cpp:110-123 | the payloads of two runs of events are those of the first run followed by those of the second |
| Worker.LeftoverDrain | src/EventDrivenThread.cpp:88-100 | what the join leaves in the queue drains exactly like the unhandled rest of the queue at the time of stop |
| Worker.EventDrivenThread.constructor | src/EventDrivenThread.cpp:36-39 | no thread info, not running, empty queue and log |
| Worker.EventDrivenThread.Start | src/EventDrivenThread.cpp:47-79 | already running: true and nothing changes; otherwise true exactly when info, queue and thread are all allocated, with an empty queue and the worker at the flag test |
| Worker.EventDrivenThread.IsRunning | src/EventDrivenThread.cpp:105-108 | the running flag |
| Worker.EventDrivenThread.PushEvent | src/EventDrivenThread.cpp:110-123 | accepted exactly when running and the message is allocated; the event is appended to the queue and to the accepted list; on false nothing changes |
| Worker.EventDrivenThread.Step | src/EventDrivenThread.cpp:131-150 | one loop action: flag test (exit when cleared), blocking pop on an empty queue, exit on the terminal message, or onEvent of the head; each accepted event stays settled or pending in order |
| Worker.EventDrivenThread.Drain | src/EventDrivenThread.cpp:92-100 | empties the queue, logging deleteEvent for each payload and a silent free for each data-less message |
| Worker.EventDrivenThread.DrainQueue | src/EventDrivenThread.cpp:93-98 | the pop loop ends with an empty queue, having disposed of every message in queue order |
| Worker.EventDrivenThread.DrainOne | src/EventDrivenThread.cpp:93-98 | one round pops the head and calls deleteEvent for its payload, if it has one |
| Worker.EventDrivenThread.StopStep | src/EventDrivenThread.cpp:88-91 | one worker step during the join keeps the stop progress invariant and makes progress once the flag is cleared |
| Worker.EventDrivenThread.Stop | src/EventDrivenThread.cpp:81-103 | true unless running and the terminal message cannot be allocated; afterwards not running, queue empty, every accepted event settled, the log being onEvent for a prefix of the queue and the drain of the rest |
| Worker.EventDrivenThread.Destroy | src/EventDrivenThread.cpp:41-45 | stop() then the thread info is freed; a successful stop leaves every accepted event settled |
| EventDriven.EventThread.constructor | src/event_driven.cpp:34-43 | thread info allocated or not as the allocation says; not running, nothing queued |
| EventDriven.EventThread.Start | src/event_driven.cpp:51-100 | false without thread info; already running: true, unchanged; otherwise true exactly when queue and thread are created |
| EventDriven.EventThread.Stop | src/event_driven.cpp:102-132 | as the worker's stop: every accepted event settled, onEvent for a prefix and deleteEvent for the rest |
| EventDriven.EventThread.IsRunning | src/event_driven.cpp:134-140 | the running flag |
| EventDriven.EventThread.PushThreadEvent | src/event_driven.cpp:142-155 | appends the event exactly when running and allocated; otherwise nothing changes |
| EventDriven.EventThread.ProcessStep | src/event_driven.cpp:163-193 | one action of process_event_queue, with the same FIFO and exactly-once bookkeeping |
| EventDriven.EventThread.Destroy | src/event_driven.cpp:45-49 | stop then free the thread info |
| JsonPath.FirstDelim | src/shared/Json.cpp:228-242 | the position of the first '.', or the length when there is none |
| JsonPath.Split | src/shared/Json.cpp:228-242 | a path has at least one token, and the first is the text before the first delimiter |
| JsonPath.Tokens | src/shared/Json.cpp:256-259 | a NULL path walks no segment; any string path, even "", at least one |
| JsonPath.TokenizePath | src/shared/Json.cpp:228-242 | the loop's tokens are exactly `Split(path)` |
| JsonPath.SplitAt | src/shared/Json.cpp:228-242 | each cut the loop makes at a delimiter is the first token of the rest of the path |
| JsonPath.SplitLast | src/shared/Json.cpp:228-242 | once no delimiter is left, the rest of the path is the last token |
| JsonPath.SplitLength | src/shared/Json.cpp:228-242 | a path with n delimiters has n+1 tokens, so never zero |
| JsonPath.SplitTokensNoDelim | src/shared/Json.cpp:228-242 | no token contains the delimiter |
| JsonPath.JoinSplit | src/shared/Json.cpp:228-242 | joining the tokens with '.' gives back the path |
| JsonPath.SplitJoin | src/shared/Json.cpp:228-242 | splitting a join of delimiter-free tokens gives back the tokens |
| JsonTree.Find | src/shared/Json.cpp:244-277 | index of the first member with that name, -1 exactly when there is none |
| JsonTree.Remove | src/shared/Json.cpp:279-336 | json_object_remove_member: no member of that name remains and no member is added |
| JsonTree.KeysOf | src/shared/Json.cpp:765-796 | the member names in member order |
| JsonTree.FindObject | src/shared/Json.cpp:244-277 | the read-only walk passes through objects only, and succeeds only when each segment names an existing member |
| JsonTree.Target | src/shared/Json.cpp:244-277 | an edit target lies in an object; without creation the first segment must exist; with creation a missing first segment yields a fresh empty object |
| JsonTree.ModifyAt | src/shared/Json.cpp:244-336 | a successful edit starts and ends at an object; afterwards the first segment exists; without creation it existed before |
| JsonTree.GetNode | src/shared/Json.cpp:361-381 | a member is found exactly when the walk reaches an object that has a member of that name |
| JsonTree.GetInt | src/shared/Json.cpp:414-433 | succeeds exactly on an INT64 or STRING member |
| JsonTree.GetString | src/shared/Json.cpp:457-473 | succeeds exactly on a STRING member, and returns its text |
| JsonTree.GetArray | src/shared/Json.cpp:507-530 | succeeds exactly on an ARRAY member, and returns its elements |
| JsonTree.GetElem | src/shared/Json.cpp:592-604 | succeeds exactly for an index inside the array, and returns that element |
| JsonTree.NodeEq | src/shared/Json.cpp:798-886 | equal nodes are of the same kind, and neither is a BOOLEAN value or a NULL node |
| JsonTree.GetSize | src/shared/Json.cpp:532-541 | the array's length, or -1 on any failure |
| JsonTree.GetElemInt | src/shared/Json.cpp:694-716 | succeeds exactly on an INT64 or STRING element: the INT64 value as it is, a STRING through the text conversion |
| JsonTree.GetElemString | src/shared/Json.cpp:744-763 | succeeds exactly on a STRING element, and returns its text |
| JsonLaws.LookupUpdate | src/shared/Json.cpp:279-336 | replacing the member found for a key changes that key's value and nothing else |
| JsonLaws.LookupAppend | src/shared/Json.cpp:279-336 | appending a new member adds its key and changes nothing else |
| JsonLaws.LookupRemove | src/shared/Json.cpp:279-336 | after removal the key is absent and every other key keeps its value |
| JsonLaws.LookupPut | src/shared/Json.cpp:279-336 | at the target object a set makes the key hold the value and leaves every other member as it was |
| JsonLaws.KeysOfPut | src/shared/Json.cpp:279-336 | set moves the key to the end: the keys are the other keys in order, then the key |
| JsonLaws.RemoveSubset | src/shared/Json.cpp:279-336 | removal keeps only members that were there |
| JsonLaws.RemoveUnique | src/shared/Json.cpp:279-336 | removal keeps member names distinct |
| JsonLaws.TargetOfFresh | src/shared/Json.cpp:244-277 | a creating walk from an empty object always ends at an empty object |
| JsonLaws.TargetNoForce | src/shared/Json.cpp:244-277 | without creation, the edit target is what the read-only walk finds |
| JsonLaws.TargetForce | src/shared/Json.cpp:244-277 | with creation, an existing path ends at the same object, and a missing one at a fresh empty object |
| JsonLaws.ModifyTarget | src/shared/Json.cpp:244-336 | an edit succeeds exactly when the walk reaches an object and the edit applies there; the result holds the edited members at the path |
| JsonLaws.ModifyKeepsSiblings | src/shared/Json.cpp:244-277 | an edit below the first path segment leaves every other top-level member unchanged |
| JsonLaws.FreshTargetAccepts | src/shared/Json.cpp:244-336 | a creating edit never fails once a fresh object was created, so creation is never left half done |
| JsonLaws.GetAfterModify | src/shared/Json.cpp:361-381 | after an edit, get at the same path reads the edited target's members |
| JsonLaws.GetBeforeModify | src/shared/Json.cpp:361-381 | before an edit, get at the path reads the target's members |
| JsonLaws.SetThenGet | src/shared/Json.cpp:279-381 | set fails exactly when the creating walk meets a non-object; after set, get of the key returns the value and other keys are unchanged |
| JsonLaws.SetIntThenGetInt | src/shared/Json.cpp:302-315 | set of an int64 then get of an int64 returns it, whatever the text conversion |
| JsonLaws.SetStringThenGetString | src/shared/Json.cpp:322-336 | set of a string then get of a string returns it |
| JsonLaws.AppendGrows | src/shared/Json.cpp:507-590 | append succeeds exactly when the target is reachable and the member is absent or an array; the array grows by one element at its end |
| JsonLaws.ElemAtIsGetElem | src/shared/Json.cpp:592-604 | the element an element edit addresses is the one getAt reads |
| JsonLaws.GetArrayAfterWithElem | src/shared/Json.cpp:592-659 | after an element edit, the array is the old one with that element replaced |
| JsonLaws.SetElemIntThenGet | src/shared/Json.cpp:630-641 | setAt(int64) succeeds exactly on an existing VALUE element; getAt then returns the value |
| JsonLaws.SetElemStrThenGet | src/shared/Json.cpp:648-659 | setAt(string) succeeds exactly on an existing VALUE element; getAt then returns the string |
| JsonLaws.SetElemObjectEffect | src/shared/Json.cpp:606-623 | setAt(Json) succeeds on any existing element, but only an OBJECT element takes the new members; any other element is left as it was |
| JsonLaws.ApplyWF | src/shared/Json.cpp:279-659 | every edit keeps member names distinct in every object |
| JsonLaws.ModifyWF | src/shared/Json.cpp:244-659 | a successful walk-and-edit keeps the whole document well formed |
| JsonLaws.FindObjectWF | src/shared/Json.cpp:244-277 | the object a walk reaches in a well-formed document is well formed |
| JsonLaws.GetNodeWF | src/shared/Json.cpp:361-381 | what get copies out of a well-formed document is well formed |
| JsonLaws.GetElemWF | src/shared/Json.cpp:661-678 | what getAt copies out of a well-formed document is well formed |
| JsonLaws.NodeEqSymmetric | src/shared/Json.cpp:798-886 | `__nodeEq` is symmetric on documents with distinct member names |
| JsonLaws.ObjectEqFlip | src/shared/Json.cpp:798-886 | two objects equal one way are equal the other way: every member of the second is matched by the first one's member of that name |
| JsonLaws.ObjectEqFlipBack | src/shared/Json.cpp:798-886 | the converse: if the second equals the first, every member of the first is matched in the second |
| JsonLaws.NodeEqReflexive | src/shared/Json.cpp:798-886 | a node equals itself exactly when it contains no BOOLEAN value and no NULL node, which `__valueEq` and `__nodeEq` reject |
| JsonDoc.ToInt32 | src/shared/Json.cpp:399-412 | the int64-to-int conversion of the int getters: the two's complement value congruent mod 2^32 |
| JsonDoc.Json.constructor | src/shared/Json.cpp:64-78 | a new document is an empty object |
| JsonDoc.Json.Copy | src/shared/Json.cpp:80-85 | a copy of a valid handle holds an equal document |
| JsonDoc.Json.Assign | src/shared/Json.cpp:148-156 | as written: release then copy; self-assignment loses the document |
| JsonDoc.Json.AssignChecked | src/shared/Json.cpp:148-156 | with a self check, the document always ends equal to the source's |
| JsonDoc.Json.IsValid | src/shared/Json.cpp:143-146 | true exactly when a node is held |
| JsonDoc.Json.Set | src/shared/Json.cpp:279-295 | creating walk then set; `val` is left holding an empty object on success |
| JsonDoc.Json.SetInt | src/shared/Json.cpp:297-315 | the document becomes the creating set of an INT64 member; false when the walk fails |
| JsonDoc.Json.SetString | src/shared/Json.cpp:322-336 | the document becomes the creating set of a STRING member |
| JsonDoc.Json.Get | src/shared/Json.cpp:361-381 | `val` receives a copy of the member only on success; the document is unchanged |
| JsonDoc.Json.GetInt | src/shared/Json.cpp:414-433 | an INT64 value as it is; a STRING through the text conversion; otherwise none |
| JsonDoc.Json.GetInt32 | src/shared/Json.cpp:399-412 | the int64 reading truncated to 32 bits |
| JsonDoc.Json.GetString | src/shared/Json.cpp:457-473 | STRING values only |
| JsonDoc.Json.GetSize | src/shared/Json.cpp:532-541 | the array's length, or -1 |
| JsonDoc.Json.Append | src/shared/Json.cpp:543-556 | `val`'s document is moved to the end of the array |
| JsonDoc.Json.AppendInt | src/shared/Json.cpp:558-573 | an INT64 element is appended through the creating walk |
| JsonDoc.Json.AppendString | src/shared/Json.cpp:580-590 | a STRING element is appended |
| JsonDoc.Json.SetAt | src/shared/Json.cpp:606-623 | `val` must be an object; an OBJECT element takes its members |
| JsonDoc.Json.SetAtInt | src/shared/Json.cpp:625-641 | a VALUE element is replaced by the INT64 value |
| JsonDoc.Json.SetAtString | src/shared/Json.cpp:648-659 | a VALUE element is replaced by the string |
| JsonDoc.Json.GetAt | src/shared/Json.cpp:661-678 | `val` receives a copy of the element |
| JsonDoc.Json.GetAtInt | src/shared/Json.cpp:694-716 | an element read as int64, a STRING through the text conversion |
| JsonDoc.Json.GetAtInt32 | src/shared/Json.cpp:680-692 | the int64 element reading truncated to 32 bits |
| JsonDoc.Json.GetAtString | src/shared/Json.cpp:744-763 | STRING elements only |
| JsonDoc.Json.GetKeys | src/shared/Json.cpp:765-796 | the list is emptied and then filled with the root's member names in order; a non-object root leaves it empty, a NULL node leaves it as it was |
| JsonDoc.Json.Equals | src/shared/Json.cpp:180-183 | `__nodeEq` of the two documents |
| JsonDoc.Json.NotEquals | src/shared/Json.cpp:185-188 | the negation of `operator==` |
| JsonDoc.SelfAssignmentLosesDocument | src/shared/Json.cpp:148-156 | a valid document assigned to itself becomes invalid |
| Database.ComposeCreate | src/server/DatabaseThread.cpp:205-215 | the CREATE TABLE statement starts with the table, the row_id column and the columns, and ends with the option (if any) and ';' |
| Database.ComposeCreateInjective | src/server/DatabaseThread.cpp:205-215 | different column lists give different statements |
| Database.Escape | src/server/DatabaseThread.cpp:231-232 | the body of a `%Q` literal: quotes doubled |
| Database.SqlQuote | src/server/DatabaseThread.cpp:231-232 | a `%Q` literal is enclosed in single quotes, and SQL reads its body back as the string |
| Database.UnescapeEscape | src/server/DatabaseThread.cpp:231-232 | a `%Q`-quoted value reads back as the value |
| Database.Digits | src/server/DatabaseThread.cpp:237-239 | decimal digits only, at least one |
| Database.DigitsRoundTrip | src/server/DatabaseThread.cpp:237-239 | the digits of n read back as n |
| Database.Decimal | src/server/DatabaseThread.cpp:237-239 | std::to_string of an integer: a minus sign exactly for negative values, then only digits |
| Database.DecimalRoundTrip | src/server/DatabaseThread.cpp:237-239 | std::to_string of an integer reads back as the integer |
| Database.ValueText | src/server/DatabaseThread.cpp:228-240 | a member has SQL text exactly when it reads as a string or as an integer |
| Database.InsertColumns | src/server/DatabaseThread.cpp:225-241 | at most one column per key, in key order |
| Database.InsertQuery | src/server/DatabaseThread.cpp:217-253 | a non-empty statement comes only from a record that is an object |
| Database.TerminatedDropLast | src/server/DatabaseThread.cpp:245-246 | erasing the last comma of the accumulated text gives the comma-separated list |
| Database.ComposeInsert | src/server/DatabaseThread.cpp:217-253 | the loop composes exactly the INSERT statement of the record's columns followed by the row-id query, or "" |
| Database.ValueTextOfMember | src/server/DatabaseThread.cpp:228-240 | STRING members are quoted, INT64 members are written in decimal, and anything else contributes nothing |
| Database.InsertColumnsExact | src/server/DatabaseThread.cpp:225-241 | the columns are exactly the keys with SQL text, each carrying that key's text |
| Database.InsertColumnsNext | src/server/DatabaseThread.cpp:225-241 | one more key adds its column, at the end, exactly when the key has SQL text |
| Database.AllKeysColumns | src/server/DatabaseThread.cpp:225-241 | when every key has SQL text, the column names are the keys, in key order |
| Database.InsertColumnsAllMembers | src/server/DatabaseThread.cpp:225-241 | a record of only strings and integers gives one column per member, in member order |
| Database.InsertQueryEmpty | src/server/DatabaseThread.cpp:223-243 | the statement is "" exactly when getKeys fails or no member has SQL text |
| Database.Materialise | src/server/DatabaseThread.cpp:295-316 | the rows collected leave out every row with a NULL |
| Database.ExecutionCb | src/server/DatabaseThread.cpp:295-316 | returns 0; a row with a NULL adds nothing; any other row adds its document, with every column as a string |
| Database.ExecRows | src/server/DatabaseThread.cpp:295-316 | running the callback over the rows appends exactly the materialised rows |
| Database.RowReadBack | src/server/DatabaseThread.cpp:295-316 | in a row document, each column reads back as its text |
| Database.RowKeys | src/server/DatabaseThread.cpp:295-316 | a row document's member names are its column names, in order |
| Database.CreateTableSync | src/server/DatabaseThread.cpp:113-133 | executes the composed CREATE statement; the result is SQLite's answer |
| Database.ExecuteSync | src/server/DatabaseThread.cpp:166-186 | false on a NULL argument; otherwise the materialised rows are appended to the caller's vector even when SQLite then fails, and the result is SQLite's answer |
| Database.InsertSync | src/server/DatabaseThread.cpp:135-164 | as written: false on NULL arguments, an empty statement, a SQLite failure or no row, with `*rowId` untouched in each case; on success `*rowId` is the first row's `seq` |
| Database.InsertSyncFailureKeepsRowId | src/server/DatabaseThread.cpp:151-157 | a failed insert leaves the caller's non-negative row id in place |
| Database.InsertSyncChecked | include/DatabaseManager.h:64-71 | the same result, with every failure on a non-NULL `rowId` leaving -1 |
| Database.ExecuteResult | src/server/DatabaseThread.cpp:255-293 | a result exists exactly when both allocations succeed; its error is ERR_NONE exactly when SQLite succeeded, ERR_OPERATION_FAILED otherwise; its rows are the materialised rows |
| Database.Dispatch | src/server/DatabaseThread.cpp:318-348 | with a listener and a known type, exactly one callback of the matching kind with the query's id and error; the inserted row id is -1 unless the query succeeded and returned a row |
| Database.FailedInsertReportsMinusOne | src/server/DatabaseThread.cpp:327-335 | a failed insert reaches its listener as onInserted(id, ERR_OPERATION_FAILED, -1) |
| Database.DatabaseThread.constructor | src/server/DatabaseThread.cpp:23-26 | a stopped worker with nothing queued and no pending results |
| Database.DatabaseThread.Enqueue | src/server/DatabaseThread.cpp:57-111 | a query is queued exactly when its QueryInfo is allocated and the worker accepts it |
| Database.DatabaseThread.CreateTable | src/server/DatabaseThread.cpp:57-72 | queues the CREATE statement under QUERY_CREATE_TABLE |
| Database.DatabaseThread.Insert | src/server/DatabaseThread.cpp:74-92 | rejects an empty statement before allocating; otherwise queues the INSERT under QUERY_INSERT |
| Database.DatabaseThread.Execute | src/server/DatabaseThread.cpp:94-111 | rejects a NULL query; otherwise queues it under QUERY_EXECUTE |
| Database.DatabaseThread.ProcessStep | src/server/DatabaseThread.cpp:188-203 | a query handed to onEvent runs, and its result joins the idle queue; deleteEvent frees the QueryInfo once |
| Database.DatabaseThread.RunDispatcher | src/server/DatabaseThread.cpp:318-348 | the oldest pending result is dispatched and removed |
| DatabaseManagement.DatabaseManager.constructor | src/server/DatabaseManager.cpp:27-29 | no handle and no shared thread |
| DatabaseManagement.DatabaseManager.Construct | src/server/DatabaseManager.cpp:31-48 | counts the handle; only the first creates, opens and starts the thread, and any failure there raises SIGTERM |
| DatabaseManagement.DatabaseManager.Destruct | src/server/DatabaseManager.cpp:50-65 | uncounts the handle; the last stops the thread (queue drained) and clears the pointer |
| DatabaseManagement.DatabaseManager.CreateTable | src/server/DatabaseManager.cpp:67-70 | forwarded to the shared thread with the same effect |
| DatabaseManagement.DatabaseManager.Insert | src/server/DatabaseManager.cpp:72-75 | forwarded to the shared thread with the same effect |
| DatabaseManagement.DatabaseManager.Execute | src/server/DatabaseManager.cpp:77-80 | forwarded to the shared thread with the same effect |
| DatabaseManagement.DatabaseManager.CreateTableSync | src/server/DatabaseManager.cpp:82-85 | SQLite's answer |
| DatabaseManagement.DatabaseManager.InsertSync | src/server/DatabaseManager.cpp:87-90 | the thread's insertSync result and row id |
| DatabaseManagement.DatabaseManager.ExecuteSync | src/server/DatabaseManager.cpp:92-95 | the thread's executeSync result and rows |
| DatabaseManagement.HandlesComeAndGo | src/server/DatabaseManager.cpp:31-65 | n handles created and destroyed leave a zero count and no thread |
| BusProtocol.NextReqId | src/client/DBusClient.cpp:230-242 | the pre-incremented id, always in 1..INT32_MAX, restarting at 1 instead of going negative |
| BusProtocol.ReqIdAfter | src/client/DBusClient.cpp:230-242 | the counter after k ids stays in range and is positive once one id was issued |
| BusProtocol.ReqIdClosedForm | src/client/DBusClient.cpp:230-242 | the k-th id after c is (c-1+k) mod INT32_MAX + 1 |
| BusProtocol.ReqIdsDistinct | src/request_handler.cpp:43-56 | any INT32_MAX consecutive ids are pairwise distinct |
| BusProtocol.InputText | src/client/DBusClient.cpp:206-207 | a NULL input is sent as "{}" |
| BusProtocol.Request | src/client/DBusClient.cpp:166-200 | no message: ERR_OUT_OF_MEMORY; no reply: ERR_OPERATION_FAILED with outputs untouched; a reply gives its code and fills the non-NULL outputs |
| BusProtocol.RequestNoReply | src/client/DBusClient.cpp:202-228 | as written: ERR_NONE whenever the message is built, whether or not the call fails |
| BusProtocol.NoReplyHidesFailure | src/client/DBusClient.cpp:219-227 | a failing call still reports ERR_NONE |
| BusProtocol.RequestNoReplyChecked | src/dbus_client.cpp:173-202 | ERR_NONE exactly when the call goes out; a failed call gives ERR_OPERATION_FAILED |
| DBusClientModel.Call | src/client/DBusClient.cpp:369-388 | without a connection, a read through the null error; otherwise ERR_NONE exactly on a reply, ERR_PERMISSION_DENIED exactly on an error whose code is the access-denied code, whatever its domain, and ERR_OPERATION_FAILED exactly on any other error |
| DBusClientModel.CallIgnoresErrorDomain | src/client/DBusClient.cpp:382-384 | an error from another domain that carries the access-denied code is reported as a permission error |
| DBusClientModel.CallWithoutConnectionCrashes | src/client/DBusClient.cpp:368-383 | `call` on a client that never connected reads the error that the failed call left NULL |
| DBusClientModel.DBusClient.CallChecked | src/client/DBusClient.cpp:368-388 | with `__init` first: ERR_OPERATION_FAILED when it fails, otherwise what `call` returns over a live connection; ERR_NONE exactly for a connected call answered |
| DBusClientModel.AssignedText | src/shared/Json.cpp:158-178 | assigning text to a Json: "" becomes "{}", anything else is kept |
| DBusClientModel.DBusClient.constructor | src/client/DBusClient.cpp:64-70 | no instance, no connection, no listener |
| DBusClientModel.DBusClient.NewInstance | src/client/DBusClient.cpp:67-70 | one more instance |
| DBusClientModel.DBusClient.DeleteInstance | src/client/DBusClient.cpp:72-76 | one fewer instance; the last releases the connection |
| DBusClientModel.DBusClient.Init | src/client/DBusClient.cpp:99-147 | connected afterwards exactly when already connected or the setup succeeds |
| DBusClientModel.DBusClient.GenerateReqId | src/client/DBusClient.cpp:230-242 | the counter advances by NextReqId and the id is in 1..INT32_MAX |
| DBusClientModel.DBusClient.AddListener | src/client/DBusClient.cpp:244-252 | the last registration for a subject wins; other subjects are unchanged |
| DBusClientModel.DBusClient.OnMethodCalled | src/client/DBusClient.cpp:78-97 | as written: a call that is not a Respond with subject and data is ignored; such a Respond reaches the subject's listener with the same id, error and data when one is registered, and dereferences the map's end iterator when none is |
| DBusClientModel.DBusClient.OnMethodCalledChecked | src/client/DBusClient.cpp:78-97 | with the lookup checked: delivered exactly when the subject has a listener, and then the same delivery as the code as written |
| DBusClientModel.ResponseWithoutListenerCrashes | src/client/DBusClient.cpp:92-94 | a response arriving before any `addListener` dereferences the end iterator |
| DBusClientModel.DBusClient.IsSupported | src/client/DBusClient.cpp:254-259 | not connected: ERR_OPERATION_FAILED; otherwise a support request with a fresh id |
| DBusClientModel.DBusClient.Subscribe | src/client/DBusClient.cpp:261-280 | a NULL reqId is ERR_INVALID_PARAMETER; otherwise the fresh id goes to `*reqId` and the request is sent; the result text follows the Json assignment rule |
| DBusClientModel.DBusClient.Unsubscribe | src/client/DBusClient.cpp:282-289 | the caller's id is sent unchanged |
| DBusClientModel.DBusClient.Read | src/client/DBusClient.cpp:291-310 | as subscribe, with REQ_READ |
| DBusClientModel.DBusClient.ReadSync | src/client/DBusClient.cpp:312-331 | both out-pointers required; the output is the reply's text under the Json assignment rule |
| DBusClientModel.DBusClient.Write | src/client/DBusClient.cpp:333-346 | the request without reply, with a fresh id |
| DBusClientModel.DBusClient.WriteWithResult | src/client/DBusClient.cpp:348-367 | the replying request, with a fresh id |
| RequestHandler.InitFailureCode | src/request_handler.cpp:112-234 | as written: on a failed initialize, subscribe returns ERR_OPERATION_FAILED and every other request returns `false`, which is ERR_NONE |
| RequestHandler.InitFailureReportsSuccess | src/request_handler.cpp:120-127 | a read without a connection reports success |
| RequestHandler.InitFailureCodeChecked | src/request_handler.cpp:84-90 | every request reports ERR_OPERATION_FAILED when initialize fails |
| RequestHandler.DeliverTo | src/request_handler.cpp:251-257 | a response reaches the callback of its subject, exactly when one is registered |
| RequestHandler.DeliverAfterRegister | src/request_handler.cpp:236-257 | after registering, the subject's responses reach the new callback and other subjects are unaffected |
| RequestHandler.RequestHandlerState.constructor | src/request_handler.cpp:43-82 | counter 0, no connection, no callback map |
| RequestHandler.RequestHandlerState.GenerateReqId | src/request_handler.cpp:43-56 | the counter advances by NextReqId; the id is in 1..INT32_MAX |
| RequestHandler.RequestHandlerState.Initialize | src/request_handler.cpp:58-82 | idempotent once connected; otherwise succeeds exactly when the map, handle and connection are set up, starting with an empty callback map |
| RequestHandler.RequestHandlerState.RegisterCallback | src/request_handler.cpp:236-249 | NULL arguments are refused; otherwise after a successful initialize the subject maps to the callback |
| RequestHandler.RequestHandlerState.Deliver | src/request_handler.cpp:251-257 | the registered callback of the subject, if any |
| RequestHandler.RequestHandlerState.Subscribe | src/request_handler.cpp:84-110 | a NULL argument is invalid, init failure is ERR_OPERATION_FAILED, an option copy failure is ERR_OPERATION_FAILED after the id is issued; otherwise the fresh id and the bus's answer |
| RequestHandler.RequestHandlerState.Unsubscribe | src/request_handler.cpp:112-118 | init failure gives ERR_NONE; otherwise the bus's answer for the caller's id |
| RequestHandler.RequestHandlerState.Read | src/request_handler.cpp:120-148 | as subscribe, but init failure gives ERR_NONE |
| RequestHandler.RequestHandlerState.ReadSync | src/request_handler.cpp:150-178 | both out-pointers required; the output is the reply's text |
| RequestHandler.RequestHandlerState.Write | src/request_handler.cpp:180-199 | the request without reply with a fresh id |
| RequestHandler.RequestHandlerState.WriteWithReply | src/request_handler.cpp:201-227 | the replying request with a fresh id |
| RequestHandler.RequestHandlerState.IsSupported | src/request_handler.cpp:229-234 | the support request's answer; init failure gives ERR_NONE |
| RequestHandler.ReadWithoutConnection | src/request_handler.cpp:120-127 | a concrete failed connection: read returns ERR_NONE and sends nothing |
| DayOfWeek.GroupsAreUnions | include/timer_types.h:40-51 | Weekday, Weekend and Everyday are the bitwise ORs of their days' bits |
| DayOfWeek.IntToString | src/server/timer_util.cpp:21-49 | a name exactly for the ten values, each its own, and "" otherwise |
| DayOfWeek.StringToInt | src/server/timer_util.cpp:51-78 | a value exactly for the ten names, each its own, and 0 otherwise |
| DayOfWeek.TablesDistinct | src/server/timer_util.cpp:21-78 | the ten values and the ten names are pairwise distinct |
| DayOfWeek.IntStringRoundTrip | src/server/timer_util.cpp:21-78 | value to name to value is the identity on the ten values |
| DayOfWeek.StringIntRoundTrip | src/server/timer_util.cpp:21-78 | name to value to name is the identity on the ten names |
| Timers.FloorLog2 | src/server/TimerManager.cpp:52-72 | the exponent of the highest set bit: 2^r <= n < 2^(r+1) |
| Timers.FloorLog2Unique | src/server/TimerManager.cpp:52-72 | that exponent is unique |
| Timers.DayValuesArePowers | include/TimerManager.h:40-51 | day i has value 2^i |
| Timers.DowToStr | src/server/TimerManager.cpp:52-72 | the three groups by name, "" exactly at and above 2^7, otherwise the name of the highest day present |
| Timers.DowToStrHighestDay | src/server/TimerManager.cpp:52-72 | a mask whose highest bit is day i gives day i's name |
| Timers.DowToStrSingleDay | src/server/TimerManager.cpp:52-72 | each single day gives its own name |
| Timers.DowToStrOnNamedValues | src/server/TimerManager.cpp:52-87 | on the ten named values dowToStr agrees with the table converter |
| Timers.DowRoundTrip | src/server/TimerManager.cpp:52-87 | dowToInt(dowToStr(d)) == d on the ten named values |
| Timers.DowNameRoundTrip | src/server/TimerManager.cpp:52-87 | dowToStr(dowToInt(s)) == s on the ten names |
| Timers.RepeatDays | src/server/TimerManager.cpp:116-130 | the repeat days are among the seven weekdays |
| Timers.ValidTime | src/server/TimerManager.cpp:109-114 | an accepted day mask is positive and fits the eight bits the repeat flags test |
| Timers.RepeatDaysOfSingleDay | src/server/TimerManager.cpp:116-130 | a single day's mask repeats on exactly that day |
| Timers.RepeatDaysOfGroups | src/server/TimerManager.cpp:116-130 | Weekday repeats Monday to Friday, Weekend on Saturday and Sunday, and Everyday on all seven |
| Timers.TimerRegistry.constructor | src/server/TimerManager.cpp:28-30 | no instance, no listener, no init |
| Timers.TimerRegistry.OnAlarmExpired | src/server/TimerManager.cpp:204-225 | returns 0; an unknown alarm notifies nobody; a known one notifies its listener and is removed exactly when the listener does not keep it |
| Timers.TimerManager.constructor | src/server/TimerManager.cpp:32-38 | one more instance; the first one initialises the alarm service |
| Timers.TimerManager.SetFor | src/server/TimerManager.cpp:89-105 | a non-positive interval, a NULL listener or a refused alarm gives -1 and no change; otherwise the alarm is registered to this manager and its listener |
| Timers.TimerManager.SetAt | src/server/TimerManager.cpp:107-165 | a request exactly for a valid hour, minute and day mask with a listener and a created alarm, repeating on the mask's days; registered on success |
| Timers.TimerManager.Remove | src/server/TimerManager.cpp:167-177 | cancelled exactly when the id is registered; the id then leaves both the listener map and this manager's alarms |
| Timers.TimerManager.Destroy | src/server/TimerManager.cpp:40-50 | as written: hangs exactly when the manager still owns an alarm; otherwise uncounts, and the last releases |
| Timers.TimerManager.DestroyChecked | src/server/TimerManager.cpp:40-50 | every owned alarm is cancelled, then the instance is uncounted and the last releases |
| Timers.DestroyWithTimerHangs | src/server/TimerManager.cpp:40-46 | a manager with one timer hangs on destruction |
| SharedVariables.SharedVarStore.constructor | src/server/SharedVars.cpp:25-30 | no variable is set |
| SharedVariables.SharedVarStore.Get | src/server/SharedVars.cpp:44-52 | the stored value, or "" when unset |
| SharedVariables.SharedVarStore.Set | src/server/SharedVars.cpp:36-42 | the variable holds the value, the value is returned, and the others are unchanged |
| SharedVariables.SharedVarStore.Clear | src/server/SharedVars.cpp:54-59 | the variable reads "" afterwards, and the others are unchanged |
| SignalWatch.CloseBus | src/DBusSignalWatcher.cpp:100-109 | the bus is closed afterwards, and it was closed now exactly when it was open |
| SignalWatch.SignalBuses.constructor | src/DBusSignalWatcher.cpp:37-49 | both counts zero and both buses closed |
| SignalWatch.OpenBus | src/DBusSignalWatcher.cpp:83-98 | `__openBus` leaves the bus connected exactly when a new connection was made, or when the address lookup failed and the bus was already connected; a live connection is overwritten, and so lost, exactly when it was open and the address lookup succeeded, whether the connect then succeeds or fails |
| SignalWatch.DBusSignalWatcher.constructor | src/DBusSignalWatcher.cpp:37-49 | counts one more watcher of its bus type, wrapping at 2^32; a count of 0 before opens the bus even when it is still connected, losing the old connection whenever the address lookup succeeds; otherwise the bus is untouched; the other type is untouched; the invariant is kept below 2^32-1 watchers |
| SignalWatch.DBusSignalWatcher.Destroy | src/DBusSignalWatcher.cpp:51-62 | as written: the system count is decremented for both bus types and the session count never changes |
| SignalWatch.DBusSignalWatcher.DestroyChecked | src/DBusSignalWatcher.cpp:51-62 | uncounts its own bus type; the last watcher closes it; the other type is untouched |
| SignalWatch.DBusSignalWatcher.Watch | src/DBusSignalWatcher.cpp:64-74 | -1 when the bus is not connected, else the subscription id |
| SignalWatch.DBusSignalWatcher.Unwatch | src/DBusSignalWatcher.cpp:76-81 | a negative id is ignored; otherwise that id is unsubscribed on this watcher's bus |
| SignalWatch.SessionWatcherUnbalancesCounts | src/DBusSignalWatcher.cpp:44-59 | creating and destroying one session watcher leaves the session bus open, its count at 1, and the system count wrapped to 2^32-1 |
| SignalWatch.SessionWatcherBalanced | src/DBusSignalWatcher.cpp:37-62 | with the corrected destructor, the same sequence leaves both counts 0 and both buses closed |
| SignalWatch.ReopenLeaksSystemBus | src/DBusSignalWatcher.cpp:37-62 | a system watcher, then a session watcher destroyed, leave the system count 0 with the system bus open; the next system watcher opens a second connection and the first is lost |
| SignalWatch.ReopenBalanced | src/DBusSignalWatcher.cpp:37-62 | with the corrected destructor, the same sequence counts two system watchers on one connection, closes the session bus, and loses nothing |

## Left out

- Concurrency. Mutexes, condition variables and the thread library are not
  modelled as such. The worker thread is modelled as interleaved `Step`
  calls. Each other operation runs atomically, as its mutex makes it.
- The D-Bus transport. Connection setup (`__init`, `__release`), the
  security cookie (`LEGACY_SECURITY`) and the introspection XML are not
  modelled. Their outcome is a boolean input, and a reply is an input.
- SQLite. `sqlite3_open`, `sqlite3_exec` and `sqlite3_close` are not
  modelled; their answers are inputs. The allocation failure of
  `sqlite3_mprintf` is not modelled.
- json-glib parsing and serialisation (`Json(const char*)`, `str()`,
  `__strDup`). A document is a tree value.
- JSON members of type double, and the `GVariant` overloads of the setters
  and getters.
- The text-to-number conversion of numeric strings (`__string_to_double`
  then a cast). It is a function parameter `toInt`.
- Leaked memory, such as the `QueryResult` when `g_idle_add` is refused.
  Undefined behaviour after the g_malloc abort of the `event_driven`
  constructor is also not modelled.
- `MyPlaceTypes`, `ContextManager`, `ContextProvider`, `CustomRegister`,
  the exit handler and the other registry wrappers around the core. They are
  not part of this model.
- The legacy `ctx::json` class that `request_handler` returns its results
  in. It is not part of this model; those results are kept as text.
- The alarm service and the clock. Alarm ids are inputs, and possibly
  negative ones are taken as given. The `alarm_date_t` and `ALARM_WDAY_*`
  masks are abstracted to the set of repeat days (0 is Sunday).
- Timers.TimerManager.constructor: the unsigned instance count's
  wrap-around at 2^32 is excluded by a precondition. `__init`'s result is
  ignored, as the constructor ignores it.
- Timers.FloorLog2: `log2` on a double is taken to be exact for the values
  below 2^31 that `dowToStr` sees.
- BusProtocol.NextReqId: the signed overflow of `++reqId` at INT32_MAX is
  taken to wrap to a negative value, which the code then resets to 1. In C++
  that overflow is undefined.
- SignalWatch.DBusSignalWatcher.Unwatch: the truncating cast of the id to
  `guint` is not modelled. The id is passed on as it is.
- Worker.EventDrivenThread.IsRunning, Worker.EventDrivenThread.PushEvent,
  Worker.EventDrivenThread.Stop, Worker.EventDrivenThread.Destroy: each
  requires the thread info to exist. Before `start()`, or after its
  `new thread_info_s` failed, `__threadInfo` is NULL, and the C++ reads through
  it (src/EventDrivenThread.cpp:43, 83, 107, 112). That NULL read is not
  modelled.
- Timers.DowToStr: requires `dow > 0`. For `dow <= 0` the code casts the
  double `log2` of zero (minus infinity) or of a negative number (NaN) to
  `int` (src/server/TimerManager.cpp:67), which is undefined; that case is not
  modelled.
- DatabaseManagement.DatabaseManager.Destruct: deleting the thread runs
  `~EventDrivenThread`, which calls `stop()` a second time
  (src/EventDrivenThread.cpp:43). That second call is not modelled; the
  thread is dropped after the first.
- DatabaseManagement.DatabaseManager.Construct: what happens after SIGTERM
  is not modelled. The method reports `sigterm`, and the state it leaves
  satisfies the invariant only when `sigterm` is false. The wrap-around of
  the unsigned reference count at 2^32 is excluded by a precondition.
- SignalWatch.DBusSignalWatcher.constructor: the wrap-around of a bus's
  watcher count at 2^32 is modelled, but the class invariant is promised
  afterwards only below 2^32-1 watchers.
- `deleteEvent` is modelled on `ctx::DatabaseThread`, though its header does
  not declare it as an override.
- JsonDoc.Json.Copy: aliasing between Json handles is not modelled.
  `json_node_copy` shares the underlying object or array, so in the C++ an
  edit through one handle shows in the copy (include/Json.h:41-45). The model
  gives copies value semantics.
- JsonDoc.Json.Assign: the node `operator=` copies shares its object or array
  with the source handle; the model gives the result value semantics.
- JsonDoc.Json.Get: the `Json` that `get(path, key, Json*)` fills shares the
  member's object or array with the document; the model gives it value
  semantics.
- JsonDoc.Json.GetAt: the `Json` that `getAt(path, key, index, Json*)` fills
  shares the element's object or array with the document; the model gives it
  value semantics.
- JsonDoc.Json.Set: a NULL `key`, for which the code returns false, is not
  modelled (keys are strings), and neither is `j.set(path, key, j)`, which
  inserts the document into itself; the method requires `val != this`.
- JsonDoc.Json.Append: a NULL `key` is not modelled, and neither is appending
  a document to itself; the method requires `val != this`.
- JsonDoc.Json.SetAt: a NULL `key` is not modelled, and neither is setting an
  element from the document itself; the method requires `val != this`.

## Findings

| source | as written | input that shows it | evidently intended | confidence | as-written member | corrected member |
|---|---|---|---|---|---|---|
| src/shared/Json.cpp:148-156 | `operator=(const Json&)` releases its own node and then copies the other's | `j = j` on a valid document | the document is unchanged by self-assignment | not executed | JsonDoc.Json.Assign, JsonDoc.SelfAssignmentLosesDocument | JsonDoc.Json.AssignChecked |
| src/server/DatabaseThread.cpp:135-157 | every failure of `insertSync` returns before `*rowId = -1`, so the caller's value stays | `rowId` holding 7 and SQLite failing | include/DatabaseManager.h:71 says a negative row id on failure | not executed | Database.InsertSync, Database.InsertSyncFailureKeepsRowId | Database.InsertSyncChecked |
| src/client/DBusClient.cpp:219-227 | the no-reply call passes `&err` as callback user data, so `err` is never set and the result is always ERR_NONE (likewise src/dbus_client.cpp:193-201) | the bus refusing the call | a failed call reports ERR_OPERATION_FAILED | not executed | BusProtocol.RequestNoReply, BusProtocol.NoReplyHidesFailure | BusProtocol.RequestNoReplyChecked |
| src/request_handler.cpp:117 | unsubscribe, read, read_sync, write, write_with_reply and is_supported return `false` (0, ERR_NONE) when initialize fails (also lines 126, 157, 185, 206, 232) | `read` with no bus connection | an error code, as subscribe returns ERR_OPERATION_FAILED | not executed | RequestHandler.InitFailureCode, RequestHandler.InitFailureReportsSuccess, RequestHandler.ReadWithoutConnection | RequestHandler.InitFailureCodeChecked |
| src/DBusSignalWatcher.cpp:59 | the SESSION branch of the destructor decrements `__systemBusCnt`; a system count back at 0 with the system bus still open makes the next system watcher open a second connection over the first | one session watcher created and destroyed; or a system watcher, a session watcher destroyed, then a second system watcher | `--__sessionBusCnt`, closing the session bus | not executed | SignalWatch.DBusSignalWatcher.Destroy, SignalWatch.SessionWatcherUnbalancesCounts, SignalWatch.ReopenLeaksSystemBus | SignalWatch.DBusSignalWatcher.DestroyChecked, SignalWatch.SessionWatcherBalanced, SignalWatch.ReopenBalanced |
| src/client/DBusClient.cpp:369-383 | `call(method)` never runs `__init()`; with no connection the call returns NULL without setting `err`, and `err->code` is read through NULL | `call` on a client before any other request | connect first and return ERR_OPERATION_FAILED when that fails, as the other requests do | not executed | DBusClientModel.Call, DBusClientModel.CallWithoutConnectionCrashes | DBusClientModel.DBusClient.CallChecked |
| src/client/DBusClient.cpp:92-94 | `__listenerMap.find(subject)` is used without comparing it with `end()` | a Respond for a subject with no registered listener, such as the answer to a `read` made before `addListener` | an unknown subject is ignored, as src/request_handler.cpp:251-257 does | not executed | DBusClientModel.DBusClient.OnMethodCalled, DBusClientModel.ResponseWithoutListenerCrashes | DBusClientModel.DBusClient.OnMethodCalledChecked |
| src/server/TimerManager.cpp:42-46 | the destructor holds `__mutex` and calls `remove`, which locks `__mutex` again; a GMutex is not recursive (GLib reference manual, GMutex), so this blocks forever | destroying a manager that owns one timer | each owned timer cancelled and the instance released | not executed | Timers.TimerManager.Destroy, Timers.DestroyWithTimerHangs | Timers.TimerManager.DestroyChecked |

=== FILE: bus_protocol.dfy ===
/**
 * What the two D-Bus clients (src/client/DBusClient.cpp and the older
 * src/request_handler.cpp over src/dbus_client.cpp) share: the request-id rule,
 * the request message of D-Bus signature `(isiss)`, the reply of signature
 * `(iss)`, and how a reply (or its absence) becomes a return code and output
 * parameters.  The bus itself is an oracle: the reply is an input.
 */
module BusProtocol {
  import opened Common

  /** `RequestType` of include/DBusTypes.h. */
  const REQ_SUBSCRIBE: int := 1
  const REQ_UNSUBSCRIBE: int := 2
  const REQ_READ: int := 3
  const REQ_READ_SYNC: int := 4
  const REQ_WRITE: int := 5
  const REQ_SUPPORT: int := 6

  const METHOD_RESPOND: string := "Respond"

  /*
   * Request ids.
   */

  /** One request id after `c`: the pre-incremented counter, restarting at 1 instead of overflowing. */
  function NextReqId(c: int): (r: int)
    requires 0 <= c <= INT32_MAX
    ensures 1 <= r <= INT32_MAX
    ensures c < INT32_MAX ==> r == c + 1
    ensures c == INT32_MAX ==> r == 1
  {
    if c == INT32_MAX then 1 else c + 1
  }

  /** The counter after `k` ids were generated from `c`. */
  function ReqIdAfter(c: int, k: nat): (r: int)
    requires 0 <= c <= INT32_MAX
    ensures 0 <= r <= INT32_MAX
    ensures k > 0 ==> r >= 1
  {
    if k == 0 then c else NextReqId(ReqIdAfter(c, k - 1))
  }

  lemma ModStep(a: int)
    ensures ((a % INT32_MAX) + 1 == INT32_MAX ==> (a + 1) % INT32_MAX == 0)
    ensures ((a % INT32_MAX) + 1 < INT32_MAX ==> (a + 1) % INT32_MAX == (a % INT32_MAX) + 1)
  {
    var q := a / INT32_MAX;
    var r := a % INT32_MAX;
    assert a == q * INT32_MAX + r;
    if r + 1 == INT32_MAX {
      assert a + 1 == (q + 1) * INT32_MAX;
    } else {
      assert a + 1 == q * INT32_MAX + (r + 1);
    }
  }

  /** The ids cycle through 1..INT32_MAX: the k-th id after `c` is `(c - 1 + k) mod INT32_MAX + 1`. */
  lemma {:induction false} ReqIdClosedForm(c: int, k: nat)
    requires 0 <= c <= INT32_MAX && (c > 0 || k > 0)
    ensures ReqIdAfter(c, k) == (c - 1 + k) % INT32_MAX + 1
  {
    if k == 0 {
      assert (c - 1) % INT32_MAX == c - 1;
    } else if c == 0 && k == 1 {
    } else {
      var a := c - 1 + (k - 1);
      var prev := ReqIdAfter(c, k - 1);
      ReqIdClosedForm(c, k - 1);
      assert prev == a % INT32_MAX + 1;
      ModStep(a);
      assert ReqIdAfter(c, k) == NextReqId(prev);
    }
  }

  lemma ModApart(a: int, d: int)
    requires 0 < d < INT32_MAX
    ensures (a + d) % INT32_MAX != a % INT32_MAX
  {
    var q := a / INT32_MAX;
    var r := a % INT32_MAX;
    assert a == q * INT32_MAX + r;
    if r + d < INT32_MAX {
      assert a + d == q * INT32_MAX + (r + d);
    } else {
      assert a + d == (q + 1) * INT32_MAX + (r + d - INT32_MAX);
    }
  }

  /** Any INT32_MAX consecutive ids are pairwise distinct. */
  lemma ReqIdsDistinct(c: int, i: nat, j: nat)
    requires 0 <= c <= INT32_MAX
    requires 1 <= i < j < i + INT32_MAX
    ensures ReqIdAfter(c, i) != ReqIdAfter(c, j)
  {
    ReqIdClosedForm(c, i);
    ReqIdClosedForm(c, j);
    ModApart(c - 1 + i, j - i);
  }

  /*
   * Messages.
   */

  /** The request message `(isiss)`: type, security cookie (always empty here), id, subject, input. */
  datatype Wire = Wire(kind: int, cookie: string, reqId: int, subject: string, input: string)

  /** The reply `(iss)`: error code, result text, output text. */
  datatype Reply = Reply(error: int, result: string, output: string)

  /** A NULL input is sent as an empty JSON object. */
  function InputText(input: Option<string>): (t: string)
    ensures input.Some? ==> t == input.value
    ensures input.None? ==> t == EMPTY_JSON_OBJECT
  {
    if input.Some? then input.value else EMPTY_JSON_OBJECT
  }

  /** The outcome of one request: what was sent, the return code and the output parameters. */
  datatype Answer = Answer(sent: Option<Wire>, error: int, result: Ptr<string>, output: Ptr<string>)

  /**
   * The replying request (`__request` with outputs, `dbus_client::request`):
   * nothing is sent when the message cannot be built (`paramAlloc`); no reply
   * gives ERR_OPERATION_FAILED with the outputs untouched; a reply gives its
   * error code, and its texts go into the outputs that are not NULL.
   */
  function Request(kind: int, reqId: int, subject: string, input: Option<string>,
                   result: Ptr<string>, output: Ptr<string>, paramAlloc: bool, reply: Option<Reply>)
    : (a: Answer)
    ensures !paramAlloc ==> a == Answer(None, ERR_OUT_OF_MEMORY, result, output)
    ensures paramAlloc ==> a.sent == Some(Wire(kind, "", reqId, subject, InputText(input)))
    ensures paramAlloc && reply.None? ==> a.error == ERR_OPERATION_FAILED && a.result == result && a.output == output
    ensures paramAlloc && reply.Some? ==> a.error == reply.value.error
    ensures paramAlloc && reply.Some? ==>
      a.result == (if result.At? then At(reply.value.result) else Ptr.Null)
      && a.output == (if output.At? then At(reply.value.output) else Ptr.Null)
  {
    if !paramAlloc then Answer(None, ERR_OUT_OF_MEMORY, result, output)
    else
      var w := Wire(kind, "", reqId, subject, InputText(input));
      match reply
      case None => Answer(Some(w), ERR_OPERATION_FAILED, result, output)
      case Some(r) =>
        Answer(Some(w), r.error,
               if result.At? then At(r.result) else result,
               if output.At? then At(r.output) else output)
  }

  /**
   * The request without reply as written: the call's error pointer is passed as
   * the callback's user data, so it is never set, and whether the call fails
   * (`callFails`) makes no difference: the answer is ERR_NONE.
   */
  function RequestNoReply(kind: int, reqId: int, subject: string, input: Option<string>,
                          paramAlloc: bool, callFails: bool)
    : (a: Answer)
    ensures !paramAlloc ==> a == Answer(None, ERR_OUT_OF_MEMORY, Ptr.Null, Ptr.Null)
    ensures paramAlloc ==> a.sent == Some(Wire(kind, "", reqId, subject, InputText(input)))
    ensures paramAlloc ==> a.error == ERR_NONE
  {
    if !paramAlloc then Answer(None, ERR_OUT_OF_MEMORY, Ptr.Null, Ptr.Null)
    else
      Answer(Some(Wire(kind, "", reqId, subject, InputText(input))), ERR_NONE, Ptr.Null, Ptr.Null)
  }

  /** A failed call still reports success. */
  lemma NoReplyHidesFailure(kind: int, reqId: int, subject: string, input: Option<string>)
    ensures RequestNoReply(kind, reqId, subject, input, true, true).error == ERR_NONE
    ensures RequestNoReply(kind, reqId, subject, input, true, true).sent.Some?
  {
  }

  /** The request without reply with the call's error reported: ERR_NONE exactly when the call went out. */
  function RequestNoReplyChecked(kind: int, reqId: int, subject: string, input: Option<string>,
                                 paramAlloc: bool, callFails: bool)
    : (a: Answer)
    ensures !paramAlloc ==> a == Answer(None, ERR_OUT_OF_MEMORY, Ptr.Null, Ptr.Null)
    ensures paramAlloc ==> a.sent == Some(Wire(kind, "", reqId, subject, InputText(input)))
    ensures a.error == ERR_NONE <==> paramAlloc && !callFails
    ensures paramAlloc && callFails ==> a.error == ERR_OPERATION_FAILED
  {
    if !paramAlloc then Answer(None, ERR_OUT_OF_MEMORY, Ptr.Null, Ptr.Null)
    else
      Answer(Some(Wire(kind, "", reqId, subject, InputText(input))),
             if callFails then ERR_OPERATION_FAILED else ERR_NONE, Ptr.Null, Ptr.Null)
  }

  /** An inbound call on a listener: `onPublish(subject, reqId, error, data)` or a response callback. */
  datatype Publish<L> = Publish(listener: L, subject: string, reqId: int, error: int, data: string)
}

=== FILE: common.dfy ===
/**
 * Shared vocabulary of the context-service model: optional values, C out-pointers,
 * the error codes of include/types_internal.h and the 32-bit integer bounds.
 */
module Common {

  datatype Option<T> = None | Some(value: T)

  /**
   * A C pointer argument that the callee may write through: `Null` is the null
   * pointer, `At(v)` a pointer to a variable currently holding `v`.  A callee
   * returns the updated pointer; "left untouched" means it returns its argument.
   */
  datatype Ptr<T> = Null | At(value: T)

  /** Identity of a caller-owned listener or callback object (never owned by the core). */
  datatype ListenerRef = ListenerRef(id: nat)

  /*
   * Error codes.  ERR_NONE is TIZEN_ERROR_NONE, which is 0; the other values come
   * from tizen_error.h, which is not part of this model, so distinct negative
   * stand-ins are used and only their distinctness matters.
   */
  const ERR_NONE: int := 0
  const ERR_INVALID_PARAMETER: int := -22
  const ERR_OUT_OF_MEMORY: int := -12
  const ERR_PERMISSION_DENIED: int := -13
  const ERR_OPERATION_FAILED: int := -1004

  const INT32_MAX: int := 0x7FFF_FFFF
  const UINT32_MODULUS: int := 0x1_0000_0000

  /** The JSON text the C++ code sends when an input document is absent. */
  const EMPTY_JSON_OBJECT: string := "{}"

  /** `++` and `--` on an `unsigned int` counter: arithmetic modulo 2^32. */
  function Inc32(c: int): (r: int)
    requires 0 <= c < UINT32_MODULUS
    ensures 0 <= r < UINT32_MODULUS
    ensures c < UINT32_MODULUS - 1 ==> r == c + 1
    ensures c == UINT32_MODULUS - 1 ==> r == 0
  {
    (c + 1) % UINT32_MODULUS
  }

  function Dec32(c: int): (r: int)
    requires 0 <= c < UINT32_MODULUS
    ensures 0 <= r < UINT32_MODULUS
    ensures c > 0 ==> r == c - 1
    ensures c == 0 ==> r == UINT32_MODULUS - 1
  {
    (c - 1) % UINT32_MODULUS
  }

  /** Decrementing undoes incrementing, and incrementing undoes decrementing. */
  lemma IncDecInverse(c: int)
    requires 0 <= c < UINT32_MODULUS
    ensures Dec32(Inc32(c)) == c
    ensures Inc32(Dec32(c)) == c
  {
  }
}

=== FILE: database_manager.dfy ===
/**
 * `ctx::DatabaseManager` (src/server/DatabaseManager.cpp): a handle on one
 * process-wide `DatabaseThread`.  The class below holds the file's static state,
 * the reference count `__refCount` and the pointer `__databaseThread`; `Construct`
 * and `Destruct` are what each handle's constructor and destructor do to it, and
 * the operations forward to the shared thread.
 */
module DatabaseManagement {
  import opened Common
  import opened JsonTree
  import opened JsonDoc
  import opened WorkQueue
  import opened Worker
  import opened Database

  class DatabaseManager {
    /** `__refCount`: the number of live handles. */
    var refCount: int
    /** `__databaseThread`. */
    var thread: DatabaseThread?

    /** A shared thread exists, with its worker allocated, exactly while handles are live. */
    ghost predicate Valid()
      reads this, thread, if thread != null then {thread.worker} else {}
    {
      && 0 <= refCount < UINT32_MODULUS
      && (refCount == 0 <==> thread == null)
      && (thread != null ==> thread.Valid() && thread.worker.hasInfo)
    }

    constructor ()
      ensures Valid() && refCount == 0 && thread == null
    {
      refCount := 0;
      thread := null;
    }

    /**
     * `DatabaseManager()`: count the handle; only the first one creates, opens
     * and starts the thread.  A failure of any of these raises SIGTERM
     * (`sigterm`), which ends the process.  `openOk` is SQLite's answer to open;
     * `infoAlloc`, `queueAlloc` and `threadCreated` are start()'s allocations.
     */
    method Construct(allocOk: bool, openOk: bool, infoAlloc: bool, queueAlloc: bool, threadCreated: bool)
      returns (sigterm: bool)
      requires Valid() && refCount < UINT32_MODULUS - 1
      modifies this
      ensures refCount == old(refCount) + 1
      ensures old(refCount) > 0 ==> !sigterm && thread == old(thread) && Valid()
      ensures old(refCount) == 0 ==> (sigterm <==> !(allocOk && openOk && infoAlloc && queueAlloc && threadCreated))
      ensures old(refCount) == 0 && !sigterm ==>
        Valid() && fresh(thread) && fresh(thread.worker) && thread.worker.running && thread.idle == []
    {
      refCount := Inc32(refCount);
      if refCount > 1 {
        return false;
      }
      if !allocOk {
        return true;
      }
      var t := new DatabaseThread();
      thread := t;
      if !openOk {
        return true;
      }
      var started := t.worker.Start(infoAlloc, queueAlloc, threadCreated);
      if !started {
        return true;
      }
      return false;
    }

    /**
     * `~DatabaseManager()`: uncount the handle; the last one stops the thread
     * (with `termAlloc` and `racing` as in stop()), closes the database, deletes
     * the thread and clears the pointer.  Deleting the thread runs
     * `~EventDrivenThread`, which calls stop() once more; that second call
     * matters only when the first could not allocate its terminal message, and
     * it is not modelled: the thread is simply dropped.
     */
    method Destruct(termAlloc: bool, racing: nat)
      requires Valid() && refCount > 0
      modifies this, thread, thread.worker
      ensures Valid()
      ensures refCount == old(refCount) - 1
      ensures refCount > 0 ==> thread == old(thread)
      ensures refCount == 0 ==> thread == null
      ensures refCount == 0 && termAlloc ==> !old(thread).worker.running && old(thread).worker.queue == []
    {
      refCount := Dec32(refCount);
      if refCount > 0 {
        return;
      }
      if thread == null {
        return;
      }
      var _ := thread.worker.Stop(termAlloc, racing);
      thread := null;
    }

    /** `createTable`, forwarded unchanged to the shared thread. */
    method CreateTable(queryId: nat, table: string, columns: string, option: Option<string>,
                       listener: Option<ListenerRef>, infoAlloc: bool, msgAlloc: bool)
      returns (ok: bool)
      requires Valid() && thread != null
      modifies thread.worker
      ensures Valid()
      ensures ok <==> infoAlloc && old(thread.worker.running) && msgAlloc
      ensures ok ==> (thread.worker.queue == old(thread.worker.queue) +
        [Message(QUERY_CREATE_TABLE, Some(QueryInfo(queryId, listener, ComposeCreate(table, columns, option))), false)])
      ensures ok ==> thread.worker.accepted == old(thread.worker.accepted) + [Event(QUERY_CREATE_TABLE, Some(QueryInfo(queryId, listener, ComposeCreate(table, columns, option))))]
      ensures !ok ==> thread.worker.queue == old(thread.worker.queue) && thread.worker.accepted == old(thread.worker.accepted)
      ensures thread.worker.running == old(thread.worker.running) && thread.worker.hasInfo == old(thread.worker.hasInfo)
      ensures thread.worker.log == old(thread.worker.log)
    {
      ok := thread.CreateTable(queryId, table, columns, option, listener, infoAlloc, msgAlloc);
    }

    /** `insert`, forwarded. */
    method Insert(queryId: nat, table: string, record: Json, listener: Option<ListenerRef>,
                  toInt: string -> int64, infoAlloc: bool, msgAlloc: bool)
      returns (ok: bool)
      requires Valid() && thread != null
      modifies thread.worker
      ensures Valid()
      ensures ok <==> InsertQuery(table, record.node, toInt) != "" && infoAlloc && old(thread.worker.running) && msgAlloc
      ensures ok ==> (thread.worker.queue == old(thread.worker.queue) +
        [Message(QUERY_INSERT, Some(QueryInfo(queryId, listener, InsertQuery(table, record.node, toInt))), false)])
      ensures ok ==> thread.worker.accepted == old(thread.worker.accepted) + [Event(QUERY_INSERT, Some(QueryInfo(queryId, listener, InsertQuery(table, record.node, toInt))))]
      ensures !ok ==> thread.worker.queue == old(thread.worker.queue) && thread.worker.accepted == old(thread.worker.accepted)
      ensures thread.worker.running == old(thread.worker.running) && thread.worker.hasInfo == old(thread.worker.hasInfo)
      ensures thread.worker.log == old(thread.worker.log)
    {
      ok := thread.Insert(queryId, table, record, listener, toInt, infoAlloc, msgAlloc);
    }

    /** `execute`, forwarded. */
    method Execute(queryId: nat, query: Option<string>, listener: Option<ListenerRef>,
                   infoAlloc: bool, msgAlloc: bool)
      returns (ok: bool)
      requires Valid() && thread != null
      modifies thread.worker
      ensures Valid()
      ensures ok <==> query.Some? && infoAlloc && old(thread.worker.running) && msgAlloc
      ensures ok ==> (thread.worker.queue == old(thread.worker.queue) +
        [Message(QUERY_EXECUTE, Some(QueryInfo(queryId, listener, query.value)), false)])
      ensures ok ==> thread.worker.accepted == old(thread.worker.accepted) + [Event(QUERY_EXECUTE, Some(QueryInfo(queryId, listener, query.value)))]
      ensures !ok ==> thread.worker.queue == old(thread.worker.queue) && thread.worker.accepted == old(thread.worker.accepted)
      ensures thread.worker.running == old(thread.worker.running) && thread.worker.hasInfo == old(thread.worker.hasInfo)
      ensures thread.worker.log == old(thread.worker.log)
    {
      ok := thread.Execute(queryId, query, listener, infoAlloc, msgAlloc);
    }

    /** `createTableSync`, forwarded. */
    method CreateTableSync(table: string, columns: string, option: Option<string>, execOk: bool)
      returns (ok: bool)
      requires thread != null
      ensures ok == execOk
    {
      var query;
      ok, query := Database.CreateTableSync(table, columns, option, execOk);
    }

    /** `insertSync`, forwarded. */
    method InsertSync(table: Option<string>, record: Json, rowId: Ptr<int64>, outcome: ExecOutcome,
                      toInt: string -> int64)
      returns (ok: bool, rowId': Ptr<int64>)
      requires thread != null
      ensures !ok ==> rowId' == rowId
      ensures ok <==> table.Some? && rowId.At? && InsertQuery(table.value, record.node, toInt) != ""
                      && outcome.ok && Materialise(outcome.rows) != []
      ensures ok ==> rowId' == At(SeqOf(Materialise(outcome.rows)[0], toInt))
    {
      ok, rowId' := Database.InsertSync(table, record, rowId, outcome, toInt);
    }

    /** `executeSync`, forwarded. */
    method ExecuteSync(query: Option<string>, records: Ptr<seq<Node>>, outcome: ExecOutcome)
      returns (ok: bool, records': Ptr<seq<Node>>)
      requires thread != null
      ensures query.None? || records.Null? ==> !ok && records' == records
      ensures query.Some? && records.At? ==>
        ok == outcome.ok && records' == At(records.value + Materialise(outcome.rows))
    {
      ok, records' := Database.ExecuteSync(query, records, outcome);
    }
  }

  /**
   * `n` handles created and then destroyed again: the count is back at zero and
   * the shared thread is gone.
   */
  method HandlesComeAndGo(n: nat) returns (m: DatabaseManager)
    requires 0 < n < UINT32_MODULUS - 1
    ensures m.Valid() && m.refCount == 0 && m.thread == null
  {
    m := new DatabaseManager();
    var i := 0;
    while i < n
      invariant 0 <= i <= n
      invariant m.Valid() && m.refCount == i
      invariant fresh(m) && (m.thread == null || (fresh(m.thread) && fresh(m.thread.worker)))
    {
      var sigterm := m.Construct(true, true, true, true, true);
      i := i + 1;
    }
    while i > 0
      invariant 0 <= i <= n
      invariant m.Valid() && m.refCount == i
      invariant fresh(m) && (m.thread == null || (fresh(m.thread) && fresh(m.thread.worker)))
    {
      m.Destruct(true, 0);
      i := i - 1;
    }
  }
}

=== FILE: database_thread.dfy ===
/**
 * The database worker `ctx::DatabaseThread` (src/server/DatabaseThread.cpp): the
 * SQL text it composes, the rows it materialises from SQLite's callback, its
 * synchronous calls with their out-parameters, the asynchronous path through the
 * event-driven worker, and the dispatcher that reports results to a listener.
 *
 * SQLite itself is an oracle: an `ExecOutcome` says which rows `sqlite3_exec`
 * hands to the callback and whether it returns SQLITE_OK.
 */
module Database {
  import opened Common
  import opened JsonTree
  import opened JsonLaws
  import opened JsonDoc
  import opened WorkQueue
  import opened Worker

  /** `QueryType` of src/server/DatabaseThread.h. */
  const QUERY_CREATE_TABLE: int := 1
  const QUERY_INSERT: int := 2
  const QUERY_EXECUTE: int := 3

  const CREATE_PREFIX: string := "CREATE TABLE IF NOT EXISTS "
  const ROW_ID_COLUMN: string := " (row_id INTEGER NOT NULL PRIMARY KEY AUTOINCREMENT,"

  /*
   * __composeCreate
   */

  /**
   * The CREATE TABLE statement: the table, the implicit `row_id` column, the
   * caller's columns, the option (when there is one) and a closing ';'.
   */
  function ComposeCreate(table: string, columns: string, option: Option<string>): (q: string)
    ensures |q| >= |CREATE_PREFIX| + |table| + |columns| + 2 && q[|q| - 1] == ';'
    ensures CREATE_PREFIX + table + ROW_ID_COLUMN + columns + ")" <= q
    ensures option.None? ==> q[|q| - |columns| - 2..] == columns + ");"
    ensures option.Some? ==> |q| >= |option.value| + 3 && q[|q| - |option.value| - 3..] == ") " + option.value + ";"
  {
    var q := CREATE_PREFIX + table + ROW_ID_COLUMN + columns + ")";
    if option.Some? then q + " " + option.value + ";" else q + ";"
  }

  /** Different column lists give different statements, for the same table and option. */
  lemma ComposeCreateInjective(table: string, c1: string, c2: string, option: Option<string>)
    requires ComposeCreate(table, c1, option) == ComposeCreate(table, c2, option)
    ensures c1 == c2
  {
    var n := |CREATE_PREFIX + table + ROW_ID_COLUMN|;
    var q1 := ComposeCreate(table, c1, option);
    var q2 := ComposeCreate(table, c2, option);
    assert |c1| == |c2|;
    assert q1[n..n + |c1|] == c1;
    assert q2[n..n + |c2|] == c2;
  }

  /*
   * SQL text of values: sqlite3_mprintf("%Q", s) and std::to_string(int64_t).
   */

  /** The body of a `%Q` literal: every single quote doubled. */
  function Escape(s: string): (r: string)
    ensures |r| >= |s|
  {
    if s == [] then [] else (if s[0] == '\'' then "''" else [s[0]]) + Escape(s[1..])
  }

  /** `%Q`: the text between single quotes, inner quotes doubled; SQL reads it back as `s`. */
  function SqlQuote(s: string): (r: string)
    ensures |r| >= 2 && r[0] == '\'' && r[|r| - 1] == '\''
    ensures Unescape(r[1..|r| - 1]) == s
  {
    var r := "'" + Escape(s) + "'";
    assert r[1..|r| - 1] == Escape(s);
    UnescapeEscape(s);
    r
  }

  /** How SQL reads a literal's body back: a doubled quote stands for one quote. */
  function Unescape(r: string): string
    decreases |r|
  {
    if r == [] then []
    else if |r| >= 2 && r[0] == '\'' && r[1] == '\'' then "'" + Unescape(r[2..])
    else [r[0]] + Unescape(r[1..])
  }

  /** A quoted value reads back as the value itself. */
  lemma {:induction false} UnescapeEscape(s: string)
    ensures Unescape(Escape(s)) == s
  {
    if s != [] {
      UnescapeEscape(s[1..]);
      if s[0] == '\'' {
        assert Escape(s) == "''" + Escape(s[1..]);
        assert Escape(s)[2..] == Escape(s[1..]);
      } else {
        assert Escape(s) == [s[0]] + Escape(s[1..]);
        assert Escape(s)[1..] == Escape(s[1..]);
      }
    }
  }

  function DigitChar(d: nat): char
    requires d < 10
  {
    "0123456789"[d]
  }

  /** The decimal digits of `n`, most significant first, without leading zeros. */
  function Digits(n: nat): (r: string)
    ensures |r| >= 1
    ensures forall i :: 0 <= i < |r| ==> '0' <= r[i] <= '9'
  {
    if n < 10 then [DigitChar(n)] else Digits(n / 10) + [DigitChar(n % 10)]
  }

  /** `std::to_string` of a 64-bit integer: a minus sign exactly for negative values, then digits. */
  function Decimal(i: int): (r: string)
    ensures r != [] && (r[0] == '-' <==> i < 0)
    ensures forall k :: (if i < 0 then 1 else 0) <= k < |r| ==> '0' <= r[k] <= '9'
  {
    if i < 0 then "-" + Digits(-i) else Digits(i)
  }

  function DigitsValue(s: string): int
  {
    if s == [] then 0 else 10 * DigitsValue(s[..|s| - 1]) + (s[|s| - 1] as int - '0' as int)
  }

  /** How SQL reads an integer literal. */
  function DecimalValue(s: string): int {
    if s != [] && s[0] == '-' then -DigitsValue(s[1..]) else DigitsValue(s)
  }

  lemma {:induction false} DigitsRoundTrip(n: nat)
    ensures DigitsValue(Digits(n)) == n
  {
    if n >= 10 {
      DigitsRoundTrip(n / 10);
      var r := Digits(n);
      assert r[..|r| - 1] == Digits(n / 10);
    }
  }

  /** A leading minus sign negates the digits that follow it. */
  lemma NegativeValue(d: string)
    ensures DecimalValue("-" + d) == -DigitsValue(d)
  {
    var s := "-" + d;
    assert s[1..] == d;
  }

  /** A run of digits has no leading minus sign. */
  lemma NonNegativeValue(d: string)
    requires d != [] && '0' <= d[0] <= '9'
    ensures DecimalValue(d) == DigitsValue(d)
  {
  }

  /** An integer written by to_string reads back as the same integer. */
  lemma DecimalRoundTrip(i: int)
    ensures DecimalValue(Decimal(i)) == i
  {
    if i < 0 {
      var n: nat := -i;
      var d := Digits(n);
      assert Decimal(i) == "-" + d;
      DigitsRoundTrip(n);
      NegativeValue(d);
    } else {
      DigitsRoundTrip(i);
      NonNegativeValue(Digits(i));
    }
  }


  /*
   * __composeInsert
   */

  /** A column of the INSERT: the member name and the SQL text of its value. */
  datatype Column = Column(name: string, text: string)

  /**
   * The SQL text one member of the record contributes: a value that reads as a
   * string is quoted; otherwise one that reads as an integer is written in
   * decimal; anything else contributes nothing.
   */
  function ValueText(record: Node, key: string, toInt: string -> int64): (r: Option<string>)
    ensures r.Some? <==> JsonTree.GetString(record, [], key).Some? || JsonTree.GetInt(record, [], key, toInt).Some?
  {
    match JsonTree.GetString(record, [], key)
    case Some(s) => Some(SqlQuote(s))
    case None =>
      match JsonTree.GetInt(record, [], key, toInt)
      case Some(i) => Some(Decimal(i as int))
      case None => None
  }

  /** The columns for `keys`, in key order, skipping keys without SQL text. */
  function InsertColumns(record: Node, keys: seq<string>, toInt: string -> int64): (cs: seq<Column>)
    ensures |cs| <= |keys|
  {
    if keys == [] then []
    else
      var init := InsertColumns(record, keys[..|keys| - 1], toInt);
      var k := keys[|keys| - 1];
      match ValueText(record, k, toInt)
      case Some(t) => init + [Column(k, t)]
      case None => init
  }

  function Names(cs: seq<Column>): (r: seq<string>)
    ensures |r| == |cs| && forall i :: 0 <= i < |cs| ==> r[i] == cs[i].name
  {
    seq(|cs|, i requires 0 <= i < |cs| => cs[i].name)
  }

  function Texts(cs: seq<Column>): (r: seq<string>)
    ensures |r| == |cs| && forall i :: 0 <= i < |cs| ==> r[i] == cs[i].text
  {
    seq(|cs|, i requires 0 <= i < |cs| => cs[i].text)
  }

  lemma ColumnsSnoc(cs: seq<Column>, c: Column)
    ensures Names(cs + [c]) == Names(cs) + [c.name]
    ensures Texts(cs + [c]) == Texts(cs) + [c.text]
  {
    assert Names(cs + [c]) == Names(cs) + [c.name];
    assert Texts(cs + [c]) == Texts(cs) + [c.text];
  }

  /** Every item followed by a comma: what the loop of __composeInsert accumulates. */
  function Terminated(xs: seq<string>): string
  {
    if xs == [] then "" else Terminated(xs[..|xs| - 1]) + xs[|xs| - 1] + ","
  }

  /** Items separated by commas. */
  function CommaList(xs: seq<string>): string
  {
    if xs == [] then "" else if |xs| == 1 then xs[0] else CommaList(xs[..|xs| - 1]) + "," + xs[|xs| - 1]
  }

  /** Erasing the last comma of the accumulated text leaves the comma-separated list. */
  lemma {:induction false} TerminatedDropLast(xs: seq<string>)
    requires xs != []
    ensures |Terminated(xs)| > 0
    ensures Terminated(xs)[..|Terminated(xs)| - 1] == CommaList(xs)
  {
    var t := Terminated(xs);
    var init := xs[..|xs| - 1];
    assert t == Terminated(init) + xs[|xs| - 1] + ",";
    assert t[..|t| - 1] == Terminated(init) + xs[|xs| - 1];
    if |xs| > 1 {
      TerminatedDropLast(init);
      var ti := Terminated(init);
      assert ti == ti[..|ti| - 1] + ",";
    }
  }

  lemma {:induction false} TerminatedEmpty(xs: seq<string>)
    ensures Terminated(xs) == "" <==> xs == []
  {
    if xs != [] {
      assert Terminated(xs)[|Terminated(xs)| - 1] == ',';
    }
  }

  /**
   * The statement __composeInsert returns: "" when the record is not an object
   * (getKeys fails) or no member has SQL text; otherwise the INSERT of the
   * columns in member order, followed by the query for the table's last row id.
   */
  function InsertQuery(table: string, record: Option<Node>, toInt: string -> int64): (r: string)
    ensures r != "" ==> record.Some? && record.value.Object?
  {
    if record.None? || !record.value.Object? then ""
    else
      var cs := InsertColumns(record.value, KeysOf(record.value.members), toInt);
      if cs == [] then ""
      else
        "INSERT INTO " + table + " (" + CommaList(Names(cs)) + ") VALUES (" + CommaList(Texts(cs)) + ");"
        + "SELECT seq FROM sqlite_sequence WHERE name='" + table + "';"
  }

  /** One more key extends the columns by that key's column, when it has SQL text. */
  lemma InsertColumnsNext(record: Node, keys: seq<string>, i: nat, toInt: string -> int64, text: Option<string>)
    requires i < |keys| && text == ValueText(record, keys[i], toInt)
    ensures text.Some? ==>
      InsertColumns(record, keys[..i + 1], toInt) == InsertColumns(record, keys[..i], toInt) + [Column(keys[i], text.value)]
    ensures text.None? ==> InsertColumns(record, keys[..i + 1], toInt) == InsertColumns(record, keys[..i], toInt)
  {
    assert keys[..i + 1][..i] == keys[..i];
  }

  /** The accumulated texts after one more column. */
  lemma TerminatedSnoc(cs: seq<Column>, c: Column)
    ensures Terminated(Names(cs + [c])) == Terminated(Names(cs)) + c.name + ","
    ensures Terminated(Texts(cs + [c])) == Terminated(Texts(cs)) + c.text + ","
  {
    ColumnsSnoc(cs, c);
    assert (Names(cs) + [c.name])[..|cs|] == Names(cs);
    assert (Texts(cs) + [c.text])[..|cs|] == Texts(cs);
  }

  /** `__composeInsert(tableName, record)`: a loop over the record's keys. */
  method ComposeInsert(table: string, record: Json, toInt: string -> int64) returns (query: string)
    ensures query == InsertQuery(table, record.node, toInt)
  {
    var ok, keys := record.GetKeys([]);
    if !ok {
      return "";
    }
    ghost var rec := record.node.value;
    var cols := "";
    var vals := "";
    ghost var cs: seq<Column> := [];
    var i := 0;
    while i < |keys|
      invariant 0 <= i <= |keys|
      invariant cs == InsertColumns(rec, keys[..i], toInt)
      invariant cols == Terminated(Names(cs)) && vals == Terminated(Texts(cs))
    {
      var text: Option<string>;
      var s := record.GetString(None, keys[i]);
      if s.Some? {
        text := Some(SqlQuote(s.value));
      } else {
        var n := record.GetInt(None, keys[i], toInt);
        text := if n.Some? then Some(Decimal(n.value as int)) else None;
      }
      assert text == ValueText(rec, keys[i], toInt);
      InsertColumnsNext(rec, keys, i, toInt, text);
      if text.Some? {
        TerminatedSnoc(cs, Column(keys[i], text.value));
        cols := cols + keys[i] + ",";
        vals := vals + text.value + ",";
        cs := cs + [Column(keys[i], text.value)];
      }
      assert cs == InsertColumns(rec, keys[..i + 1], toInt);
      i := i + 1;
    }
    assert keys[..|keys|] == keys;
    TerminatedEmpty(Names(cs));
    if cols == "" {
      return "";
    }
    TerminatedDropLast(Names(cs));
    TerminatedDropLast(Texts(cs));
    cols := cols[..|cols| - 1];
    vals := vals[..|vals| - 1];
    query := "INSERT INTO " + table + " (" + cols + ") VALUES (" + vals + ");";
    query := query + "SELECT seq FROM sqlite_sequence WHERE name='" + table + "';";
  }

  /**
   * Member types decide the SQL text: a STRING member is quoted (it is never
   * read as a number), an INT64 member is written in decimal, and a BOOLEAN,
   * NULL, OBJECT or ARRAY member (or an absent one) gives none.
   */
  lemma ValueTextOfMember(ms: seq<Member>, key: string, toInt: string -> int64)
    ensures Lookup(ms, key).Some? && Lookup(ms, key).value.Str? ==>
      ValueText(Object(ms), key, toInt) == Some(SqlQuote(Lookup(ms, key).value.s))
    ensures Lookup(ms, key).Some? && Lookup(ms, key).value.Int? ==>
      ValueText(Object(ms), key, toInt) == Some(Decimal(Lookup(ms, key).value.i as int))
    ensures ValueText(Object(ms), key, toInt).Some? <==>
      Lookup(ms, key).Some? && (Lookup(ms, key).value.Str? || Lookup(ms, key).value.Int?)
  {
  }

  /**
   * The columns are exactly the keys with SQL text: each column names a key and
   * carries that key's text, and each key with text has a column.
   */
  lemma {:induction false} InsertColumnsExact(record: Node, keys: seq<string>, toInt: string -> int64)
    ensures forall c :: c in InsertColumns(record, keys, toInt) ==>
      c.name in keys && ValueText(record, c.name, toInt) == Some(c.text)
    ensures forall k :: k in keys && ValueText(record, k, toInt).Some? ==>
      Column(k, ValueText(record, k, toInt).value) in InsertColumns(record, keys, toInt)
  {
    if keys != [] {
      var init := keys[..|keys| - 1];
      InsertColumnsExact(record, init, toInt);
      assert keys == init + [keys[|keys| - 1]];
    }
  }

  /** For a record of only strings and integers, every member becomes a column, in member order. */
  lemma InsertColumnsAllMembers(ms: seq<Member>, toInt: string -> int64)
    requires UniqueKeys(ms)
    requires forall i :: 0 <= i < |ms| ==> ms[i].value.Str? || ms[i].value.Int?
    ensures Names(InsertColumns(Object(ms), KeysOf(ms), toInt)) == KeysOf(ms)
  {
    var ks := KeysOf(ms);
    forall i | 0 <= i < |ks|
      ensures ValueText(Object(ms), ks[i], toInt).Some?
    {
      MemberHasText(ms, toInt, i);
    }
    AllKeysColumns(Object(ms), ks, toInt);
  }

  /** When every key has SQL text, the columns are the keys, in order. */
  lemma {:induction false} AllKeysColumns(record: Node, keys: seq<string>, toInt: string -> int64)
    requires forall i :: 0 <= i < |keys| ==> ValueText(record, keys[i], toInt).Some?
    ensures Names(InsertColumns(record, keys, toInt)) == keys
  {
    if keys != [] {
      var init := keys[..|keys| - 1];
      var k := keys[|keys| - 1];
      AllKeysColumns(record, init, toInt);
      ColumnsSnoc(InsertColumns(record, init, toInt), Column(k, ValueText(record, k, toInt).value));
      assert keys == init + [k];
    }
  }

  /** A string or integer member whose key is unique has SQL text. */
  lemma MemberHasText(ms: seq<Member>, toInt: string -> int64, i: nat)
    requires UniqueKeys(ms) && i < |ms|
    requires ms[i].value.Str? || ms[i].value.Int?
    ensures ValueText(Object(ms), ms[i].key, toInt).Some?
  {
    FindUnique(ms, i);
    ValueTextOfMember(ms, ms[i].key, toInt);
  }

  /** The composed statement is empty exactly when getKeys fails or no member has SQL text. */
  lemma InsertQueryEmpty(table: string, record: Option<Node>, toInt: string -> int64)
    ensures InsertQuery(table, record, toInt) == "" <==>
      record.None? || !record.value.Object? ||
      forall k :: k in KeysOf(record.value.members) ==> ValueText(record.value, k, toInt).None?
  {
    if record.Some? && record.value.Object? {
      var ks := KeysOf(record.value.members);
      InsertColumnsExact(record.value, ks, toInt);
      var cs := InsertColumns(record.value, ks, toInt);
      if cs != [] {
        assert cs[0] in cs;
      }
    }
  }

  /*
   * __executionCb and sqlite3_exec.
   */

  /** One cell of a result row: the column name and its text (`None` is SQL NULL). */
  datatype Cell = Cell(column: string, value: Option<string>)

  /** A result row as sqlite3_exec passes it to the callback. */
  datatype ResultRow = ResultRow(cells: seq<Cell>)

  /** What sqlite3_exec does with a statement: the rows it reports, then whether it returns SQLITE_OK. */
  datatype ExecOutcome = ExecOutcome(rows: seq<ResultRow>, ok: bool)

  predicate HasNull(cells: seq<Cell>) {
    exists i :: 0 <= i < |cells| && cells[i].value.None?
  }

  /** The members of the row object: each column set, as a string, in column order. */
  function RowMembers(cells: seq<Cell>): seq<Member>
    requires !HasNull(cells)
  {
    if cells == [] then []
    else
      var c := cells[|cells| - 1];
      assert c.value.Some?;
      Put(RowMembers(cells[..|cells| - 1]), c.column, Str(c.value.value))
  }

  /** The documents the callback collects from a run of rows: rows with a NULL are left out. */
  function Materialise(rows: seq<ResultRow>): (r: seq<Node>)
    ensures |r| <= |rows|
    ensures forall i :: 0 <= i < |r| ==> r[i].Object?
  {
    if rows == [] then []
    else
      var last := rows[|rows| - 1];
      Materialise(rows[..|rows| - 1]) + (if HasNull(last.cells) then [] else [Object(RowMembers(last.cells))])
  }

  /**
   * `__executionCb`: build the row document column by column, stop at the first
   * NULL, and append the document only when there was none.  Always returns 0,
   * so sqlite3_exec never aborts.
   */
  method ExecutionCb(records: seq<Node>, row: ResultRow) returns (records': seq<Node>, ret: int)
    ensures ret == 0
    ensures HasNull(row.cells) ==> records' == records
    ensures !HasNull(row.cells) ==> records' == records + [Object(RowMembers(row.cells))]
  {
    var doc := new Json();
    var columnNull := false;
    var i := 0;
    while i < |row.cells|
      invariant 0 <= i <= |row.cells|
      invariant columnNull ==> HasNull(row.cells)
      invariant !columnNull ==> !HasNull(row.cells[..i]) && doc.node == Some(Object(RowMembers(row.cells[..i])))
      invariant doc.Valid()
    {
      if row.cells[i].value.None? {
        columnNull := true;
        break;
      }
      assert row.cells[..i + 1][..i] == row.cells[..i];
      var _ := doc.SetString(None, row.cells[i].column, row.cells[i].value.value);
      i := i + 1;
    }
    if !columnNull {
      assert row.cells[..|row.cells|] == row.cells;
      records' := records + [doc.node.value];
    } else {
      records' := records;
    }
    ret := 0;
  }

  /** sqlite3_exec with __executionCb: the callback runs once per reported row. */
  method ExecRows(records: seq<Node>, rows: seq<ResultRow>) returns (records': seq<Node>)
    ensures records' == records + Materialise(rows)
  {
    records' := records;
    var i := 0;
    while i < |rows|
      invariant 0 <= i <= |rows|
      invariant records' == records + Materialise(rows[..i])
    {
      assert rows[..i + 1][..i] == rows[..i];
      var ret;
      records', ret := ExecutionCb(records', rows[i]);
      i := i + 1;
    }
    assert rows[..|rows|] == rows;
  }

  /**
   * A row without NULLs whose column names are distinct reads back: the value of
   * each column is its text, as a string.
   */
  lemma {:induction false} RowReadBack(cells: seq<Cell>, j: nat)
    requires !HasNull(cells) && j < |cells|
    requires forall a, b :: 0 <= a < b < |cells| ==> cells[a].column != cells[b].column
    ensures JsonTree.GetString(Object(RowMembers(cells)), [], cells[j].column) == Some(cells[j].value.value)
  {
    var n := |cells|;
    var init := cells[..n - 1];
    var c := cells[n - 1];
    NoNullPrefix(cells, n - 1);
    LookupPut(RowMembers(init), c.column, Str(c.value.value), cells[j].column);
    if j < n - 1 {
      RowReadBack(init, j);
    }
  }

  /** The column names of a row, in order. */
  function Columns(cells: seq<Cell>): (r: seq<string>)
    ensures |r| == |cells|
    ensures forall i :: 0 <= i < |cells| ==> r[i] == cells[i].column
  {
    if cells == [] then [] else Columns(cells[..|cells| - 1]) + [cells[|cells| - 1].column]
  }

  /** The row's member names are its column names, in order, when they are distinct. */
  lemma {:induction false} RowKeys(cells: seq<Cell>)
    requires !HasNull(cells)
    requires forall a, b :: 0 <= a < b < |cells| ==> cells[a].column != cells[b].column
    ensures KeysOf(RowMembers(cells)) == Columns(cells)
  {
    if cells != [] {
      var n := |cells|;
      var init := cells[..n - 1];
      var c := cells[n - 1];
      NoNullPrefix(cells, n - 1);
      DistinctPrefix(cells, init);
      RowKeys(init);
      var ms := RowMembers(init);
      LastColumnAbsent(cells, ms);
      RemoveAbsent(ms, c.column);
      KeysOfPut(ms, c.column, Str(c.value.value));
      assert Columns(cells) == Columns(init) + [c.column];
    }
  }

  lemma DistinctPrefix(cells: seq<Cell>, init: seq<Cell>)
    requires |init| < |cells| && init == cells[..|init|]
    requires forall a, b :: 0 <= a < b < |cells| ==> cells[a].column != cells[b].column
    ensures forall a, b :: 0 <= a < b < |init| ==> init[a].column != init[b].column
  {
    assert forall a :: 0 <= a < |init| ==> init[a] == cells[a];
  }

  /** With distinct columns, the last column is not among the members built from the others. */
  lemma LastColumnAbsent(cells: seq<Cell>, ms: seq<Member>)
    requires cells != []
    requires forall a, b :: 0 <= a < b < |cells| ==> cells[a].column != cells[b].column
    requires KeysOf(ms) == Columns(cells[..|cells| - 1])
    ensures Find(ms, cells[|cells| - 1].column) < 0
  {
    var k := cells[|cells| - 1].column;
    forall f | 0 <= f < |ms|
      ensures ms[f].key != k
    {
      assert KeysOf(ms)[f] == cells[f].column;
    }
  }

  lemma NoNullPrefix(cells: seq<Cell>, n: nat)
    requires !HasNull(cells) && n <= |cells|
    ensures !HasNull(cells[..n])
  {
    assert forall i :: 0 <= i < n ==> cells[..n][i] == cells[i];
  }

  lemma {:induction false} RemoveAbsent(ms: seq<Member>, k: string)
    requires Find(ms, k) < 0
    ensures Remove(ms, k) == ms
  {
    if ms != [] {
      RemoveAbsent(ms[1..], k);
    }
  }

  /*
   * The synchronous calls.
   */

  /** `createTableSync`: the statement is never empty, so only SQLite's answer decides. */
  method CreateTableSync(table: string, columns: string, option: Option<string>, execOk: bool)
    returns (ok: bool, query: string)
    ensures query == ComposeCreate(table, columns, option)
    ensures ok == execOk
  {
    query := ComposeCreate(table, columns, option);
    if query == "" {
      return false, query;
    }
    return execOk, query;
  }

  /**
   * `executeSync(query, records)`: false for a NULL argument; otherwise the rows
   * the callback collected are appended to the caller's vector (which is not
   * cleared, and which keeps them even when SQLite then fails), and the result
   * is SQLite's answer.
   */
  method ExecuteSync(query: Option<string>, records: Ptr<seq<Node>>, outcome: ExecOutcome)
    returns (ok: bool, records': Ptr<seq<Node>>)
    ensures query.None? || records.Null? ==> !ok && records' == records
    ensures query.Some? && records.At? ==>
      ok == outcome.ok && records' == At(records.value + Materialise(outcome.rows))
  {
    if query.None? || records.Null? {
      return false, records;
    }
    var rs := ExecRows(records.value, outcome.rows);
    return outcome.ok, At(rs);
  }

  /** The row id the first result row reports: its `seq` read as an integer, -1 when it has none. */
  function SeqOf(row: Node, toInt: string -> int64): int64 {
    match JsonTree.GetInt(row, [], "seq", toInt)
    case Some(v) => v
    case None => -1
  }

  /**
   * `insertSync(tableName, record, rowId)` as written: false for a NULL
   * argument, an empty statement, a SQLite failure or no result row, and in
   * each of these cases `*rowId` keeps whatever it held.  On success `*rowId`
   * is the first row's `seq`.
   */
  method InsertSync(table: Option<string>, record: Json, rowId: Ptr<int64>, outcome: ExecOutcome,
                    toInt: string -> int64)
    returns (ok: bool, rowId': Ptr<int64>)
    ensures !ok ==> rowId' == rowId
    ensures ok <==> table.Some? && rowId.At? && InsertQuery(table.value, record.node, toInt) != ""
                    && outcome.ok && Materialise(outcome.rows) != []
    ensures ok ==> rowId' == At(SeqOf(Materialise(outcome.rows)[0], toInt))
  {
    if table.None? || rowId.Null? {
      return false, rowId;
    }
    var query := ComposeInsert(table.value, record, toInt);
    if query == "" {
      return false, rowId;
    }
    var result := ExecRows([], outcome.rows);
    if !outcome.ok {
      return false, rowId;
    }
    if result == [] {
      return false, rowId;
    }
    rowId' := At(-1);
    var v := JsonTree.GetInt(result[0], [], "seq", toInt);
    if v.Some? {
      rowId' := At(v.value);
    }
    return true, rowId';
  }

  /** A failed insert leaves a non-negative value in `*rowId`, against the documented "negative on failure". */
  method InsertSyncFailureKeepsRowId() returns (ok: bool, rowId': Ptr<int64>)
    ensures !ok && rowId' == At(7)
  {
    var record := new Json();
    var _ := record.SetInt(None, "value", 1);
    ok, rowId' := InsertSync(Some("log"), record, At(7), ExecOutcome([], false), _ => 0);
  }

  /**
   * `insertSync` as documented: the same result, but every failure on a
   * non-NULL `rowId` leaves a negative row id (-1) behind.
   */
  method InsertSyncChecked(table: Option<string>, record: Json, rowId: Ptr<int64>, outcome: ExecOutcome,
                           toInt: string -> int64)
    returns (ok: bool, rowId': Ptr<int64>)
    ensures rowId.Null? ==> !ok && rowId' == Ptr.Null
    ensures !ok && rowId.At? ==> rowId' == At(-1)
    ensures ok <==> table.Some? && rowId.At? && InsertQuery(table.value, record.node, toInt) != ""
                    && outcome.ok && Materialise(outcome.rows) != []
    ensures ok ==> rowId' == At(SeqOf(Materialise(outcome.rows)[0], toInt))
  {
    if rowId.Null? {
      return false, rowId;
    }
    ok, rowId' := InsertSync(table, record, At(-1), outcome, toInt);
  }

  /*
   * The asynchronous path.
   */

  /** `QueryInfo`: what a queued query carries. */
  datatype QueryInfo = QueryInfo(id: nat, listener: Option<ListenerRef>, query: string)

  /** `QueryResult`: what __dispatchResult hands to the main loop. */
  datatype QueryResult = QueryResult(kind: int, id: nat, listener: Option<ListenerRef>, error: int, rows: seq<Node>)

  /** A call on `IDatabaseListener`. */
  datatype ListenerCall =
    | TableCreated(listener: ListenerRef, id: nat, error: int)
    | Inserted(listener: ListenerRef, id: nat, error: int, rowId: int64)
    | Executed(listener: ListenerRef, id: nat, error: int, rows: seq<Node>)

  /**
   * `__execute` followed by `__dispatchResult`: the result carries the
   * collected rows and ERR_NONE, or ERR_OPERATION_FAILED when SQLite fails;
   * nothing is dispatched when the result vector (`resultAlloc`) or the result
   * record (`qrAlloc`) cannot be allocated.
   */
  function ExecuteResult(kind: int, info: QueryInfo, outcome: ExecOutcome, resultAlloc: bool, qrAlloc: bool)
    : (r: Option<QueryResult>)
    ensures r.Some? <==> resultAlloc && qrAlloc
    ensures r.Some? ==> r.value.kind == kind && r.value.id == info.id && r.value.listener == info.listener
    ensures r.Some? ==> (r.value.error == ERR_NONE <==> outcome.ok)
    ensures r.Some? ==> r.value.error in {ERR_NONE, ERR_OPERATION_FAILED}
    ensures r.Some? ==> r.value.rows == Materialise(outcome.rows)
  {
    if !resultAlloc || !qrAlloc then None
    else
      var error := if outcome.ok then ERR_NONE else ERR_OPERATION_FAILED;
      Some(QueryResult(kind, info.id, info.listener, error, Materialise(outcome.rows)))
  }

  /**
   * `__dispatcher`: with a listener, exactly one callback chosen by the query
   * type; an inserted row id is -1 unless the query succeeded and returned a
   * row.  Without a listener, or for an unknown type, no callback.
   */
  function Dispatch(qr: QueryResult, toInt: string -> int64): (c: Option<ListenerCall>)
    ensures c.Some? <==> qr.listener.Some? && qr.kind in {QUERY_CREATE_TABLE, QUERY_INSERT, QUERY_EXECUTE}
    ensures c.Some? ==> c.value.listener == qr.listener.value && c.value.id == qr.id && c.value.error == qr.error
    ensures c.Some? ==> (c.value.TableCreated? <==> qr.kind == QUERY_CREATE_TABLE)
    ensures c.Some? ==> (c.value.Inserted? <==> qr.kind == QUERY_INSERT)
    ensures c.Some? ==> (c.value.Executed? <==> qr.kind == QUERY_EXECUTE)
    ensures c.Some? && c.value.Executed? ==> c.value.rows == qr.rows
    ensures c.Some? && c.value.Inserted? && (qr.error != ERR_NONE || qr.rows == []) ==> c.value.rowId == -1
    ensures c.Some? && c.value.Inserted? && qr.error == ERR_NONE && qr.rows != [] ==>
      c.value.rowId == SeqOf(qr.rows[0], toInt)
  {
    if qr.listener.None? then None
    else if qr.kind == QUERY_CREATE_TABLE then Some(TableCreated(qr.listener.value, qr.id, qr.error))
    else if qr.kind == QUERY_INSERT then
      var rowId := if qr.error == ERR_NONE && qr.rows != [] then SeqOf(qr.rows[0], toInt) else -1;
      Some(Inserted(qr.listener.value, qr.id, qr.error, rowId))
    else if qr.kind == QUERY_EXECUTE then Some(Executed(qr.listener.value, qr.id, qr.error, qr.rows))
    else None
  }

  /** A failed insert is reported with row id -1, whatever rows SQLite reported before failing. */
  lemma FailedInsertReportsMinusOne(info: QueryInfo, l: ListenerRef, outcome: ExecOutcome, toInt: string -> int64)
    requires info.listener == Some(l) && !outcome.ok
    ensures Dispatch(ExecuteResult(QUERY_INSERT, info, outcome, true, true).value, toInt)
            == Some(Inserted(l, info.id, ERR_OPERATION_FAILED, -1))
  {
  }

  class DatabaseThread {
    /** The event-driven worker the class derives from; its payloads are QueryInfo records. */
    const worker: EventDrivenThread<QueryInfo>
    /** Results passed to g_idle_add and not yet dispatched, oldest first. */
    var idle: seq<QueryResult>

    ghost predicate Valid()
      reads this, worker
    {
      worker.Valid()
    }

    constructor ()
      ensures Valid() && fresh(worker)
      ensures !worker.hasInfo && !worker.running && worker.queue == [] && idle == []
      ensures worker.accepted == [] && worker.log == []
    {
      worker := new EventDrivenThread<QueryInfo>();
      idle := [];
    }

    /**
     * Enqueue one query: false, with the QueryInfo freed again, when it cannot be
     * allocated (`infoAlloc`) or pushEvent refuses it (`msgAlloc` is pushEvent's
     * own allocation).
     */
    method Enqueue(kind: int, info: QueryInfo, infoAlloc: bool, msgAlloc: bool) returns (ok: bool)
      requires Valid() && worker.hasInfo
      modifies worker
      ensures Valid()
      ensures ok <==> infoAlloc && old(worker.running) && msgAlloc
      ensures ok ==> worker.queue == old(worker.queue) + [Message(kind, Some(info), false)]
      ensures ok ==> worker.accepted == old(worker.accepted) + [Event(kind, Some(info))]
      ensures !ok ==> worker.queue == old(worker.queue) && worker.accepted == old(worker.accepted)
      ensures worker.running == old(worker.running) && worker.hasInfo == old(worker.hasInfo)
      ensures worker.log == old(worker.log)
    {
      if !infoAlloc {
        return false;
      }
      ok := worker.PushEvent(kind, Some(info), msgAlloc);
    }

    /** `createTable`. */
    method CreateTable(queryId: nat, table: string, columns: string, option: Option<string>,
                       listener: Option<ListenerRef>, infoAlloc: bool, msgAlloc: bool)
      returns (ok: bool)
      requires Valid() && worker.hasInfo
      modifies worker
      ensures Valid()
      ensures ok <==> infoAlloc && old(worker.running) && msgAlloc
      ensures ok ==> (worker.queue == old(worker.queue) +
        [Message(QUERY_CREATE_TABLE, Some(QueryInfo(queryId, listener, ComposeCreate(table, columns, option))), false)])
      ensures ok ==> worker.accepted == old(worker.accepted) + [Event(QUERY_CREATE_TABLE, Some(QueryInfo(queryId, listener, ComposeCreate(table, columns, option))))]
      ensures !ok ==> worker.queue == old(worker.queue) && worker.accepted == old(worker.accepted)
      ensures worker.running == old(worker.running) && worker.hasInfo == old(worker.hasInfo)
      ensures worker.log == old(worker.log)
    {
      ok := Enqueue(QUERY_CREATE_TABLE, QueryInfo(queryId, listener, ComposeCreate(table, columns, option)),
                    infoAlloc, msgAlloc);
    }

    /** `insert`: an empty statement is rejected before anything is allocated. */
    method Insert(queryId: nat, table: string, record: Json, listener: Option<ListenerRef>,
                  toInt: string -> int64, infoAlloc: bool, msgAlloc: bool)
      returns (ok: bool)
      requires Valid() && worker.hasInfo
      modifies worker
      ensures Valid()
      ensures ok <==> InsertQuery(table, record.node, toInt) != "" && infoAlloc && old(worker.running) && msgAlloc
      ensures ok ==> (worker.queue == old(worker.queue) +
        [Message(QUERY_INSERT, Some(QueryInfo(queryId, listener, InsertQuery(table, record.node, toInt))), false)])
      ensures ok ==> worker.accepted == old(worker.accepted) + [Event(QUERY_INSERT, Some(QueryInfo(queryId, listener, InsertQuery(table, record.node, toInt))))]
      ensures !ok ==> worker.queue == old(worker.queue) && worker.accepted == old(worker.accepted)
      ensures worker.running == old(worker.running) && worker.hasInfo == old(worker.hasInfo)
      ensures worker.log == old(worker.log)
    {
      var query := ComposeInsert(table, record, toInt);
      if query == "" {
        return false;
      }
      ok := Enqueue(QUERY_INSERT, QueryInfo(queryId, listener, query), infoAlloc, msgAlloc);
    }

    /** `execute`: a NULL query is rejected before anything is allocated. */
    method Execute(queryId: nat, query: Option<string>, listener: Option<ListenerRef>,
                   infoAlloc: bool, msgAlloc: bool)
      returns (ok: bool)
      requires Valid() && worker.hasInfo
      modifies worker
      ensures Valid()
      ensures ok <==> query.Some? && infoAlloc && old(worker.running) && msgAlloc
      ensures ok ==> (worker.queue == old(worker.queue) +
        [Message(QUERY_EXECUTE, Some(QueryInfo(queryId, listener, query.value)), false)])
      ensures ok ==> worker.accepted == old(worker.accepted) + [Event(QUERY_EXECUTE, Some(QueryInfo(queryId, listener, query.value)))]
      ensures !ok ==> worker.queue == old(worker.queue) && worker.accepted == old(worker.accepted)
      ensures worker.running == old(worker.running) && worker.hasInfo == old(worker.hasInfo)
      ensures worker.log == old(worker.log)
    {
      if query.None? {
        return false;
      }
      ok := Enqueue(QUERY_EXECUTE, QueryInfo(queryId, listener, query.value), infoAlloc, msgAlloc);
    }

    /**
     * One action of the worker thread.  When it hands a query to `onEvent`, the
     * query runs (SQLite answering with `outcome`) and its result joins the
     * main loop's idle queue; `onEvent` then frees the QueryInfo through
     * `deleteEvent`, which the worker's log records as the query's one disposal.
     */
    method ProcessStep(outcome: ExecOutcome, resultAlloc: bool, qrAlloc: bool)
      returns (dispatched: Option<Event<QueryInfo>>)
      requires Valid()
      modifies this, worker
      ensures Valid()
      ensures worker.running == old(worker.running) && worker.accepted == old(worker.accepted)
      ensures dispatched.Some? ==>
        old(worker.queue) != [] && worker.queue == old(worker.queue)[1..]
        && dispatched.value == Event(old(worker.queue)[0].kind, old(worker.queue)[0].data)
        && worker.log == old(worker.log) + [Handled(old(worker.queue)[0].kind, old(worker.queue)[0].data)]
      ensures dispatched.None? ==> worker.queue == old(worker.queue) && worker.log == old(worker.log)
      ensures dispatched.Some? && dispatched.value.data.Some? ==>
        idle == old(idle) + OptionSeq(ExecuteResult(dispatched.value.kind, dispatched.value.data.value,
                                                    outcome, resultAlloc, qrAlloc))
      ensures dispatched.None? || dispatched.value.data.None? ==> idle == old(idle)
    {
      dispatched := worker.Step();
      if dispatched.Some? && dispatched.value.data.Some? {
        var info := dispatched.value.data.value;
        var r := ExecuteResult(dispatched.value.kind, info, outcome, resultAlloc, qrAlloc);
        idle := idle + OptionSeq(r);
      }
    }

    /** `__dispatcher` on the oldest pending result: at most one listener call, and the result is freed. */
    method RunDispatcher(toInt: string -> int64) returns (call: Option<ListenerCall>)
      requires idle != []
      modifies this
      ensures idle == old(idle)[1..]
      ensures call == Dispatch(old(idle)[0], toInt)
    {
      call := Dispatch(idle[0], toInt);
      idle := idle[1..];
    }
  }

  function OptionSeq<X>(o: Option<X>): (r: seq<X>)
    ensures |r| <= 1
    ensures o.Some? ==> r == [o.value]
    ensures o.None? ==> r == []
  {
    if o.Some? then [o.value] else []
  }
}

=== FILE: dbus_client.dfy ===
/**
 * `ctx::DBusClient` (src/client/DBusClient.cpp): the client side of the context
 * service's D-Bus protocol.  The class holds the file's static state (the
 * request-id counter, the subject-to-listener map, the instance count and
 * whether the connection is up); every operation takes the outcome of the
 * connection setup (`setupOk`) and of the bus call as inputs.  JSON documents
 * cross the bus as text: `option`, `input` and `result` are that text.
 */
module DBusClientModel {
  import opened Common
  import opened BusProtocol

  /**
   * What the bus says to a plain method call: a reply, or a `GError` with its
   * domain (whether it is the D-Bus error domain) and its code.
   */
  datatype CallReply = Answered | Failed(dbusDomain: bool, code: int)

  /** `G_DBUS_ERROR_ACCESS_DENIED` in GLib's `GDBusError` enumeration. */
  const G_DBUS_ERROR_ACCESS_DENIED: int := 9

  /**
   * How `call(method)` ends: with a return code, or by reading `err->code`
   * through a null `err`.
   */
  datatype CallOutcome = Returned(code: int) | NullErrorDereference

  /**
   * `call(method)` as written: it never runs `__init()`, so without a
   * connection the synchronous call fails its argument check and returns NULL
   * without setting the error, which the code then dereferences.  With a
   * connection: ERR_NONE on a reply; ERR_PERMISSION_DENIED when the error code
   * equals the access-denied code, whatever the error's domain; otherwise
   * ERR_OPERATION_FAILED.
   */
  function Call(connected: bool, reply: CallReply): (r: CallOutcome)
    ensures !connected <==> r.NullErrorDereference?
    ensures connected ==> (r == Returned(ERR_NONE) <==> reply.Answered?)
    ensures connected ==>
      (r == Returned(ERR_PERMISSION_DENIED) <==> reply.Failed? && reply.code == G_DBUS_ERROR_ACCESS_DENIED)
    ensures connected ==>
      (r == Returned(ERR_OPERATION_FAILED) <==> reply.Failed? && reply.code != G_DBUS_ERROR_ACCESS_DENIED)
  {
    if !connected then NullErrorDereference
    else match reply
      case Answered => Returned(ERR_NONE)
      case Failed(_, code) =>
        if code == G_DBUS_ERROR_ACCESS_DENIED then Returned(ERR_PERMISSION_DENIED) else Returned(ERR_OPERATION_FAILED)
  }

  /**
   * The code compares the error code without looking at its domain: an error
   * from another domain whose code happens to equal the access-denied code is
   * reported as a permission error.
   */
  lemma CallIgnoresErrorDomain()
    ensures Call(true, Failed(false, G_DBUS_ERROR_ACCESS_DENIED)) == Returned(ERR_PERMISSION_DENIED)
  {
  }

  /** What `__onMethodCalled` does with an incoming call. */
  datatype Delivery = Ignored | Delivered(p: Publish<ListenerRef>) | EndDereference

  /**
   * The text a `Json` is parsed from when a reply string is assigned to it
   * (`Json::operator=(const std::string &)`, src/shared/Json.cpp): an empty
   * string stands for the empty object.
   */
  function AssignedText(s: string): (t: string)
    ensures t != ""
    ensures s != "" ==> t == s
    ensures s == "" ==> t == EMPTY_JSON_OBJECT
  {
    if s == "" then EMPTY_JSON_OBJECT else s
  }

  class DBusClient {
    /** The static counter of `__generateReqId`. */
    var reqCounter: int
    /** `__listenerMap`. */
    var listeners: map<string, ListenerRef>
    /** `__instanceCount`. */
    var instanceCount: int
    /** `__connection != NULL`. */
    var connected: bool

    ghost predicate Valid()
      reads this
    {
      0 <= reqCounter <= INT32_MAX && instanceCount >= 0
    }

    constructor ()
      ensures Valid() && reqCounter == 0 && listeners == map[] && instanceCount == 0 && !connected
    {
      reqCounter := 0;
      listeners := map[];
      instanceCount := 0;
      connected := false;
    }

    /** `DBusClient()`: one more instance. */
    method NewInstance()
      requires Valid()
      modifies this
      ensures Valid() && instanceCount == old(instanceCount) + 1
      ensures connected == old(connected) && reqCounter == old(reqCounter) && listeners == old(listeners)
    {
      instanceCount := instanceCount + 1;
    }

    /** `~DBusClient()`: the last instance releases the connection. */
    method DeleteInstance()
      requires Valid() && instanceCount > 0
      modifies this
      ensures Valid() && instanceCount == old(instanceCount) - 1
      ensures connected == (old(connected) && instanceCount > 0)
      ensures reqCounter == old(reqCounter) && listeners == old(listeners)
    {
      instanceCount := instanceCount - 1;
      if instanceCount == 0 {
        connected := false;
      }
    }

    /** `__init()`: nothing to do once connected; otherwise the setup's outcome decides. */
    method Init(setupOk: bool) returns (ok: bool)
      requires Valid()
      modifies this
      ensures Valid()
      ensures ok == (old(connected) || setupOk) && connected == ok
      ensures reqCounter == old(reqCounter) && listeners == old(listeners) && instanceCount == old(instanceCount)
    {
      if connected {
        return true;
      }
      connected := setupOk;
      return setupOk;
    }

    /**
     * `call(method)` with the connection set up first, as every other request
     * of the class does: ERR_OPERATION_FAILED when the setup fails, otherwise
     * the code `call` returns over a live connection.  It never reaches the
     * null dereference.
     */
    method CallChecked(setupOk: bool, reply: CallReply) returns (code: int)
      requires Valid()
      modifies this
      ensures Valid() && reqCounter == old(reqCounter) && listeners == old(listeners)
      ensures connected == (old(connected) || setupOk)
      ensures !connected ==> code == ERR_OPERATION_FAILED
      ensures connected ==> Returned(code) == Call(true, reply)
      ensures code == ERR_NONE <==> connected && reply.Answered?
    {
      var ok := Init(setupOk);
      if !ok {
        return ERR_OPERATION_FAILED;
      }
      var r := Call(true, reply);
      code := r.code;
    }

    /** `__generateReqId()`: the next id, always in 1..INT32_MAX. */
    method GenerateReqId() returns (id: int)
      requires Valid()
      modifies this
      ensures Valid()
      ensures reqCounter == NextReqId(old(reqCounter)) && id == reqCounter
      ensures 1 <= id <= INT32_MAX
      ensures listeners == old(listeners) && connected == old(connected) && instanceCount == old(instanceCount)
    {
      reqCounter := NextReqId(reqCounter);
      return reqCounter;
    }

    /** `addListener(subject, listener)`: the last registration for a subject wins. */
    method AddListener(subject: string, listener: ListenerRef)
      requires Valid()
      modifies this
      ensures Valid()
      ensures listeners == old(listeners)[subject := listener]
      ensures forall s :: s != subject && s in old(listeners) ==> s in listeners && listeners[s] == old(listeners)[s]
      ensures reqCounter == old(reqCounter) && connected == old(connected) && instanceCount == old(instanceCount)
    {
      listeners := listeners[subject := listener];
    }

    /**
     * `__onMethodCalled` as written: a `Respond` call with a subject and data
     * goes to the listener registered for the subject.  The map lookup is not
     * checked, so a subject nobody listens to dereferences the end iterator.
     * Anything else is ignored.
     */
    function OnMethodCalled(name: string, reqId: int, subject: Option<string>, error: int, data: Option<string>)
      : (d: Delivery)
      reads this
      ensures d.Ignored? <==> !(name == METHOD_RESPOND && subject.Some? && data.Some?)
      ensures d.EndDereference? <==> name == METHOD_RESPOND && subject.Some? && data.Some? && subject.value !in listeners
      ensures d.Delivered? ==>
        (subject.Some? && subject.value in listeners && data.Some?
         && d.p == Publish(listeners[subject.value], subject.value, reqId, error, data.value))
    {
      if name != METHOD_RESPOND || subject.None? || data.None? then Ignored
      else if subject.value !in listeners then EndDereference
      else Delivered(Publish(listeners[subject.value], subject.value, reqId, error, data.value))
    }

    /**
     * `__onMethodCalled` with the lookup checked, as request_handler.cpp's
     * handler does: a response for a subject nobody listens to is ignored.
     * Where the code as written delivers, this delivers the same thing.
     */
    function OnMethodCalledChecked(name: string, reqId: int, subject: Option<string>, error: int, data: Option<string>)
      : (p: Option<Publish<ListenerRef>>)
      reads this
      ensures p.Some? <==> name == METHOD_RESPOND && subject.Some? && data.Some? && subject.value in listeners
      ensures p.Some? ==> p.value == Publish(listeners[subject.value], subject.value, reqId, error, data.value)
      ensures OnMethodCalled(name, reqId, subject, error, data).Delivered? ==>
        p == Some(OnMethodCalled(name, reqId, subject, error, data).p)
    {
      if name != METHOD_RESPOND || subject.None? || data.None? || subject.value !in listeners then None
      else Some(Publish(listeners[subject.value], subject.value, reqId, error, data.value))
    }

    /** `isSupported(subject)`. */
    method IsSupported(subject: string, setupOk: bool, paramAlloc: bool, reply: Option<Reply>)
      returns (err: int, sent: Option<Wire>)
      requires Valid()
      modifies this
      ensures Valid() && listeners == old(listeners)
      ensures !connected ==> err == ERR_OPERATION_FAILED && sent == None && reqCounter == old(reqCounter)
      ensures connected ==> reqCounter == NextReqId(old(reqCounter))
      ensures connected ==>
        var a := Request(REQ_SUPPORT, reqCounter, subject, None, Ptr.Null, Ptr.Null, paramAlloc, reply);
        err == a.error && sent == a.sent
    {
      var ok := Init(setupOk);
      if !ok {
        return ERR_OPERATION_FAILED, None;
      }
      var id := GenerateReqId();
      var a := Request(REQ_SUPPORT, id, subject, None, Ptr.Null, Ptr.Null, paramAlloc, reply);
      return a.error, a.sent;
    }

    /**
     * `subscribe(subject, option, reqId, result)`: a fresh id is stored in
     * `*reqId` before the request goes out; `*result` receives the reply's
     * result text (the empty object without a reply).
     */
    method Subscribe(subject: string, option: string, reqId: Ptr<int>, result: Ptr<string>,
                     setupOk: bool, paramAlloc: bool, reply: Option<Reply>)
      returns (err: int, sent: Option<Wire>, reqId': Ptr<int>, result': Ptr<string>)
      requires Valid()
      modifies this
      ensures Valid() && listeners == old(listeners)
      ensures !connected ==> err == ERR_OPERATION_FAILED && sent == None && reqId' == reqId && result' == result
      ensures connected && reqId.Null? ==>
        err == ERR_INVALID_PARAMETER && sent == None && reqId' == reqId && result' == result
      ensures !(connected && reqId.At?) ==> reqCounter == old(reqCounter)
      ensures connected && reqId.At? ==>
        var a := Request(REQ_SUBSCRIBE, reqCounter, subject, Some(option), At(""), Ptr.Null, paramAlloc, reply);
        && reqCounter == NextReqId(old(reqCounter)) && reqId' == At(reqCounter)
        && err == a.error && sent == a.sent
        && result' == (if result.At? then At(AssignedText(a.result.value)) else Ptr.Null)
    {
      var ok := Init(setupOk);
      if !ok {
        return ERR_OPERATION_FAILED, None, reqId, result;
      }
      if reqId.Null? {
        return ERR_INVALID_PARAMETER, None, reqId, result;
      }
      var id := GenerateReqId();
      reqId' := At(id);
      var a := Request(REQ_SUBSCRIBE, id, subject, Some(option), At(""), Ptr.Null, paramAlloc, reply);
      result' := if result.At? then At(AssignedText(a.result.value)) else result;
      return a.error, a.sent, reqId', result';
    }

    /** `unsubscribe(subject, reqId)`: the caller's id is sent unchanged. */
    method Unsubscribe(subject: string, reqId: int, setupOk: bool, paramAlloc: bool, reply: Option<Reply>)
      returns (err: int, sent: Option<Wire>)
      requires Valid()
      modifies this
      ensures Valid() && listeners == old(listeners) && reqCounter == old(reqCounter)
      ensures !connected ==> err == ERR_OPERATION_FAILED && sent == None
      ensures connected ==>
        var a := Request(REQ_UNSUBSCRIBE, reqId, subject, None, Ptr.Null, Ptr.Null, paramAlloc, reply);
        err == a.error && sent == a.sent
    {
      var ok := Init(setupOk);
      if !ok {
        return ERR_OPERATION_FAILED, None;
      }
      var a := Request(REQ_UNSUBSCRIBE, reqId, subject, None, Ptr.Null, Ptr.Null, paramAlloc, reply);
      return a.error, a.sent;
    }

    /** `read(subject, option, reqId, result)`: as subscribe, with REQ_READ. */
    method Read(subject: string, option: string, reqId: Ptr<int>, result: Ptr<string>,
                setupOk: bool, paramAlloc: bool, reply: Option<Reply>)
      returns (err: int, sent: Option<Wire>, reqId': Ptr<int>, result': Ptr<string>)
      requires Valid()
      modifies this
      ensures Valid() && listeners == old(listeners)
      ensures !connected ==> err == ERR_OPERATION_FAILED && sent == None && reqId' == reqId && result' == result
      ensures connected && reqId.Null? ==>
        err == ERR_INVALID_PARAMETER && sent == None && reqId' == reqId && result' == result
      ensures !(connected && reqId.At?) ==> reqCounter == old(reqCounter)
      ensures connected && reqId.At? ==>
        var a := Request(REQ_READ, reqCounter, subject, Some(option), At(""), Ptr.Null, paramAlloc, reply);
        && reqCounter == NextReqId(old(reqCounter)) && reqId' == At(reqCounter)
        && err == a.error && sent == a.sent
        && result' == (if result.At? then At(AssignedText(a.result.value)) else Ptr.Null)
    {
      var ok := Init(setupOk);
      if !ok {
        return ERR_OPERATION_FAILED, None, reqId, result;
      }
      if reqId.Null? {
        return ERR_INVALID_PARAMETER, None, reqId, result;
      }
      var id := GenerateReqId();
      reqId' := At(id);
      var a := Request(REQ_READ, id, subject, Some(option), At(""), Ptr.Null, paramAlloc, reply);
      result' := if result.At? then At(AssignedText(a.result.value)) else result;
      return a.error, a.sent, reqId', result';
    }

    /**
     * `readSync(subject, option, reqId, outputData)`: both pointers are
     * required; `*outputData` is overwritten whatever the outcome, with the
     * reply's output text, or with the empty object when there is no reply or
     * its text is empty.
     */
    method ReadSync(subject: string, option: string, reqId: Ptr<int>, outputData: Ptr<string>,
                    setupOk: bool, paramAlloc: bool, reply: Option<Reply>)
      returns (err: int, sent: Option<Wire>, reqId': Ptr<int>, outputData': Ptr<string>)
      requires Valid()
      modifies this
      ensures Valid() && listeners == old(listeners)
      ensures !connected ==> err == ERR_OPERATION_FAILED && sent == None && reqId' == reqId && outputData' == outputData
      ensures connected && (reqId.Null? || outputData.Null?) ==>
        err == ERR_INVALID_PARAMETER && sent == None && reqId' == reqId && outputData' == outputData
      ensures !(connected && reqId.At? && outputData.At?) ==> reqCounter == old(reqCounter)
      ensures connected && reqId.At? && outputData.At? ==>
        var a := Request(REQ_READ_SYNC, reqCounter, subject, Some(option), Ptr.Null, At(""), paramAlloc, reply);
        && reqCounter == NextReqId(old(reqCounter)) && reqId' == At(reqCounter)
        && err == a.error && sent == a.sent
        && outputData' == At(AssignedText(if paramAlloc && reply.Some? then reply.value.output else ""))
    {
      var ok := Init(setupOk);
      if !ok {
        return ERR_OPERATION_FAILED, None, reqId, outputData;
      }
      if reqId.Null? || outputData.Null? {
        return ERR_INVALID_PARAMETER, None, reqId, outputData;
      }
      var id := GenerateReqId();
      reqId' := At(id);
      var a := Request(REQ_READ_SYNC, id, subject, Some(option), Ptr.Null, At(""), paramAlloc, reply);
      return a.error, a.sent, reqId', At(AssignedText(a.output.value));
    }

    /** `write(subject, inputData)`: the request without reply, with a fresh id. */
    method Write(subject: string, input: string, setupOk: bool, paramAlloc: bool, callFails: bool)
      returns (err: int, sent: Option<Wire>)
      requires Valid()
      modifies this
      ensures Valid() && listeners == old(listeners)
      ensures !connected ==> err == ERR_OPERATION_FAILED && sent == None && reqCounter == old(reqCounter)
      ensures connected ==>
        var a := RequestNoReply(REQ_WRITE, reqCounter, subject, Some(input), paramAlloc, callFails);
        reqCounter == NextReqId(old(reqCounter)) && err == a.error && sent == a.sent
    {
      var ok := Init(setupOk);
      if !ok {
        return ERR_OPERATION_FAILED, None;
      }
      var id := GenerateReqId();
      var a := RequestNoReply(REQ_WRITE, id, subject, Some(input), paramAlloc, callFails);
      return a.error, a.sent;
    }

    /** `write(subject, inputData, result)`: the replying request, with a fresh id. */
    method WriteWithResult(subject: string, input: string, result: Ptr<string>,
                           setupOk: bool, paramAlloc: bool, reply: Option<Reply>)
      returns (err: int, sent: Option<Wire>, result': Ptr<string>)
      requires Valid()
      modifies this
      ensures Valid() && listeners == old(listeners)
      ensures !connected ==> err == ERR_OPERATION_FAILED && sent == None && result' == result
      ensures !connected ==> reqCounter == old(reqCounter)
      ensures connected ==>
        var a := Request(REQ_WRITE, reqCounter, subject, Some(input), At(""), Ptr.Null, paramAlloc, reply);
        && reqCounter == NextReqId(old(reqCounter))
        && err == a.error && sent == a.sent
        && result' == (if result.At? then At(AssignedText(a.result.value)) else Ptr.Null)
    {
      var ok := Init(setupOk);
      if !ok {
        return ERR_OPERATION_FAILED, None, result;
      }
      var id := GenerateReqId();
      var a := Request(REQ_WRITE, id, subject, Some(input), At(""), Ptr.Null, paramAlloc, reply);
      result' := if result.At? then At(AssignedText(a.result.value)) else result;
      return a.error, a.sent, result';
    }
  }

  /**
   * `call(method)` on a client whose connection was never set up (or whose
   * setup failed) dereferences the null error.
   */
  method CallWithoutConnectionCrashes(reply: CallReply) returns (r: CallOutcome)
    ensures r == NullErrorDereference
  {
    var c := new DBusClient();
    r := Call(c.connected, reply);
  }

  /**
   * A response that arrives before any listener is registered (a `read`
   * without `addListener` first) dereferences the map's end iterator.
   */
  method ResponseWithoutListenerCrashes(subject: string, data: string) returns (d: Delivery)
    ensures d == EndDereference
  {
    var c := new DBusClient();
    d := c.OnMethodCalled(METHOD_RESPOND, 1, Some(subject), ERR_NONE, Some(data));
  }
}

=== FILE: dbus_signal_watcher.dfy ===
/**
 * `ctx::DBusSignalWatcher` (src/DBusSignalWatcher.cpp): watchers of D-Bus
 * signals that share one connection per bus.  The class `SignalBuses` holds
 * the static state: a watcher count per bus type and whether each bus
 * connection is open.  How opening a bus goes is an oracle (`OpenOutcome`); a
 * subscription id is whatever GDBus hands out (`sid`).
 */
module SignalWatch {
  import opened Common

  /** `DBusType`. */
  datatype BusType = System | Session

  /**
   * `__closeBus(bus)`: a NULL bus is left alone; an open one is closed
   * (`closed`); either way the pointer is NULL afterwards.
   */
  function CloseBus(open: bool): (r: (bool, bool))
    ensures !r.0
    ensures r.1 <==> open
  {
    (false, open)
  }

  /**
   * How `__openBus` goes: no bus address (the pointer is left as it was), no
   * connection to that address (the pointer becomes NULL), or a new connection.
   */
  datatype OpenOutcome = NoAddress | NoConnection | Opened

  /**
   * `__openBus(type, bus)`: whether the bus is open afterwards, and whether a
   * connection that was still open got overwritten (and so leaked).  Once an
   * address is found the pointer is assigned whatever the connect returns, so
   * a live connection is lost whether the connect succeeds or fails.
   */
  function OpenBus(open: bool, outcome: OpenOutcome): (r: (bool, bool))
    ensures r.0 <==> outcome == Opened || (outcome == NoAddress && open)
    ensures r.1 <==> open && outcome != NoAddress
    ensures !open ==> !r.1
  {
    match outcome
    case NoAddress => (open, false)
    case NoConnection => (false, open)
    case Opened => (true, open)
  }

  /** The static state of `DBusSignalWatcher`. */
  class SignalBuses {
    /** `__systemBusCnt` and `__sessionBusCnt`. */
    var systemCount: int
    var sessionCount: int
    /** `__systemBus != NULL` and `__sessionBus != NULL`. */
    var systemBus: bool
    var sessionBus: bool
    /** Connections overwritten by `__openBus` while still open: never closed, never unreferenced. */
    ghost var leaked: nat

    /** The counts are `unsigned int`s, and a bus is only open while some watcher counts it. */
    ghost predicate Valid()
      reads this
    {
      && 0 <= systemCount < UINT32_MODULUS && 0 <= sessionCount < UINT32_MODULUS
      && (systemBus ==> systemCount > 0)
      && (sessionBus ==> sessionCount > 0)
    }

    constructor ()
      ensures Valid() && systemCount == 0 && sessionCount == 0 && !systemBus && !sessionBus && leaked == 0
    {
      systemCount := 0;
      sessionCount := 0;
      systemBus := false;
      sessionBus := false;
      leaked := 0;
    }

    function Count(t: BusType): int
      reads this
    {
      if t == System then systemCount else sessionCount
    }

    function Connected(t: BusType): bool
      reads this
    {
      if t == System then systemBus else sessionBus
    }
  }

  class DBusSignalWatcher {
    const busType: BusType
    const buses: SignalBuses

    /**
     * `DBusSignalWatcher(type)`: counts the watcher on its bus (an unsigned `++`,
     * which wraps); a watcher that finds the count at 0 opens the bus, whatever
     * the pointer holds.  The other bus is untouched.  From a valid state
     * nothing leaks, and the state stays valid unless the count wraps.
     */
    constructor (busType: BusType, buses: SignalBuses, outcome: OpenOutcome)
      requires 0 <= buses.systemCount < UINT32_MODULUS && 0 <= buses.sessionCount < UINT32_MODULUS
      modifies buses
      ensures this.busType == busType && this.buses == buses
      ensures buses.Count(busType) == Inc32(old(buses.Count(busType)))
      ensures old(buses.Count(busType)) == 0 ==>
        buses.Connected(busType) == OpenBus(old(buses.Connected(busType)), outcome).0
        && buses.leaked == old(buses.leaked) + (if OpenBus(old(buses.Connected(busType)), outcome).1 then 1 else 0)
      ensures old(buses.Count(busType)) > 0 ==>
        buses.Connected(busType) == old(buses.Connected(busType)) && buses.leaked == old(buses.leaked)
      ensures busType == System ==> buses.sessionCount == old(buses.sessionCount) && buses.sessionBus == old(buses.sessionBus)
      ensures busType == Session ==> buses.systemCount == old(buses.systemCount) && buses.systemBus == old(buses.systemBus)
      ensures old(buses.Valid()) ==> buses.leaked == old(buses.leaked)
      ensures old(buses.Valid()) && old(buses.Count(busType)) < UINT32_MODULUS - 1 ==> buses.Valid()
    {
      this.busType := busType;
      this.buses := buses;
      new;
      if busType == System {
        if buses.systemCount == 0 {
          var r := OpenBus(buses.systemBus, outcome);
          buses.systemBus := r.0;
          if r.1 {
            buses.leaked := buses.leaked + 1;
          }
        }
        buses.systemCount := Inc32(buses.systemCount);
      } else {
        if buses.sessionCount == 0 {
          var r := OpenBus(buses.sessionBus, outcome);
          buses.sessionBus := r.0;
          if r.1 {
            buses.leaked := buses.leaked + 1;
          }
        }
        buses.sessionCount := Inc32(buses.sessionCount);
      }
    }

    /**
     * `~DBusSignalWatcher()` as written: both branches decrement the system
     * count; a system watcher closes the system bus and a session watcher the
     * session bus when that count reaches 0.  The session count never goes
     * down, and the unsigned system count wraps below 0.
     */
    method Destroy() returns (closed: bool)
      requires 0 <= buses.systemCount < UINT32_MODULUS && 0 <= buses.sessionCount < UINT32_MODULUS
      modifies buses
      ensures buses.systemCount == Dec32(old(buses.systemCount))
      ensures buses.sessionCount == old(buses.sessionCount) && buses.leaked == old(buses.leaked)
      ensures busType == System ==>
        buses.sessionBus == old(buses.sessionBus)
        && (buses.systemCount == 0 ==> !buses.systemBus && closed == old(buses.systemBus))
        && (buses.systemCount != 0 ==> buses.systemBus == old(buses.systemBus) && !closed)
      ensures busType == Session ==>
        buses.systemBus == old(buses.systemBus)
        && (buses.systemCount == 0 ==> !buses.sessionBus && closed == old(buses.sessionBus))
        && (buses.systemCount != 0 ==> buses.sessionBus == old(buses.sessionBus) && !closed)
    {
      buses.systemCount := Dec32(buses.systemCount);
      closed := false;
      if buses.systemCount == 0 {
        if busType == System {
          var r := CloseBus(buses.systemBus);
          buses.systemBus, closed := r.0, r.1;
        } else {
          var r := CloseBus(buses.sessionBus);
          buses.sessionBus, closed := r.0, r.1;
        }
      }
    }

    /**
     * The destructor as intended: the watcher's own bus count goes down, and
     * the last watcher of a bus closes it; the other bus is untouched.
     */
    method DestroyChecked() returns (closed: bool)
      requires buses.Valid() && buses.Count(busType) > 0
      modifies buses
      ensures buses.Valid() && buses.leaked == old(buses.leaked)
      ensures buses.Count(busType) == old(buses.Count(busType)) - 1
      ensures buses.Count(busType) == 0 ==> !buses.Connected(busType) && closed == old(buses.Connected(busType))
      ensures buses.Count(busType) > 0 ==> buses.Connected(busType) == old(buses.Connected(busType)) && !closed
      ensures busType == System ==> buses.sessionCount == old(buses.sessionCount) && buses.sessionBus == old(buses.sessionBus)
      ensures busType == Session ==> buses.systemCount == old(buses.systemCount) && buses.systemBus == old(buses.systemBus)
    {
      closed := false;
      if busType == System {
        buses.systemCount := buses.systemCount - 1;
        if buses.systemCount == 0 {
          var r := CloseBus(buses.systemBus);
          buses.systemBus, closed := r.0, r.1;
        }
      } else {
        buses.sessionCount := buses.sessionCount - 1;
        if buses.sessionCount == 0 {
          var r := CloseBus(buses.sessionBus);
          buses.sessionBus, closed := r.0, r.1;
        }
      }
    }

    /** `watch(...)`: -1 when the watcher's bus is not connected, otherwise the subscription id. */
    method Watch(sid: nat) returns (id: int)
      ensures !buses.Connected(busType) ==> id == -1
      ensures buses.Connected(busType) ==> id == sid
    {
      if !buses.Connected(busType) {
        return -1;
      }
      return sid;
    }

    /** `unwatch(signalId)`: a negative id is ignored; any other is unsubscribed on the watcher's bus. */
    method Unwatch(signalId: int) returns (unsubscribed: Option<(BusType, int)>)
      ensures signalId < 0 ==> unsubscribed == None
      ensures signalId >= 0 ==> unsubscribed == Some((busType, signalId))
    {
      if signalId < 0 {
        return None;
      }
      return Some((busType, signalId));
    }
  }

  /**
   * One session watcher created and destroyed: the system count wraps to
   * 2^32 - 1, the session count stays at 1, and an open session bus stays open.
   */
  method SessionWatcherUnbalancesCounts() returns (buses: SignalBuses)
    ensures buses.systemCount == UINT32_MODULUS - 1 && buses.sessionCount == 1 && buses.sessionBus
  {
    buses := new SignalBuses();
    var w := new DBusSignalWatcher(Session, buses, Opened);
    var _ := w.Destroy();
  }

  /** With the intended destructor, the same sequence leaves both counts at 0 and both buses closed. */
  method SessionWatcherBalanced() returns (buses: SignalBuses)
    ensures buses.Valid()
    ensures buses.systemCount == 0 && buses.sessionCount == 0 && !buses.sessionBus && !buses.systemBus
  {
    buses := new SignalBuses();
    var w := new DBusSignalWatcher(Session, buses, Opened);
    var _ := w.DestroyChecked();
  }

  /**
   * A system watcher, then a session watcher whose destruction (as written)
   * takes the system count to 0 with the system bus still open: the next system
   * watcher opens the bus again over the live connection, which leaks, and
   * two live system watchers are counted as one.
   */
  method ReopenLeaksSystemBus() returns (buses: SignalBuses)
    ensures buses.leaked == 1
    ensures buses.systemBus && buses.systemCount == 1
  {
    buses := new SignalBuses();
    var first := new DBusSignalWatcher(System, buses, Opened);
    var session := new DBusSignalWatcher(Session, buses, Opened);
    var _ := session.Destroy();
    assert buses.systemCount == 0 && buses.systemBus;
    var second := new DBusSignalWatcher(System, buses, Opened);
  }

  /** With the corrected destructor, the same sequence leaks nothing and counts both system watchers. */
  method ReopenBalanced() returns (buses: SignalBuses)
    ensures buses.Valid() && buses.leaked == 0
    ensures buses.systemBus && buses.systemCount == 2
    ensures !buses.sessionBus && buses.sessionCount == 0
  {
    buses := new SignalBuses();
    var first := new DBusSignalWatcher(System, buses, Opened);
    var session := new DBusSignalWatcher(Session, buses, Opened);
    var _ := session.DestroyChecked();
    var second := new DBusSignalWatcher(System, buses, Opened);
  }
}

=== FILE: event_driven.dfy ===
/**
 * The older worker of src/event_driven.cpp (`event_driven_thread`).  Its queue
 * protocol (push, worker loop, stop with terminal message and drain) is the one
 * of src/EventDrivenThread.cpp, so the class holds a `Worker.EventDrivenThread`
 * for that state; what differs is where the thread info is allocated: once, in
 * the constructor, and start() fails for good when that allocation failed.
 */
module EventDriven {
  import opened Common
  import opened WorkQueue
  import opened Worker

  class EventThread<T> {
    /** Queue, flag and worker-thread state; `core.hasInfo` is `thread_info != NULL`. */
    const core: EventDrivenThread<T>

    ghost predicate Valid()
      reads this, core
    {
      core.Valid()
    }

    /** The constructor: `infoAlloc` is whether the g_malloc of the thread info succeeded. */
    constructor (infoAlloc: bool)
      ensures Valid() && fresh(core)
      ensures core.hasInfo == infoAlloc && !core.running && core.queue == []
      ensures core.accepted == [] && core.log == []
    {
      core := new EventDrivenThread<T>();
      new;
      core.hasInfo := infoAlloc;
    }

    /** start(): false without thread info; otherwise creates queue and thread unless running. */
    method Start(queueAlloc: bool, threadCreated: bool) returns (ok: bool)
      requires Valid()
      modifies core
      ensures Valid()
      ensures core.hasInfo == old(core.hasInfo)
      ensures !core.hasInfo ==> !ok && core.running == old(core.running)
      ensures core.hasInfo && old(core.running) ==> ok && core.running && core.queue == old(core.queue)
      ensures core.hasInfo && !old(core.running) ==>
        ok == (queueAlloc && threadCreated) && core.running == ok && core.queue == []
      ensures core.accepted == old(core.accepted) && core.log == old(core.log)
    {
      if !core.hasInfo {
        return false;
      }
      ok := core.Start(true, queueAlloc, threadCreated);
    }

    /** stop(): as the newer worker's, on the same (non-null) thread info. */
    method Stop(termAlloc: bool, racing: nat) returns (ok: bool)
      requires Valid() && core.hasInfo
      modifies core
      ensures Valid()
      ensures ok <==> !old(core.running) || termAlloc
      ensures old(core.running) && ok ==> !core.running && core.queue == [] && core.accepted == Settled(core.log)
      ensures old(core.running) && ok ==>
        exists k :: 0 <= k <= |old(core.queue)| &&
          core.log == old(core.log) + HandledAll(old(core.queue)[..k]) + DrainLog(old(core.queue)[k..])
      ensures core.accepted == old(core.accepted) && core.hasInfo == old(core.hasInfo)
    {
      ok := core.Stop(termAlloc, racing);
    }

    /** is_running(): reads the flag through the thread info. */
    method IsRunning() returns (r: bool)
      requires core.hasInfo
      ensures r == core.running
    {
      r := core.IsRunning();
    }

    /** push_thread_event(type, data). */
    method PushThreadEvent(kind: int, data: Option<T>, allocOk: bool) returns (ok: bool)
      requires Valid() && core.hasInfo
      modifies core
      ensures Valid()
      ensures ok <==> old(core.running) && allocOk
      ensures ok ==> core.queue == old(core.queue) + [Message(kind, data, false)]
      ensures ok ==> core.accepted == old(core.accepted) + [Event(kind, data)]
      ensures !ok ==> core.queue == old(core.queue) && core.accepted == old(core.accepted)
      ensures core.log == old(core.log) && core.running == old(core.running)
    {
      ok := core.PushEvent(kind, data, allocOk);
    }

    /** One action of process_event_queue, which gives events to on_thread_event_popped. */
    method ProcessStep() returns (dispatched: Option<Event<T>>)
      requires Valid()
      modifies core
      ensures Valid()
      ensures core.running == old(core.running) && core.accepted == old(core.accepted)
      ensures dispatched.Some? ==>
        old(core.queue) != [] && core.queue == old(core.queue)[1..]
        && dispatched == Some(Event(old(core.queue)[0].kind, old(core.queue)[0].data))
        && core.log == old(core.log) + [Handled(old(core.queue)[0].kind, old(core.queue)[0].data)]
      ensures dispatched.None? ==> core.queue == old(core.queue) && core.log == old(core.log)
    {
      dispatched := core.Step();
    }

    /** The destructor: stop(), then g_free of the thread info. */
    method Destroy(termAlloc: bool, racing: nat)
      requires Valid() && core.hasInfo
      modifies core
      ensures !core.hasInfo
      ensures old(core.running) && termAlloc ==> core.accepted == Settled(core.log) && core.queue == []
    {
      var _ := Stop(termAlloc, racing);
      core.hasInfo := false;
    }
  }
}

=== FILE: event_driven_thread.dfy ===
/**
 * The worker of src/EventDrivenThread.cpp: a flag, a FIFO queue of messages and
 * a worker thread that hands each message to onEvent until it meets the
 * terminal message or sees the flag cleared.
 *
 * The worker thread is modelled by `phase` and the method `Step`, one action
 * of its loop; any interleaving of the worker with the callers is a sequence of
 * calls to `Step` between calls to the other methods.  The ghost `accepted`
 * lists the events pushEvent accepted and `log` what became of each message
 * that left the queue.
 */
module Worker {
  import opened Common
  import opened WorkQueue

  /** Where the worker thread is in `__run`. */
  datatype Phase =
    | Exited    // not started, or returned from `__run`
    | Checking  // about to test the running flag at the top of the loop
    | Popping   // blocked in (or about to return from) g_async_queue_pop

  function Rank(p: Phase): nat {
    match p
    case Exited => 0
    case Checking => 1
    case Popping => 2
  }

  /** What the join leaves behind drains like the unhandled rest of the queue. */
  lemma LeftoverDrain<T>(q0: seq<Message<T>>, k: nat, left: seq<Message<T>>)
    requires k <= |q0|
    requires left == (q0 + [Terminal()])[k..] || (left == [] && k == |q0|)
    ensures DrainLog(left) == DrainLog(q0[k..])
  {
    if left != [] {
      assert left == q0[k..] + [Terminal()];
      DrainLogAppend(q0[k..], [Terminal()]);
    }
  }

  class EventDrivenThread<T> {
    /** `__threadInfo != NULL`. */
    var hasInfo: bool
    /** `__threadInfo->isRunning`. */
    var running: bool
    /** `__threadInfo->eventQueue`, head first. */
    var queue: seq<Message<T>>
    var phase: Phase
    ghost var accepted: seq<Event<T>>
    ghost var log: seq<Disposal<T>>

    /** Every accepted event is either settled (in order) or still pending (in order). */
    ghost predicate Sound()
      reads this
    {
      accepted == Settled(log) + Pending(queue)
    }

    /** The state between public calls: only stop() ever enqueues a terminal message. */
    ghost predicate Valid()
      reads this
    {
      && Sound()
      && (running <==> phase != Exited)
      && (running ==> hasInfo)
      && (!running ==> queue == [])
      && NoTerminal(queue)
    }

    constructor ()
      ensures Valid()
      ensures !hasInfo && !running && queue == [] && phase == Exited
      ensures accepted == [] && log == []
    {
      hasInfo := false;
      running := false;
      queue := [];
      phase := Exited;
      accepted := [];
      log := [];
    }

    /**
     * start(): allocates the thread info once, then (when not running) a new
     * queue and the worker thread.  `infoAlloc`, `queueAlloc` and `threadCreated`
     * are the outcomes of the three allocations.
     */
    method Start(infoAlloc: bool, queueAlloc: bool, threadCreated: bool) returns (ok: bool)
      requires Valid()
      modifies this
      ensures Valid()
      ensures hasInfo == (old(hasInfo) || infoAlloc)
      ensures old(running) ==> ok && running && queue == old(queue) && phase == old(phase)
      ensures !old(running) ==> ok == (hasInfo && queueAlloc && threadCreated)
      ensures !old(running) ==> running == ok && queue == [] && phase == (if ok then Checking else Exited)
      ensures accepted == old(accepted) && log == old(log)
    {
      if !hasInfo {
        hasInfo := infoAlloc;
      }
      if !hasInfo {
        return false;
      }
      if !running {
        if !queueAlloc {
          return false;
        }
        queue := [];
        running := true;
        if !threadCreated {
          running := false;
          return false;
        }
        phase := Checking;
      }
      return true;
    }

    /** isRunning(): dereferences the thread info, so it must exist. */
    method IsRunning() returns (r: bool)
      requires hasInfo
      ensures r == running
    {
      return running;
    }

    /**
     * pushEvent(type, data): enqueues while running; `allocOk` is whether the
     * message could be allocated.  On false the caller keeps the payload.
     */
    method PushEvent(kind: int, data: Option<T>, allocOk: bool) returns (ok: bool)
      requires Valid() && hasInfo
      modifies this
      ensures Valid()
      ensures ok <==> old(running) && allocOk
      ensures ok ==> queue == old(queue) + [Message(kind, data, false)]
      ensures ok ==> accepted == old(accepted) + [Event(kind, data)]
      ensures !ok ==> queue == old(queue) && accepted == old(accepted)
      ensures running == old(running) && phase == old(phase) && hasInfo == old(hasInfo)
      ensures log == old(log)
    {
      if running {
        if !allocOk {
          return false;
        }
        PendingAppend(queue, [Message(kind, data, false)]);
        queue := queue + [Message(kind, data, false)];
        accepted := accepted + [Event(kind, data)];
        return true;
      }
      return false;
    }

    /**
     * One action of the worker loop `__run`: test the flag (leaving the loop when
     * it is clear), or pop the head of the queue and either leave on the terminal
     * message or pass the event to onEvent.  A pop on an empty queue blocks, which
     * is a step that changes nothing.  Returns the event given to onEvent, if any.
     */
    method Step() returns (dispatched: Option<Event<T>>)
      requires Sound()
      modifies this
      ensures Sound()
      ensures old(Valid()) ==> Valid()
      ensures running == old(running) && hasInfo == old(hasInfo) && accepted == old(accepted)
      ensures old(phase) == Exited ==> phase == Exited && queue == old(queue) && log == old(log) && dispatched == None
      ensures old(phase) == Checking ==>
        && phase == (if running then Popping else Exited)
        && queue == old(queue) && log == old(log) && dispatched == None
      ensures old(phase) == Popping && old(queue) == [] ==>
        phase == Popping && queue == [] && log == old(log) && dispatched == None
      ensures old(phase) == Popping && old(queue) != [] && old(queue)[0].term ==>
        phase == Exited && queue == old(queue)[1..] && log == old(log) && dispatched == None
      ensures old(phase) == Popping && old(queue) != [] && !old(queue)[0].term ==>
        && phase == Checking && queue == old(queue)[1..]
        && dispatched == Some(Event(old(queue)[0].kind, old(queue)[0].data))
        && log == old(log) + [Handled(old(queue)[0].kind, old(queue)[0].data)]
    {
      dispatched := None;
      match phase
      case Exited =>
      case Checking =>
        phase := if running then Popping else Exited;
      case Popping =>
        if queue != [] {
          var m := queue[0];
          assert queue == [m] + queue[1..];
          PendingAppend([m], queue[1..]);
          queue := queue[1..];
          if m.term {
            phase := Exited;
          } else {
            SettledAppend(log, [Handled(m.kind, m.data)]);
            log := log + [Handled(m.kind, m.data)];
            dispatched := Some(Event(m.kind, m.data));
            phase := Checking;
          }
        }
    }

    /** One round of stop()'s drain loop: pop the head, then deleteEvent for its payload, if any. */
    method DrainOne()
      requires queue != []
      modifies this`queue, this`log
      ensures queue == old(queue)[1..] && log == old(log) + DrainLog([old(queue)[0]])
    {
      var m := queue[0];
      DrainLogSingle(m);
      queue := queue[1..];
      if !m.term {
        if m.data.Some? {
          log := log + [Deleted(m.kind, m.data.value)];
        } else {
          log := log + [Dropped(m.kind)];
        }
      }
    }

    /** The drain loop of stop(): empties the queue, calling deleteEvent for each payload. */
    method Drain()
      requires Sound()
      modifies this`queue, this`log
      ensures Sound()
      ensures queue == [] && log == old(log) + DrainLog(old(queue))
      ensures running == old(running) && phase == old(phase) && hasInfo == old(hasInfo)
      ensures accepted == old(accepted)
    {
      ghost var q0 := queue;
      ghost var log0 := log;
      DrainQueue();
      SettledAppend(log0, DrainLog(q0));
      SettledDrainLog(q0);
    }

    /** The loop itself: what it pops, in order, is disposed of by deleteEvent. */
    method DrainQueue()
      modifies this`queue, this`log
      ensures queue == [] && log == old(log) + DrainLog(old(queue))
    {
      while queue != []
        invariant log + DrainLog(queue) == old(log) + DrainLog(old(queue))
        decreases |queue|
      {
        ghost var before := log;
        ghost var head := DrainLog([queue[0]]);
        ghost var rest := DrainLog(queue[1..]);
        DrainLogCons(queue);
        DrainOne();
        assert before + head + rest == before + (head + rest);
      }
    }

    /**
     * Progress of stop() after it enqueued the terminal message behind `q0`: the
     * worker has given the first `k` messages of `q0` to onEvent and either still
     * has the rest (and the terminal message) ahead of it or has consumed them all.
     */
    ghost predicate Stopping(q0: seq<Message<T>>, log0: seq<Disposal<T>>, k: nat)
      reads this
    {
      && Sound() && NoTerminal(q0) && k <= |q0|
      && log == log0 + HandledAll(q0[..k])
      && (phase != Exited ==> queue == (q0 + [Terminal()])[k..])
      && (phase == Exited ==> queue == (q0 + [Terminal()])[k..] || (queue == [] && k == |q0|))
    }

    /** One worker step during stop(), with the count of handled messages carried along. */
    method StopStep(ghost q0: seq<Message<T>>, ghost log0: seq<Disposal<T>>, ghost k: nat)
      returns (ghost k': nat)
      requires Stopping(q0, log0, k)
      modifies this
      ensures Stopping(q0, log0, k')
      ensures running == old(running) && hasInfo == old(hasInfo) && accepted == old(accepted)
      ensures !running && old(phase) != Exited ==> Rank(phase) < Rank(old(phase))
    {
      ghost var before := queue;
      var _ := Step();
      k' := k;
      if old(phase) == Popping && before != [] && !before[0].term {
        assert before[0] == q0[k];
        assert q0[..k + 1] == q0[..k] + [q0[k]];
        HandledAllAppend(q0[..k], [q0[k]]);
        k' := k + 1;
        assert queue == (q0 + [Terminal()])[k'..];
      } else if old(phase) == Popping && before != [] {
        assert k == |q0|;
      }
    }

    /**
     * stop(): when running, enqueues the terminal message (`termAlloc` is whether
     * it could be allocated), clears the flag, joins the worker and drains what is
     * left.  `racing` is the number of worker steps that run between the push and
     * the clearing of the flag.  Afterwards every accepted event has been settled:
     * a prefix of the queue went to onEvent and the rest to the drain.
     */
    method Stop(termAlloc: bool, racing: nat) returns (ok: bool)
      requires Valid() && hasInfo
      modifies this
      ensures Valid()
      ensures ok <==> !old(running) || termAlloc
      ensures !ok || !old(running) ==>
        running == old(running) && queue == old(queue) && phase == old(phase) && log == old(log)
      ensures old(running) && ok ==> !running && queue == [] && phase == Exited
      ensures old(running) && ok ==> accepted == Settled(log)
      ensures old(running) && ok ==>
        exists k :: 0 <= k <= |old(queue)| &&
          log == old(log) + HandledAll(old(queue)[..k]) + DrainLog(old(queue)[k..])
      ensures accepted == old(accepted) && hasInfo == old(hasInfo)
    {
      if !running {
        return true;
      }
      if !termAlloc {
        return false;
      }
      ghost var q0 := queue;
      ghost var log0 := log;
      PendingAppend(queue, [Terminal()]);
      queue := queue + [Terminal()];
      ghost var k: nat := 0;
      assert (q0 + [Terminal()])[0..] == queue && q0[..0] == [];
      var i := 0;
      while i < racing
        invariant Stopping(q0, log0, k)
        invariant running && hasInfo && accepted == old(accepted)
      {
        k := StopStep(q0, log0, k);
        i := i + 1;
      }
      running := false;
      // g_thread_join: the worker runs until it leaves `__run`.
      while phase != Exited
        invariant Stopping(q0, log0, k)
        invariant !running && hasInfo && accepted == old(accepted)
        decreases Rank(phase)
      {
        k := StopStep(q0, log0, k);
      }
      ghost var left := queue;
      Drain();
      LeftoverDrain(q0, k, left);
      assert log == log0 + HandledAll(q0[..k]) + DrainLog(q0[k..]);
      return true;
    }

    /** The destructor: stop(), then free the thread info (which must exist). */
    method Destroy(termAlloc: bool, racing: nat)
      requires Valid() && hasInfo
      modifies this
      ensures !hasInfo
      ensures old(running) && termAlloc ==> accepted == Settled(log) && queue == []
    {
      var _ := Stop(termAlloc, racing);
      hasInfo := false;
    }
  }
}

=== FILE: json.dfy ===
/**
 * `ctx::Json` (include/Json.h, src/shared/Json.cpp): a handle on a JSON document
 * that the setters edit in place.  `node` is `__jsonNode`; `None` is a NULL node
 * (what a failed parse or copy leaves), on which every operation fails.
 */
module JsonDoc {
  import opened Common
  import opened JsonPath
  import opened JsonTree
  import opened JsonLaws

  /** The conversion of `int64_t` to `int` in the `int` getters: two's complement truncation. */
  function ToInt32(v: int64): (r: int)
    ensures -0x8000_0000 <= r < 0x8000_0000
    ensures (r - v as int) % UINT32_MODULUS == 0
    ensures -0x8000_0000 <= v as int < 0x8000_0000 ==> r == v as int
  {
    (v as int + 0x8000_0000) % UINT32_MODULUS - 0x8000_0000
  }

  class Json {
    var node: Option<Node>

    /** Member names are distinct in every object of the document. */
    ghost predicate Valid()
      reads this
    {
      node.Some? ==> WF(node.value)
    }

    /** `Json()`: an empty object. */
    constructor ()
      ensures Valid() && node == Some(Object([]))
    {
      node := Some(Object([]));
    }

    /**
     * `Json(const Json &)`: `json_node_copy` of the other handle's node.  That
     * copy shares the underlying JSON object or array, so in the C++ both
     * handles see each other's edits; here a copy is an independent value.
     */
    constructor Copy(j: Json)
      requires j.Valid()
      ensures Valid() && node == j.node
    {
      node := j.node;
    }

    /**
     * `operator=(const Json &)` as written: release the own node, then copy the
     * other's.  On self-assignment the node is already released when it is
     * copied, and the document is lost.
     */
    method Assign(j: Json)
      requires Valid() && j.Valid()
      modifies this
      ensures Valid()
      ensures j != this ==> node == old(j.node)
      ensures j == this ==> node == None
    {
      node := None;
      node := j.node;
    }

    /** `operator=(const Json &)` with a self-assignment check: the document always equals the source. */
    method AssignChecked(j: Json)
      requires Valid() && j.Valid()
      modifies this
      ensures Valid()
      ensures node == old(j.node)
    {
      if j != this {
        node := None;
        node := j.node;
      }
    }

    /** `valid()`. */
    method IsValid() returns (r: bool)
      ensures r <==> node.Some?
    {
      return node.Some?;
    }

    /**
     * `set(path, key, Json&)`: the member becomes `val`'s document, moved out of
     * `val`, which is left holding a new empty object.
     */
    method Set(path: Option<string>, key: string, val: Json) returns (ok: bool)
      requires Valid() && val.Valid() && val != this
      modifies this, val
      ensures Valid() && val.Valid()
      ensures ok <==> old(node).Some? && old(val.node).Some?
                      && ModifyAt(old(node).value, Tokens(path), true, SetMember(key, old(val.node).value)).Some?
      ensures ok ==> node == ModifyAt(old(node).value, Tokens(path), true, SetMember(key, old(val.node).value))
      ensures ok ==> val.node == Some(Object([]))
      ensures !ok ==> node == old(node) && val.node == old(val.node)
    {
      if node.None? || val.node.None? {
        return false;
      }
      var r := ModifyAt(node.value, Tokens(path), true, SetMember(key, val.node.value));
      if r.None? {
        return false;
      }
      ModifyWF(node.value, Tokens(path), true, SetMember(key, val.node.value));
      node := r;
      val.node := Some(Object([]));
      return true;
    }

    /** `set(path, key, int64_t)`. */
    method SetInt(path: Option<string>, key: string, v: int64) returns (ok: bool)
      requires Valid()
      modifies this
      ensures Valid()
      ensures ok <==> old(node).Some? && ModifyAt(old(node).value, Tokens(path), true, SetMember(key, Int(v))).Some?
      ensures ok ==> node == ModifyAt(old(node).value, Tokens(path), true, SetMember(key, Int(v)))
      ensures !ok ==> node == old(node)
    {
      if node.None? {
        return false;
      }
      var r := ModifyAt(node.value, Tokens(path), true, SetMember(key, Int(v)));
      if r.None? {
        return false;
      }
      ModifyWF(node.value, Tokens(path), true, SetMember(key, Int(v)));
      node := r;
      return true;
    }

    /** `set(path, key, std::string)`. */
    method SetString(path: Option<string>, key: string, s: string) returns (ok: bool)
      requires Valid()
      modifies this
      ensures Valid()
      ensures ok <==> old(node).Some? && ModifyAt(old(node).value, Tokens(path), true, SetMember(key, Str(s))).Some?
      ensures ok ==> node == ModifyAt(old(node).value, Tokens(path), true, SetMember(key, Str(s)))
      ensures !ok ==> node == old(node)
    {
      if node.None? {
        return false;
      }
      var r := ModifyAt(node.value, Tokens(path), true, SetMember(key, Str(s)));
      if r.None? {
        return false;
      }
      ModifyWF(node.value, Tokens(path), true, SetMember(key, Str(s)));
      node := r;
      return true;
    }

    /**
     * `get(path, key, Json*)`: `val` receives a node copy of the member (and
     * only on success); the value it holds here does not alias the document.
     */
    method Get(path: Option<string>, key: string, val: Json) returns (ok: bool)
      requires Valid() && val.Valid()
      modifies val
      ensures Valid() && val.Valid()
      ensures ok <==> old(node).Some? && GetNode(old(node).value, Tokens(path), key).Some?
      ensures ok ==> val.node == GetNode(old(node).value, Tokens(path), key)
      ensures !ok ==> val.node == old(val.node)
    {
      if node.None? {
        return false;
      }
      var m := GetNode(node.value, Tokens(path), key);
      if m.None? {
        return false;
      }
      GetNodeWF(node.value, Tokens(path), key);
      val.node := m;
      return true;
    }

    /** `get(path, key, int64_t*)`; `toInt` is the text-to-number conversion for STRING values. */
    method GetInt(path: Option<string>, key: string, toInt: string -> int64) returns (r: Option<int64>)
      ensures node.None? ==> r.None?
      ensures node.Some? ==> r == JsonTree.GetInt(node.value, Tokens(path), key, toInt)
    {
      if node.None? {
        return None;
      }
      return JsonTree.GetInt(node.value, Tokens(path), key, toInt);
    }

    /** `get(path, key, int*)`: the int64 reading, truncated to 32 bits. */
    method GetInt32(path: Option<string>, key: string, toInt: string -> int64) returns (r: Option<int>)
      ensures node.None? ==> r.None?
      ensures node.Some? ==> (r.Some? <==> JsonTree.GetInt(node.value, Tokens(path), key, toInt).Some?)
      ensures node.Some? && r.Some? ==> r.value == ToInt32(JsonTree.GetInt(node.value, Tokens(path), key, toInt).value)
    {
      var v := GetInt(path, key, toInt);
      if v.None? {
        return None;
      }
      return Some(ToInt32(v.value));
    }

    /** `get(path, key, std::string*)`. */
    method GetString(path: Option<string>, key: string) returns (r: Option<string>)
      ensures node.None? ==> r.None?
      ensures node.Some? ==> r == JsonTree.GetString(node.value, Tokens(path), key)
    {
      if node.None? {
        return None;
      }
      return JsonTree.GetString(node.value, Tokens(path), key);
    }

    /** `getSize(path, key)`: the array's length, -1 on any failure. */
    method GetSize(path: Option<string>, key: string) returns (n: int)
      ensures node.None? ==> n == -1
      ensures node.Some? ==> n == JsonTree.GetSize(node.value, Tokens(path), key)
    {
      if node.None? {
        return -1;
      }
      return JsonTree.GetSize(node.value, Tokens(path), key);
    }

    /** `append(path, key, Json&)`: `val`'s document is moved into the array. */
    method Append(path: Option<string>, key: string, val: Json) returns (ok: bool)
      requires Valid() && val.Valid() && val != this
      modifies this, val
      ensures Valid() && val.Valid()
      ensures ok <==> old(node).Some? && old(val.node).Some?
                      && ModifyAt(old(node).value, Tokens(path), true, AppendElem(key, old(val.node).value)).Some?
      ensures ok ==> node == ModifyAt(old(node).value, Tokens(path), true, AppendElem(key, old(val.node).value))
      ensures ok ==> val.node == Some(Object([]))
      ensures !ok ==> node == old(node) && val.node == old(val.node)
    {
      if node.None? || val.node.None? {
        return false;
      }
      var r := ModifyAt(node.value, Tokens(path), true, AppendElem(key, val.node.value));
      if r.None? {
        return false;
      }
      ModifyWF(node.value, Tokens(path), true, AppendElem(key, val.node.value));
      node := r;
      val.node := Some(Object([]));
      return true;
    }

    /** `append(path, key, int64_t)`. */
    method AppendInt(path: Option<string>, key: string, v: int64) returns (ok: bool)
      requires Valid()
      modifies this
      ensures Valid()
      ensures ok <==> old(node).Some? && ModifyAt(old(node).value, Tokens(path), true, AppendElem(key, Int(v))).Some?
      ensures ok ==> node == ModifyAt(old(node).value, Tokens(path), true, AppendElem(key, Int(v)))
      ensures !ok ==> node == old(node)
    {
      if node.None? {
        return false;
      }
      var r := ModifyAt(node.value, Tokens(path), true, AppendElem(key, Int(v)));
      if r.None? {
        return false;
      }
      ModifyWF(node.value, Tokens(path), true, AppendElem(key, Int(v)));
      node := r;
      return true;
    }

    /** `append(path, key, std::string)`. */
    method AppendString(path: Option<string>, key: string, s: string) returns (ok: bool)
      requires Valid()
      modifies this
      ensures Valid()
      ensures ok <==> old(node).Some? && ModifyAt(old(node).value, Tokens(path), true, AppendElem(key, Str(s))).Some?
      ensures ok ==> node == ModifyAt(old(node).value, Tokens(path), true, AppendElem(key, Str(s)))
      ensures !ok ==> node == old(node)
    {
      if node.None? {
        return false;
      }
      var r := ModifyAt(node.value, Tokens(path), true, AppendElem(key, Str(s)));
      if r.None? {
        return false;
      }
      ModifyWF(node.value, Tokens(path), true, AppendElem(key, Str(s)));
      node := r;
      return true;
    }

    /**
     * `setAt(path, key, index, Json&)`: `val` must hold an object; its object
     * replaces the element's, and `val` is left holding a new empty object.
     */
    method SetAt(path: Option<string>, key: string, index: int, val: Json) returns (ok: bool)
      requires Valid() && val.Valid() && val != this
      modifies this, val
      ensures Valid() && val.Valid()
      ensures ok <==> old(node).Some? && old(val.node).Some? && index >= 0
                      && GetElem(old(node).value, Tokens(path), key, index).Some?
                      && old(val.node).value.Object?
      ensures ok ==> node == ModifyAt(old(node).value, Tokens(path), false,
                                      SetElemObject(key, index, old(val.node).value.members))
      ensures ok ==> val.node == Some(Object([]))
      ensures !ok ==> node == old(node) && val.node == old(val.node)
    {
      if node.None? || val.node.None? || index < 0 {
        return false;
      }
      if GetElem(node.value, Tokens(path), key, index).None? {
        return false;
      }
      if !val.node.value.Object? {
        return false;
      }
      var e := SetElemObject(key, index, val.node.value.members);
      SetElemObjectEffect(node.value, Tokens(path), key, index, val.node.value.members);
      ModifyWF(node.value, Tokens(path), false, e);
      node := ModifyAt(node.value, Tokens(path), false, e);
      val.node := Some(Object([]));
      return true;
    }

    /** `setAt(path, key, index, int64_t)`: the element must be a VALUE node. */
    method SetAtInt(path: Option<string>, key: string, index: int, v: int64) returns (ok: bool)
      requires Valid()
      modifies this
      ensures Valid()
      ensures ok <==> old(node).Some? && index >= 0
                      && ModifyAt(old(node).value, Tokens(path), false, SetElemInt(key, index, v)).Some?
      ensures ok ==> node == ModifyAt(old(node).value, Tokens(path), false, SetElemInt(key, index, v))
      ensures !ok ==> node == old(node)
    {
      if node.None? || index < 0 {
        return false;
      }
      var r := ModifyAt(node.value, Tokens(path), false, SetElemInt(key, index, v));
      if r.None? {
        return false;
      }
      ModifyWF(node.value, Tokens(path), false, SetElemInt(key, index, v));
      node := r;
      return true;
    }

    /** `setAt(path, key, index, std::string)`: the element must be a VALUE node. */
    method SetAtString(path: Option<string>, key: string, index: int, s: string) returns (ok: bool)
      requires Valid()
      modifies this
      ensures Valid()
      ensures ok <==> old(node).Some? && index >= 0
                      && ModifyAt(old(node).value, Tokens(path), false, SetElemStr(key, index, s)).Some?
      ensures ok ==> node == ModifyAt(old(node).value, Tokens(path), false, SetElemStr(key, index, s))
      ensures !ok ==> node == old(node)
    {
      if node.None? || index < 0 {
        return false;
      }
      var r := ModifyAt(node.value, Tokens(path), false, SetElemStr(key, index, s));
      if r.None? {
        return false;
      }
      ModifyWF(node.value, Tokens(path), false, SetElemStr(key, index, s));
      node := r;
      return true;
    }

    /**
     * `getAt(path, key, index, Json*)`: `val` receives a node copy of the
     * element; the value it holds here does not alias the document.
     */
    method GetAt(path: Option<string>, key: string, index: int, val: Json) returns (ok: bool)
      requires Valid() && val.Valid()
      modifies val
      ensures Valid() && val.Valid()
      ensures ok <==> old(node).Some? && GetElem(old(node).value, Tokens(path), key, index).Some?
      ensures ok ==> val.node == GetElem(old(node).value, Tokens(path), key, index)
      ensures !ok ==> val.node == old(val.node)
    {
      if node.None? || index < 0 {
        return false;
      }
      var m := GetElem(node.value, Tokens(path), key, index);
      if m.None? {
        return false;
      }
      GetElemWF(node.value, Tokens(path), key, index);
      val.node := m;
      return true;
    }

    /** `getAt(path, key, index, int64_t*)`. */
    method GetAtInt(path: Option<string>, key: string, index: int, toInt: string -> int64)
      returns (r: Option<int64>)
      ensures node.None? ==> r.None?
      ensures node.Some? ==> r == GetElemInt(node.value, Tokens(path), key, index, toInt)
    {
      if node.None? || index < 0 {
        return None;
      }
      return GetElemInt(node.value, Tokens(path), key, index, toInt);
    }

    /** `getAt(path, key, index, int*)`: the int64 reading, truncated to 32 bits. */
    method GetAtInt32(path: Option<string>, key: string, index: int, toInt: string -> int64)
      returns (r: Option<int>)
      ensures node.None? ==> r.None?
      ensures node.Some? ==> (r.Some? <==> GetElemInt(node.value, Tokens(path), key, index, toInt).Some?)
      ensures node.Some? && r.Some? ==> r.value == ToInt32(GetElemInt(node.value, Tokens(path), key, index, toInt).value)
    {
      var v := GetAtInt(path, key, index, toInt);
      if v.None? {
        return None;
      }
      return Some(ToInt32(v.value));
    }

    /** `getAt(path, key, index, std::string*)`. */
    method GetAtString(path: Option<string>, key: string, index: int) returns (r: Option<string>)
      ensures node.None? ==> r.None?
      ensures node.Some? ==> r == GetElemString(node.value, Tokens(path), key, index)
    {
      if node.None? || index < 0 {
        return None;
      }
      return GetElemString(node.value, Tokens(path), key, index);
    }

    /**
     * `getKeys(list)`: the member names of the root object, in member order.  The
     * list is emptied before the root is checked, so a root that is not an object
     * leaves it empty; a NULL node leaves it as it was.
     */
    method GetKeys(list: seq<string>) returns (ok: bool, list': seq<string>)
      ensures ok <==> node.Some? && node.value.Object?
      ensures ok ==> list' == KeysOf(node.value.members)
      ensures node.None? ==> list' == list
      ensures node.Some? && !node.value.Object? ==> list' == []
    {
      if node.None? {
        return false, list;
      }
      if !node.value.Object? {
        return false, [];
      }
      return true, KeysOf(node.value.members);
    }

    /** `operator==`. */
    method Equals(rhs: Json) returns (r: bool)
      ensures r <==> node.Some? && rhs.node.Some? && NodeEq(node.value, rhs.node.value)
    {
      return node.Some? && rhs.node.Some? && NodeEq(node.value, rhs.node.value);
    }

    /** `operator!=`. */
    method NotEquals(rhs: Json) returns (r: bool)
      ensures r <==> !(node.Some? && rhs.node.Some? && NodeEq(node.value, rhs.node.value))
    {
      var eq := Equals(rhs);
      return !eq;
    }
  }

  /** A concrete self-assignment: a valid document becomes invalid. */
  method SelfAssignmentLosesDocument() returns (before: Option<Node>, after: Option<Node>)
    ensures before == Some(Object([])) && after == None
  {
    var j := new Json();
    before := j.node;
    j.Assign(j);
    after := j.node;
  }
}

=== FILE: json_laws.dfy ===
/**
 * What the setters and getters of src/shared/Json.cpp promise one another,
 * proved on the tree model: a value set at a path is what a get at that path
 * returns, nothing else at the target object changes, append grows an array by
 * exactly the appended element, setAt changes exactly one element, failures
 * happen only where the walk meets a non-object, and `__nodeEq` is symmetric.
 */
module JsonLaws {
  import opened Common
  import opened JsonTree

  /*
   * Member lists.
   */

  lemma {:induction false} FindUpdate(ms: seq<Member>, i: nat, m: Member, k: string)
    requires i < |ms| && ms[i].key == m.key
    ensures Find(ms[i := m], k) == Find(ms, k)
  {
    if i > 0 {
      assert ms[i := m][1..] == ms[1..][i - 1 := m];
      FindUpdate(ms[1..], i - 1, m, k);
    }
  }

  lemma {:induction false} FindAppend(ms: seq<Member>, m: Member, k: string)
    ensures Find(ms + [m], k) == (if Find(ms, k) >= 0 then Find(ms, k) else if m.key == k then |ms| else -1)
  {
    if ms != [] {
      assert (ms + [m])[1..] == ms[1..] + [m];
      FindAppend(ms[1..], m, k);
    }
  }

  /** Replacing the member found for `k` changes the value of `k` and nothing else. */
  lemma LookupUpdate(ms: seq<Member>, k: string, v: Node, k2: string)
    requires Find(ms, k) >= 0
    ensures Lookup(ms[Find(ms, k) := Member(k, v)], k2) == if k2 == k then Some(v) else Lookup(ms, k2)
  {
    FindUpdate(ms, Find(ms, k), Member(k, v), k2);
  }

  /** Appending a new member adds `k` and changes nothing else. */
  lemma LookupAppend(ms: seq<Member>, k: string, v: Node, k2: string)
    requires Find(ms, k) < 0
    ensures Lookup(ms + [Member(k, v)], k2) == if k2 == k then Some(v) else Lookup(ms, k2)
  {
    FindAppend(ms, Member(k, v), k2);
  }

  lemma {:induction false} LookupRemove(ms: seq<Member>, k: string, k2: string)
    ensures Lookup(Remove(ms, k), k2) == if k2 == k then None else Lookup(ms, k2)
  {
    if ms != [] {
      LookupRemove(ms[1..], k, k2);
      if ms[0].key != k {
        assert ([ms[0]] + Remove(ms[1..], k))[1..] == Remove(ms[1..], k);
      }
    }
  }

  /** set(path, key, v) at the target object: `key` now holds `v`, every other member is as it was. */
  lemma LookupPut(ms: seq<Member>, k: string, v: Node, k2: string)
    ensures Lookup(Put(ms, k, v), k2) == if k2 == k then Some(v) else Lookup(ms, k2)
  {
    LookupRemove(ms, k, k2);
    LookupRemove(ms, k, k);
    LookupAppend(Remove(ms, k), k, v, k2);
  }

  /** set moves the member to the end: the key order is the other keys, in order, then `key`. */
  lemma {:induction false} KeysOfPut(ms: seq<Member>, k: string, v: Node)
    ensures KeysOf(Put(ms, k, v)) == KeysOf(Remove(ms, k)) + [k]
    ensures multiset(KeysOf(Put(ms, k, v))) == multiset(KeysOf(Remove(ms, k))) + multiset{k}
  {
    assert KeysOf(Put(ms, k, v)) == KeysOf(Remove(ms, k)) + [k];
  }

  lemma {:induction false} RemoveSubset(ms: seq<Member>, k: string)
    ensures forall j :: 0 <= j < |Remove(ms, k)| ==> Remove(ms, k)[j] in ms
  {
    if ms != [] {
      RemoveSubset(ms[1..], k);
    }
  }

  lemma {:induction false} RemoveUnique(ms: seq<Member>, k: string)
    requires UniqueKeys(ms)
    ensures UniqueKeys(Remove(ms, k))
  {
    if ms != [] {
      RemoveUnique(ms[1..], k);
      RemoveSubset(ms[1..], k);
      if ms[0].key != k {
        var r := Remove(ms[1..], k);
        forall j | 0 <= j < |r|
          ensures r[j].key != ms[0].key
        {
          assert r[j] in ms[1..];
        }
      }
    }
  }

  /*
   * Paths.
   */

  lemma TargetOfFresh(toks: seq<string>)
    ensures Target(Object([]), toks, true) == Some([])
  {
  }

  /** Without creation, the target is exactly what the non-creating walk finds. */
  lemma {:induction false} TargetNoForce(n: Node, toks: seq<string>)
    ensures Target(n, toks, false) == FindObject(n, toks)
    decreases |toks|
  {
    if n.Object? && toks != [] {
      var i := Find(n.members, toks[0]);
      if i >= 0 {
        TargetNoForce(n.members[i].value, toks[1..]);
      }
    }
  }

  /**
   * With creation, the target is what the walk finds when the path exists, and a
   * fresh empty object when some segment is missing (and none before it is a
   * non-object).
   */
  lemma {:induction false} TargetForce(n: Node, toks: seq<string>)
    ensures FindObject(n, toks).Some? ==> Target(n, toks, true) == FindObject(n, toks)
    ensures FindObject(n, toks).None? && Target(n, toks, true).Some? ==> Target(n, toks, true) == Some([])
    decreases |toks|
  {
    if n.Object? && toks != [] {
      var i := Find(n.members, toks[0]);
      if i >= 0 {
        TargetForce(n.members[i].value, toks[1..]);
      }
    }
  }

  /**
   * The walk-and-edit succeeds exactly when there is a target and the edit
   * succeeds on it, and then the object at the path holds the edited members.
   * In particular a failure leaves the document as it was: creation of missing
   * objects never happens on a walk that fails.
   */
  lemma {:induction false} ModifyTarget(n: Node, toks: seq<string>, force: bool, e: Edit)
    ensures ModifyAt(n, toks, force, e).Some? <==>
      Target(n, toks, force).Some? && Apply(Target(n, toks, force).value, e).Some?
    ensures ModifyAt(n, toks, force, e).Some? ==>
      FindObject(ModifyAt(n, toks, force, e).value, toks) == Apply(Target(n, toks, force).value, e)
    decreases |toks|
  {
    if n.Object? && toks != [] {
      var ms := n.members;
      var i := Find(ms, toks[0]);
      if i < 0 {
        if force {
          ModifyTarget(Object([]), toks[1..], force, e);
          TargetOfFresh(toks[1..]);
          var c := ModifyAt(Object([]), toks[1..], force, e);
          if c.Some? {
            FindAppend(ms, Member(toks[0], c.value), toks[0]);
          }
        }
      } else {
        ModifyTarget(ms[i].value, toks[1..], force, e);
        var c := ModifyAt(ms[i].value, toks[1..], force, e);
        if c.Some? {
          FindUpdate(ms, i, Member(toks[0], c.value), toks[0]);
        }
      }
    }
  }

  /** An edit below the first path segment leaves every other top-level member alone. */
  lemma ModifyKeepsSiblings(n: Node, toks: seq<string>, force: bool, e: Edit, k: string)
    requires toks != [] && k != toks[0]
    requires ModifyAt(n, toks, force, e).Some?
    ensures ModifyAt(n, toks, force, e).value.Object?
    ensures Lookup(ModifyAt(n, toks, force, e).value.members, k) == Lookup(n.members, k)
  {
    var ms := n.members;
    var i := Find(ms, toks[0]);
    if i < 0 {
      var c := ModifyAt(Object([]), toks[1..], force, e);
      LookupAppend(ms, toks[0], c.value, k);
    } else {
      var c := ModifyAt(ms[i].value, toks[1..], force, e);
      LookupUpdate(ms, toks[0], c.value, k);
    }
  }

  /** The creating edits never fail on a freshly created object, so creation is never left half done. */
  lemma FreshTargetAccepts(toks: seq<string>, e: Edit)
    requires e.SetMember? || e.AppendElem?
    ensures ModifyAt(Object([]), toks, true, e).Some?
  {
    TargetOfFresh(toks);
    ModifyTarget(Object([]), toks, true, e);
  }

  /*
   * Setters and getters.
   */

  /** What a get at the path sees after an edit, in terms of the target before it. */
  lemma GetAfterModify(root: Node, toks: seq<string>, force: bool, e: Edit, k: string)
    requires ModifyAt(root, toks, force, e).Some?
    ensures Target(root, toks, force).Some? && Apply(Target(root, toks, force).value, e).Some?
    ensures GetNode(ModifyAt(root, toks, force, e).value, toks, k)
         == Lookup(Apply(Target(root, toks, force).value, e).value, k)
  {
    ModifyTarget(root, toks, force, e);
  }

  /** A get at the path before the edit sees the target's members. */
  lemma GetBeforeModify(root: Node, toks: seq<string>, force: bool, k: string)
    requires Target(root, toks, force).Some?
    ensures GetNode(root, toks, k) == Lookup(Target(root, toks, force).value, k)
  {
    TargetForce(root, toks);
    TargetNoForce(root, toks);
  }

  /**
   * set(path, key, v): fails exactly when the walk meets a non-object; otherwise
   * a get of `key` at `path` returns `v` and every other key at `path` reads as
   * before.
   */
  lemma SetThenGet(root: Node, toks: seq<string>, k: string, v: Node, k2: string)
    ensures ModifyAt(root, toks, true, SetMember(k, v)).None? <==> Target(root, toks, true).None?
    ensures ModifyAt(root, toks, true, SetMember(k, v)).Some? ==>
      var r := ModifyAt(root, toks, true, SetMember(k, v)).value;
      && GetNode(r, toks, k) == Some(v)
      && (k2 != k ==> GetNode(r, toks, k2) == GetNode(root, toks, k2))
  {
    ModifyTarget(root, toks, true, SetMember(k, v));
    if ModifyAt(root, toks, true, SetMember(k, v)).Some? {
      var ms := Target(root, toks, true).value;
      GetAfterModify(root, toks, true, SetMember(k, v), k);
      GetAfterModify(root, toks, true, SetMember(k, v), k2);
      GetBeforeModify(root, toks, true, k2);
      LookupPut(ms, k, v, k);
      LookupPut(ms, k, v, k2);
    }
  }

  /** set of an int64 then get of an int64 gives it back, whatever the text conversion. */
  lemma SetIntThenGetInt(root: Node, toks: seq<string>, k: string, v: int64, toInt: string -> int64)
    requires ModifyAt(root, toks, true, SetMember(k, Int(v))).Some?
    ensures GetInt(ModifyAt(root, toks, true, SetMember(k, Int(v))).value, toks, k, toInt) == Some(v)
  {
    SetThenGet(root, toks, k, Int(v), k);
  }

  /** set of a string then get of a string gives it back. */
  lemma SetStringThenGetString(root: Node, toks: seq<string>, k: string, s: string)
    requires ModifyAt(root, toks, true, SetMember(k, Str(s))).Some?
    ensures GetString(ModifyAt(root, toks, true, SetMember(k, Str(s))).value, toks, k) == Some(s)
  {
    SetThenGet(root, toks, k, Str(s), k);
  }

  /**
   * append(path, key, v): fails exactly when the walk meets a non-object or `key`
   * holds something other than an array; otherwise the array at `key` (a new
   * one when `key` was absent) has grown by exactly `v` at its end.
   */
  lemma AppendGrows(root: Node, toks: seq<string>, k: string, v: Node)
    ensures ModifyAt(root, toks, true, AppendElem(k, v)).Some? <==>
      Target(root, toks, true).Some? && (GetNode(root, toks, k).None? || GetArray(root, toks, k).Some?)
    ensures ModifyAt(root, toks, true, AppendElem(k, v)).Some? ==>
      var r := ModifyAt(root, toks, true, AppendElem(k, v)).value;
      && (GetNode(root, toks, k).None? ==> GetArray(r, toks, k) == Some([v]) && GetSize(r, toks, k) == 1)
      && (GetArray(root, toks, k).Some? ==>
            GetArray(r, toks, k) == Some(GetArray(root, toks, k).value + [v])
            && GetSize(r, toks, k) == GetSize(root, toks, k) + 1)
  {
    var e := AppendElem(k, v);
    ModifyTarget(root, toks, true, e);
    if Target(root, toks, true).Some? {
      var ms := Target(root, toks, true).value;
      GetBeforeModify(root, toks, true, k);
      if ModifyAt(root, toks, true, e).Some? {
        GetAfterModify(root, toks, true, e, k);
        var i := Find(ms, k);
        if i < 0 {
          LookupAppend(ms, k, Array([v]), k);
        } else {
          LookupUpdate(ms, k, Array(ms[i].value.elems + [v]), k);
        }
      }
    }
  }

  /** The element an element edit addresses is the one getAt reads. */
  lemma ElemAtIsGetElem(root: Node, toks: seq<string>, k: string, index: int)
    requires FindObject(root, toks).Some?
    ensures ElemAt(FindObject(root, toks).value, k, index) == GetElem(root, toks, k, index)
  {
  }

  /** After an element edit at `index`, the array is the old one with that element replaced. */
  lemma GetArrayAfterWithElem(root: Node, toks: seq<string>, e: Edit, k: string, index: nat, x: Node)
    requires ModifyAt(root, toks, false, e).Some?
    requires Target(root, toks, false).Some? && ElemAt(Target(root, toks, false).value, k, index).Some?
    requires Apply(Target(root, toks, false).value, e) == Some(WithElem(Target(root, toks, false).value, k, index, x))
    ensures GetArray(root, toks, k).Some? && index < |GetArray(root, toks, k).value|
    ensures GetArray(ModifyAt(root, toks, false, e).value, toks, k)
         == Some(GetArray(root, toks, k).value[index := x])
  {
    var ms := Target(root, toks, false).value;
    GetAfterModify(root, toks, false, e, k);
    GetBeforeModify(root, toks, false, k);
    var i := Find(ms, k);
    LookupUpdate(ms, k, Array(ms[i].value.elems[index := x]), k);
  }

  /**
   * setAt(path, key, index, int64): succeeds exactly when getAt would find a
   * VALUE element there; then that element reads back as the integer and the
   * array keeps its length and every other element.
   */
  lemma SetElemIntThenGet(root: Node, toks: seq<string>, k: string, index: nat, n: int64,
                          toInt: string -> int64)
    ensures ModifyAt(root, toks, false, SetElemInt(k, index, n)).Some? <==>
      GetElem(root, toks, k, index).Some? && IsValue(GetElem(root, toks, k, index).value)
    ensures ModifyAt(root, toks, false, SetElemInt(k, index, n)).Some? ==>
      var r := ModifyAt(root, toks, false, SetElemInt(k, index, n)).value;
      && GetElemInt(r, toks, k, index, toInt) == Some(n)
      && GetSize(r, toks, k) == GetSize(root, toks, k)
      && GetArray(r, toks, k) == Some(GetArray(root, toks, k).value[index := Int(n)])
  {
    var e := SetElemInt(k, index, n);
    ModifyTarget(root, toks, false, e);
    TargetNoForce(root, toks);
    if FindObject(root, toks).Some? {
      ElemAtIsGetElem(root, toks, k, index);
      if ModifyAt(root, toks, false, e).Some? {
        GetArrayAfterWithElem(root, toks, e, k, index, Int(n));
      }
    }
  }

  /** setAt(path, key, index, string): as for integers, with the string read back by getAt. */
  lemma SetElemStrThenGet(root: Node, toks: seq<string>, k: string, index: nat, s: string)
    ensures ModifyAt(root, toks, false, SetElemStr(k, index, s)).Some? <==>
      GetElem(root, toks, k, index).Some? && IsValue(GetElem(root, toks, k, index).value)
    ensures ModifyAt(root, toks, false, SetElemStr(k, index, s)).Some? ==>
      var r := ModifyAt(root, toks, false, SetElemStr(k, index, s)).value;
      && GetElemString(r, toks, k, index) == Some(s)
      && GetArray(r, toks, k) == Some(GetArray(root, toks, k).value[index := Str(s)])
  {
    var e := SetElemStr(k, index, s);
    ModifyTarget(root, toks, false, e);
    TargetNoForce(root, toks);
    if FindObject(root, toks).Some? {
      ElemAtIsGetElem(root, toks, k, index);
      if ModifyAt(root, toks, false, e).Some? {
        GetArrayAfterWithElem(root, toks, e, k, index, Str(s));
      }
    }
  }

  /**
   * setAt(path, key, index, Json): succeeds exactly when the element exists; an
   * object element is replaced by the given object, any other element is left
   * as it was although the call reports success.
   */
  lemma SetElemObjectEffect(root: Node, toks: seq<string>, k: string, index: nat, obj: seq<Member>)
    ensures ModifyAt(root, toks, false, SetElemObject(k, index, obj)).Some? <==>
      GetElem(root, toks, k, index).Some?
    ensures ModifyAt(root, toks, false, SetElemObject(k, index, obj)).Some? ==>
      var r := ModifyAt(root, toks, false, SetElemObject(k, index, obj)).value;
      && (GetElem(root, toks, k, index).value.Object? ==>
            GetArray(r, toks, k) == Some(GetArray(root, toks, k).value[index := Object(obj)]))
      && (!GetElem(root, toks, k, index).value.Object? ==> GetArray(r, toks, k) == GetArray(root, toks, k))
  {
    var e := SetElemObject(k, index, obj);
    ModifyTarget(root, toks, false, e);
    TargetNoForce(root, toks);
    if FindObject(root, toks).Some? {
      ElemAtIsGetElem(root, toks, k, index);
      if ModifyAt(root, toks, false, e).Some? {
        if GetElem(root, toks, k, index).value.Object? {
          GetArrayAfterWithElem(root, toks, e, k, index, Object(obj));
        } else {
          GetAfterModify(root, toks, false, e, k);
          GetBeforeModify(root, toks, false, k);
        }
      }
    }
  }

  /*
   * Distinct member names.
   */

  /** The nodes an edit brings into the document are well formed. */
  predicate EditWF(e: Edit) {
    match e
    case SetMember(_, v) => WF(v)
    case AppendElem(_, v) => WF(v)
    case SetElemObject(_, _, obj) => WF(Object(obj))
    case _ => true
  }

  lemma UpdateWF(ms: seq<Member>, i: nat, m: Member)
    requires WF(Object(ms)) && i < |ms| && ms[i].key == m.key && WF(m.value)
    ensures WF(Object(ms[i := m]))
  {
    var r := ms[i := m];
    assert forall j :: 0 <= j < |r| ==> r[j].key == ms[j].key;
  }

  lemma AppendWF(ms: seq<Member>, m: Member)
    requires WF(Object(ms)) && Find(ms, m.key) < 0 && WF(m.value)
    ensures WF(Object(ms + [m]))
  {
  }

  lemma PutWF(ms: seq<Member>, k: string, v: Node)
    requires WF(Object(ms)) && WF(v)
    ensures WF(Object(Put(ms, k, v)))
  {
    RemoveUnique(ms, k);
    RemoveSubset(ms, k);
    var r := Remove(ms, k);
    forall j | 0 <= j < |r|
      ensures WF(r[j].value)
    {
      assert r[j] in ms;
    }
    AppendWF(r, Member(k, v));
  }

  lemma WithElemWF(ms: seq<Member>, k: string, index: int, x: Node)
    requires WF(Object(ms)) && ElemAt(ms, k, index).Some? && WF(x)
    ensures WF(Object(WithElem(ms, k, index, x)))
  {
    var i := Find(ms, k);
    var es := ms[i].value.elems;
    assert WF(Array(es));
    assert WF(Array(es[index := x]));
    UpdateWF(ms, i, Member(k, Array(es[index := x])));
  }

  /** Every edit keeps member names distinct (the edited object's and all others'). */
  lemma ApplyWF(ms: seq<Member>, e: Edit)
    requires WF(Object(ms)) && EditWF(e) && Apply(ms, e).Some?
    ensures WF(Object(Apply(ms, e).value))
  {
    match e
    case SetMember(k, v) => PutWF(ms, k, v);
    case AppendElem(k, v) =>
      var i := Find(ms, k);
      if i < 0 {
        AppendWF(ms, Member(k, Array([v])));
      } else {
        var es := ms[i].value.elems;
        assert WF(Array(es));
        assert WF(Array(es + [v]));
        UpdateWF(ms, i, Member(k, Array(es + [v])));
      }
    case SetElemObject(k, index, obj) =>
      if ElemAt(ms, k, index).value.Object? {
        WithElemWF(ms, k, index, Object(obj));
      }
    case SetElemInt(k, index, n) => WithElemWF(ms, k, index, Int(n));
    case SetElemStr(k, index, s) => WithElemWF(ms, k, index, Str(s));
  }

  /** A successful walk-and-edit keeps the whole document well formed. */
  lemma {:induction false} ModifyWF(n: Node, toks: seq<string>, force: bool, e: Edit)
    requires WF(n) && EditWF(e) && ModifyAt(n, toks, force, e).Some?
    ensures WF(ModifyAt(n, toks, force, e).value)
    decreases |toks|
  {
    if toks == [] {
      ApplyWF(n.members, e);
    } else {
      var ms := n.members;
      var i := Find(ms, toks[0]);
      if i < 0 {
        ModifyWF(Object([]), toks[1..], force, e);
        AppendWF(ms, Member(toks[0], ModifyAt(Object([]), toks[1..], force, e).value));
      } else {
        ModifyWF(ms[i].value, toks[1..], force, e);
        UpdateWF(ms, i, Member(toks[0], ModifyAt(ms[i].value, toks[1..], force, e).value));
      }
    }
  }

  lemma {:induction false} FindObjectWF(n: Node, toks: seq<string>)
    requires WF(n) && FindObject(n, toks).Some?
    ensures WF(Object(FindObject(n, toks).value))
    decreases |toks|
  {
    if toks != [] {
      FindObjectWF(n.members[Find(n.members, toks[0])].value, toks[1..]);
    }
  }

  /** What a get copies out of a well-formed document is well formed. */
  lemma GetNodeWF(root: Node, toks: seq<string>, k: string)
    requires WF(root) && GetNode(root, toks, k).Some?
    ensures WF(GetNode(root, toks, k).value)
  {
    FindObjectWF(root, toks);
  }

  lemma GetElemWF(root: Node, toks: seq<string>, k: string, index: int)
    requires WF(root) && GetElem(root, toks, k, index).Some?
    ensures WF(GetElem(root, toks, k, index).value)
  {
    GetNodeWF(root, toks, k);
    var es := GetArray(root, toks, k).value;
    assert WF(Array(es));
  }

  /*
   * Equality.
   */

  lemma FindUnique(ms: seq<Member>, i: nat)
    requires UniqueKeys(ms) && i < |ms|
    ensures Find(ms, ms[i].key) == i
  {
  }

  lemma KeyInMultiset(ms: seq<Member>, ns: seq<Member>, j: nat)
    requires multiset(KeysOf(ms)) == multiset(KeysOf(ns)) && j < |ns|
    ensures Find(ms, ns[j].key) >= 0
  {
    assert KeysOf(ns)[j] in multiset(KeysOf(ns));
    assert ns[j].key in KeysOf(ms);
  }

  /** `__nodeEq` is symmetric on documents whose objects have distinct member names. */
  lemma {:induction false} NodeEqSymmetric(a: Node, b: Node)
    requires WF(a) && WF(b)
    ensures NodeEq(a, b) == NodeEq(b, a)
    decreases a, 1
  {
    match a
    case Object(ms) =>
      if b.Object? && NodeEq(a, b) {
        ObjectEqFlip(ms, b.members);
      } else if b.Object? && NodeEq(b, a) {
        ObjectEqFlipBack(ms, b.members);
      }
    case Array(xs) =>
      if b.Array? && |xs| == |b.elems| {
        forall i | 0 <= i < |xs|
          ensures NodeEq(xs[i], b.elems[i]) == NodeEq(b.elems[i], xs[i])
        {
          NodeEqSymmetric(xs[i], b.elems[i]);
        }
      }
    case _ =>
  }

  /** Each member of the right object is matched by the left one's member of that name. */
  lemma {:induction false} ObjectEqFlip(ms: seq<Member>, ns: seq<Member>)
    requires WF(Object(ms)) && WF(Object(ns)) && NodeEq(Object(ms), Object(ns))
    ensures NodeEq(Object(ns), Object(ms))
    decreases Object(ms), 0
  {
    forall j | 0 <= j < |ns|
      ensures Find(ms, ns[j].key) >= 0 && NodeEq(ns[j].value, ms[Find(ms, ns[j].key)].value)
    {
      KeyInMultiset(ms, ns, j);
      var i := Find(ms, ns[j].key);
      FindUnique(ns, j);
      NodeEqSymmetric(ms[i].value, ns[j].value);
    }
  }

  /** Each member of the left object is matched by the right one's member of that name. */
  lemma {:induction false} ObjectEqFlipBack(ms: seq<Member>, ns: seq<Member>)
    requires WF(Object(ms)) && WF(Object(ns)) && NodeEq(Object(ns), Object(ms))
    ensures NodeEq(Object(ms), Object(ns))
    decreases Object(ms), 0
  {
    forall i | 0 <= i < |ms|
      ensures Find(ns, ms[i].key) >= 0 && NodeEq(ms[i].value, ns[Find(ns, ms[i].key)].value)
    {
      KeyInMultiset(ns, ms, i);
      var j := Find(ns, ms[i].key);
      FindUnique(ms, i);
      NodeEqSymmetric(ms[i].value, ns[j].value);
    }
  }

  /**
   * A document equals itself exactly when it holds no BOOLEAN value and no NULL
   * node: those make `__nodeEq` report "unsupported type" and fail.
   */
  lemma {:induction false} NodeEqReflexive(a: Node)
    requires WF(a)
    ensures NodeEq(a, a) <==> Comparable(a)
    decreases a
  {
    match a
    case Object(ms) =>
      forall i | 0 <= i < |ms|
        ensures Find(ms, ms[i].key) == i && (NodeEq(ms[i].value, ms[i].value) <==> Comparable(ms[i].value))
      {
        FindUnique(ms, i);
        NodeEqReflexive(ms[i].value);
      }
    case Array(xs) =>
      forall i | 0 <= i < |xs|
        ensures NodeEq(xs[i], xs[i]) <==> Comparable(xs[i])
      {
        NodeEqReflexive(xs[i]);
      }
    case _ =>
  }
}

=== FILE: json_path.dfy ===
/**
 * Paths into a JSON document (src/shared/Json.cpp, `__tokenize_path`): a path
 * is a dot-separated list of member names, and every path operation walks the
 * tokens from the root object.
 */
module JsonPath {
  import opened Common

  const PATH_DELIM: char := '.'

  /** Index of the first delimiter in `s`, or `|s|` (std::string::npos) when there is none. */
  function FirstDelim(s: string): (i: nat)
    ensures i <= |s|
    ensures forall j :: 0 <= j < i ==> s[j] != PATH_DELIM
    ensures i < |s| ==> s[i] == PATH_DELIM
  {
    if s == [] then 0
    else if s[0] == PATH_DELIM then 0
    else 1 + FirstDelim(s[1..])
  }

  /**
   * The tokens of a path: the pieces between delimiters, empty pieces included,
   * so that a path with `n` delimiters always has `n + 1` tokens.
   */
  function Split(s: string): (r: seq<string>)
    ensures r != [] && r[0] == s[..FirstDelim(s)]
    decreases |s|
  {
    var i := FirstDelim(s);
    if i == |s| then [s] else [s[..i]] + Split(s[i + 1..])
  }

  /** The inverse of Split: tokens joined with the delimiter. */
  function Join(ts: seq<string>): string
  {
    if ts == [] then ""
    else if |ts| == 1 then ts[0]
    else ts[0] + [PATH_DELIM] + Join(ts[1..])
  }

  function CountDelims(s: string): nat
  {
    if s == [] then 0 else (if s[0] == PATH_DELIM then 1 else 0) + CountDelims(s[1..])
  }

  predicate NoDelim(t: string) {
    forall j :: 0 <= j < |t| ==> t[j] != PATH_DELIM
  }

  /** The tokens an optional path stands for: a NULL path walks nowhere. */
  function Tokens(path: Option<string>): (r: seq<string>)
    ensures r == [] <==> path.None?
  {
    match path
    case None => []
    case Some(p) => Split(p)
  }

  /**
   * `__tokenize_path`: a loop that cuts the path at each delimiter it finds,
   * then keeps the rest after the last one.
   */
  method TokenizePath(path: string) returns (tokens: seq<string>)
    ensures tokens == Split(path)
  {
    tokens := [];
    var begin := 0;
    var end := begin + FirstDelim(path[begin..]);
    while end != |path|
      invariant 0 <= begin <= end <= |path|
      invariant end == begin + FirstDelim(path[begin..])
      invariant tokens + Split(path[begin..]) == Split(path)
      decreases |path| - begin
    {
      var token := path[begin..end];
      ghost var rest := Split(path[end + 1..]);
      SplitAt(path, begin, end);
      assert tokens + [token] + rest == tokens + ([token] + rest);
      tokens := tokens + [token];
      begin := end + 1;
      end := begin + FirstDelim(path[begin..]);
    }
    SplitLast(path, begin);
    tokens := tokens + [path[begin..]];
  }

  /** The first token of the rest of the path ends at the next delimiter. */
  lemma SplitAt(path: string, begin: nat, end: nat)
    requires begin <= end < |path| && end == begin + FirstDelim(path[begin..])
    ensures Split(path[begin..]) == [path[begin..end]] + Split(path[end + 1..])
  {
    var s := path[begin..];
    assert s[..end - begin] == path[begin..end];
    assert s[end - begin + 1..] == path[end + 1..];
  }

  /** Without a further delimiter the rest of the path is the last token. */
  lemma SplitLast(path: string, begin: nat)
    requires begin <= |path| && begin + FirstDelim(path[begin..]) == |path|
    ensures Split(path[begin..]) == [path[begin..]]
  {
  }


  lemma {:induction false} FirstDelimCount(s: string)
    ensures CountDelims(s) == CountDelims(s[FirstDelim(s)..])
    ensures forall k :: 0 <= k <= FirstDelim(s) ==> CountDelims(s[k..]) == CountDelims(s)
  {
    if s != [] && s[0] != PATH_DELIM {
      FirstDelimCount(s[1..]);
      forall k | 1 <= k <= FirstDelim(s)
        ensures CountDelims(s[k..]) == CountDelims(s)
      {
        assert s[1..][k - 1..] == s[k..];
      }
    }
  }

  /** A path with `n` delimiters has `n + 1` tokens: there is always at least one. */
  lemma {:induction false} SplitLength(s: string)
    ensures |Split(s)| == CountDelims(s) + 1
    decreases |s|
  {
    var i := FirstDelim(s);
    FirstDelimCount(s);
    if i < |s| {
      SplitLength(s[i + 1..]);
      assert s[i..][1..] == s[i + 1..];
    }
  }

  /** No token contains the delimiter. */
  lemma {:induction false} SplitTokensNoDelim(s: string)
    ensures forall k :: 0 <= k < |Split(s)| ==> NoDelim(Split(s)[k])
    decreases |s|
  {
    var i := FirstDelim(s);
    if i < |s| {
      SplitTokensNoDelim(s[i + 1..]);
    }
  }

  /** Joining the tokens gives back the path. */
  lemma {:induction false} JoinSplit(s: string)
    ensures Join(Split(s)) == s
    decreases |s|
  {
    var i := FirstDelim(s);
    if i < |s| {
      var head := s[..i];
      var tail := s[i + 1..];
      var rest := Split(tail);
      assert Split(s) == [head] + rest;
      JoinSplit(tail);
      SplitLength(tail);
      JoinCons(head, rest);
      CutAt(s, i);
    }
  }

  lemma CutAt(s: string, i: nat)
    requires i < |s| && s[i] == PATH_DELIM
    ensures s == s[..i] + [PATH_DELIM] + s[i + 1..]
  {
  }

  lemma JoinCons(t: string, ts: seq<string>)
    requires ts != []
    ensures Join([t] + ts) == t + [PATH_DELIM] + Join(ts)
  {
    assert ([t] + ts)[1..] == ts;
  }

  lemma {:induction false} FirstDelimOfJoin(t: string, rest: string)
    requires NoDelim(t)
    ensures FirstDelim(t + [PATH_DELIM] + rest) == |t|
    ensures FirstDelim(t) == |t|
    decreases |t|
  {
    if t != [] {
      assert (t + [PATH_DELIM] + rest)[1..] == t[1..] + [PATH_DELIM] + rest;
      FirstDelimOfJoin(t[1..], rest);
    }
  }

  /** Splitting a join of delimiter-free tokens gives back the tokens. */
  lemma {:induction false} SplitJoin(ts: seq<string>)
    requires |ts| >= 1
    requires forall k :: 0 <= k < |ts| ==> NoDelim(ts[k])
    ensures Split(Join(ts)) == ts
  {
    if |ts| == 1 {
      FirstDelimOfJoin(ts[0], []);
    } else {
      var s := Join(ts);
      FirstDelimOfJoin(ts[0], Join(ts[1..]));
      assert s[..|ts[0]|] == ts[0];
      assert s[|ts[0]| + 1..] == Join(ts[1..]);
      SplitJoin(ts[1..]);
    }
  }
}

=== FILE: json_tree.dfy ===
/**
 * The JSON document behind `ctx::Json` (src/shared/Json.cpp) as a value: a tree
 * of nodes whose objects keep their members in insertion order, the path walk
 * `__traverse` (with and without creation of missing objects), the member and
 * element edits the setters perform, the getters, and the structural equality
 * `__nodeEq`.
 */
module JsonTree {
  import opened Common
  import opened JsonPath

  newtype int64 = x: int | -0x8000_0000_0000_0000 <= x < 0x8000_0000_0000_0000

  /**
   * A JSON node: the VALUE nodes of type INT64, STRING and BOOLEAN, the NULL
   * node, and the OBJECT and ARRAY nodes.  (DOUBLE values are not part of this
   * model.)
   */
  datatype Node =
    | Int(i: int64)
    | Str(s: string)
    | Bool(b: bool)
    | Null
    | Object(members: seq<Member>)
    | Array(elems: seq<Node>)

  datatype Member = Member(key: string, value: Node)

  /** `json_node_get_node_type(n) == JSON_NODE_VALUE`. */
  predicate IsValue(n: Node) {
    n.Int? || n.Str? || n.Bool?
  }

  /*
   * Member lists.
   */

  /** Position of the member named `k`, or -1. */
  function Find(ms: seq<Member>, k: string): (i: int)
    ensures -1 <= i < |ms|
    ensures i >= 0 ==> ms[i].key == k && forall j :: 0 <= j < i ==> ms[j].key != k
    ensures i < 0 ==> forall j :: 0 <= j < |ms| ==> ms[j].key != k
  {
    if ms == [] then -1
    else if ms[0].key == k then 0
    else
      var i := Find(ms[1..], k);
      if i < 0 then -1 else i + 1
  }

  /** `json_object_get_member`: the value of the member named `k`. */
  function Lookup(ms: seq<Member>, k: string): Option<Node>
  {
    var i := Find(ms, k);
    if i < 0 then None else Some(ms[i].value)
  }

  /** `json_object_remove_member`. */
  function Remove(ms: seq<Member>, k: string): (r: seq<Member>)
    ensures forall j :: 0 <= j < |r| ==> r[j].key != k
    ensures |r| <= |ms|
  {
    if ms == [] then []
    else if ms[0].key == k then Remove(ms[1..], k)
    else [ms[0]] + Remove(ms[1..], k)
  }

  /** What every setter does at the target object: drop the old member, append the new one. */
  function Put(ms: seq<Member>, k: string, v: Node): seq<Member>
  {
    Remove(ms, k) + [Member(k, v)]
  }

  function KeysOf(ms: seq<Member>): (ks: seq<string>)
    ensures |ks| == |ms|
    ensures forall j :: 0 <= j < |ms| ==> ks[j] == ms[j].key
  {
    if ms == [] then [] else [ms[0].key] + KeysOf(ms[1..])
  }

  predicate UniqueKeys(ms: seq<Member>) {
    forall i, j :: 0 <= i < j < |ms| ==> ms[i].key != ms[j].key
  }

  /** Every object of the tree has distinct member names, as in a json-glib object. */
  predicate WF(n: Node)
    decreases n
  {
    match n
    case Object(ms) => UniqueKeys(ms) && forall i :: 0 <= i < |ms| ==> WF(ms[i].value)
    case Array(es) => forall i :: 0 <= i < |es| ==> WF(es[i])
    case _ => true
  }

  /*
   * Paths.
   */

  /**
   * `__traverse(node, path, false)`: the members of the object the path leads
   * to.  The walk only passes through objects, and only succeeds when each
   * segment names a member that exists.
   */
  function FindObject(n: Node, toks: seq<string>): (r: Option<seq<Member>>)
    ensures r.Some? ==> n.Object?
    ensures toks == [] ==> (r.Some? <==> n.Object?)
    ensures r.Some? && toks != [] ==> Find(n.members, toks[0]) >= 0
    decreases |toks|
  {
    if !n.Object? then None
    else if toks == [] then Some(n.members)
    else
      var i := Find(n.members, toks[0]);
      if i < 0 then None else FindObject(n.members[i].value, toks[1..])
  }

  /**
   * The members an edit through `__traverse(node, path, force)` applies to: with
   * `force`, a missing segment is created as an empty object, so the rest of the
   * path ends at an empty object.
   */
  function Target(n: Node, toks: seq<string>, force: bool): (r: Option<seq<Member>>)
    ensures r.Some? ==> n.Object?
    ensures r.Some? && toks != [] && !force ==> Find(n.members, toks[0]) >= 0
    ensures n.Object? && toks != [] && force && Find(n.members, toks[0]) < 0 ==> r == Some([])
    decreases |toks|
  {
    if !n.Object? then None
    else if toks == [] then Some(n.members)
    else
      var i := Find(n.members, toks[0]);
      if i < 0 then (if force then Some([]) else None)
      else Target(n.members[i].value, toks[1..], force)
  }

  /** A member or element edit made at the end of a path. */
  datatype Edit =
    | SetMember(key: string, v: Node)                  // set(path, key, val)
    | AppendElem(key: string, v: Node)                 // append(path, key, val)
    | SetElemObject(key: string, index: nat, obj: seq<Member>)  // setAt(path, key, index, Json)
    | SetElemInt(key: string, index: nat, n: int64)    // setAt(path, key, index, int64_t)
    | SetElemStr(key: string, index: nat, s: string)   // setAt(path, key, index, string)

  /** The array element an element edit addresses, when there is one (`__get_array_elem`). */
  function ElemAt(ms: seq<Member>, k: string, index: int): Option<Node>
  {
    var i := Find(ms, k);
    if i < 0 || !ms[i].value.Array? || !(0 <= index < |ms[i].value.elems|) then None
    else Some(ms[i].value.elems[index])
  }

  /** Replace element `index` of the array member named `k` (which `ElemAt` found). */
  function WithElem(ms: seq<Member>, k: string, index: int, e: Node): seq<Member>
    requires ElemAt(ms, k, index).Some?
  {
    var i := Find(ms, k);
    ms[i := Member(k, Array(ms[i].value.elems[index := e]))]
  }

  /** An edit applied to the members of the target object; None when the edit fails. */
  function Apply(ms: seq<Member>, e: Edit): Option<seq<Member>>
  {
    match e
    case SetMember(k, v) => Some(Put(ms, k, v))
    case AppendElem(k, v) =>
      var i := Find(ms, k);
      if i < 0 then Some(ms + [Member(k, Array([v]))])
      else if ms[i].value.Array? then Some(ms[i := Member(k, Array(ms[i].value.elems + [v]))])
      else None
    case SetElemObject(k, index, obj) =>
      (match ElemAt(ms, k, index)
       case None => None
       // json_node_set_object leaves a node that does not hold an object as it is
       case Some(old_) => if old_.Object? then Some(WithElem(ms, k, index, Object(obj))) else Some(ms))
    case SetElemInt(k, index, n) =>
      (match ElemAt(ms, k, index)
       case None => None
       case Some(old_) => if IsValue(old_) then Some(WithElem(ms, k, index, Int(n))) else None)
    case SetElemStr(k, index, s) =>
      (match ElemAt(ms, k, index)
       case None => None
       case Some(old_) => if IsValue(old_) then Some(WithElem(ms, k, index, Str(s))) else None)
  }

  /**
   * Walk `toks` from `n` (creating missing objects when `force`) and apply `e`
   * at the end; None when the walk meets a node that is not an object, a
   * missing member without `force`, or the edit fails.
   */
  function ModifyAt(n: Node, toks: seq<string>, force: bool, e: Edit): (r: Option<Node>)
    ensures r.Some? ==> n.Object? && r.value.Object?
    ensures r.Some? && toks != [] ==> Find(r.value.members, toks[0]) >= 0
    ensures r.Some? && toks != [] && !force ==> Find(n.members, toks[0]) >= 0
    decreases |toks|
  {
    if !n.Object? then None
    else if toks == [] then
      match Apply(n.members, e)
      case None => None
      case Some(ms) => Some(Object(ms))
    else
      var ms := n.members;
      var i := Find(ms, toks[0]);
      if i < 0 then
        if !force then None
        else
          match ModifyAt(Object([]), toks[1..], force, e)
          case None => None
          case Some(c) =>
            var grown := ms + [Member(toks[0], c)];
            assert grown[|ms|].key == toks[0];
            Some(Object(grown))
      else
        match ModifyAt(ms[i].value, toks[1..], force, e)
        case None => None
        case Some(c) =>
          var edited := ms[i := Member(toks[0], c)];
          assert edited[i].key == toks[0];
          Some(Object(edited))
  }

  /*
   * Getters.
   */

  /** `get(path, key, Json*)`: the member named `key` of the object at `path`. */
  function GetNode(root: Node, toks: seq<string>, key: string): (r: Option<Node>)
    ensures r.Some? <==> FindObject(root, toks).Some? && Find(FindObject(root, toks).value, key) >= 0
  {
    match FindObject(root, toks)
    case None => None
    case Some(ms) => Lookup(ms, key)
  }

  /**
   * `get(path, key, int64_t*)`: an INT64 value as it is, a STRING value through
   * the text-to-number conversion `toInt`, anything else fails.
   */
  function GetInt(root: Node, toks: seq<string>, key: string, toInt: string -> int64): (r: Option<int64>)
    ensures r.Some? <==> GetNode(root, toks, key).Some? && (GetNode(root, toks, key).value.Int? || GetNode(root, toks, key).value.Str?)
  {
    match GetNode(root, toks, key)
    case Some(Int(i)) => Some(i)
    case Some(Str(s)) => Some(toInt(s))
    case _ => None
  }

  /** `get(path, key, std::string*)`: STRING values only. */
  function GetString(root: Node, toks: seq<string>, key: string): (r: Option<string>)
    ensures r.Some? <==> GetNode(root, toks, key).Some? && GetNode(root, toks, key).value.Str?
    ensures r.Some? ==> GetNode(root, toks, key) == Some(Str(r.value))
  {
    match GetNode(root, toks, key)
    case Some(Str(s)) => Some(s)
    case _ => None
  }

  /** `__get_array(node, path, key, false)`. */
  function GetArray(root: Node, toks: seq<string>, key: string): (r: Option<seq<Node>>)
    ensures r.Some? <==> GetNode(root, toks, key).Some? && GetNode(root, toks, key).value.Array?
    ensures r.Some? ==> GetNode(root, toks, key) == Some(Array(r.value))
  {
    match GetNode(root, toks, key)
    case Some(Array(es)) => Some(es)
    case _ => None
  }

  /** `getSize`: the array's length, or -1. */
  function GetSize(root: Node, toks: seq<string>, key: string): (r: int)
    ensures r >= -1
    ensures r == -1 <==> GetArray(root, toks, key).None?
    ensures GetArray(root, toks, key).Some? ==> r == |GetArray(root, toks, key).value|
  {
    match GetArray(root, toks, key)
    case None => -1
    case Some(es) => |es|
  }

  /** `__get_array_elem` (with getAt's check `index >= 0`). */
  function GetElem(root: Node, toks: seq<string>, key: string, index: int): (r: Option<Node>)
    ensures r.Some? <==> GetArray(root, toks, key).Some? && 0 <= index < |GetArray(root, toks, key).value|
    ensures r.Some? ==> r.value == GetArray(root, toks, key).value[index]
  {
    match GetArray(root, toks, key)
    case None => None
    case Some(es) => if 0 <= index < |es| then Some(es[index]) else None
  }

  /**
   * `getAt(path, key, index, int64_t*)`: an INT64 element as it is, a STRING
   * element through the text-to-number conversion `toInt`, anything else fails.
   */
  function GetElemInt(root: Node, toks: seq<string>, key: string, index: int,
                      toInt: string -> int64): (r: Option<int64>)
    ensures r.Some? <==>
      (GetElem(root, toks, key, index).Some?
       && (GetElem(root, toks, key, index).value.Int? || GetElem(root, toks, key, index).value.Str?))
    ensures r.Some? && GetElem(root, toks, key, index).value.Int? ==> r.value == GetElem(root, toks, key, index).value.i
    ensures r.Some? && GetElem(root, toks, key, index).value.Str? ==> r.value == toInt(GetElem(root, toks, key, index).value.s)
  {
    match GetElem(root, toks, key, index)
    case Some(Int(i)) => Some(i)
    case Some(Str(s)) => Some(toInt(s))
    case _ => None
  }

  /** `getAt(path, key, index, std::string*)`: STRING elements only. */
  function GetElemString(root: Node, toks: seq<string>, key: string, index: int): (r: Option<string>)
    ensures r.Some? <==> GetElem(root, toks, key, index).Some? && GetElem(root, toks, key, index).value.Str?
    ensures r.Some? ==> GetElem(root, toks, key, index) == Some(Str(r.value))
  {
    match GetElem(root, toks, key, index)
    case Some(Str(s)) => Some(s)
    case _ => None
  }

  /*
   * Equality.
   */

  /**
   * `__nodeEq`: nodes of the same kind; INT64 and STRING values by value;
   * objects of the same size whose sorted member names agree and whose members
   * of the same name are equal; arrays element by element.  BOOLEAN values and
   * NULL nodes are "unsupported" and never equal.
   */
  function NodeEq(a: Node, b: Node): (r: bool)
    ensures r ==> !a.Bool? && !a.Null? && !b.Bool? && !b.Null?
    ensures r ==> (a.Int? <==> b.Int?) && (a.Str? <==> b.Str?) && (a.Object? <==> b.Object?) && (a.Array? <==> b.Array?)
    decreases a
  {
    match a
    case Int(x) => b.Int? && b.i == x
    case Str(x) => b.Str? && b.s == x
    case Bool(_) => false
    case Null => false
    case Object(ms) =>
      && b.Object?
      && |ms| == |b.members|
      && multiset(KeysOf(ms)) == multiset(KeysOf(b.members))
      && forall i :: 0 <= i < |ms| ==>
           Find(b.members, ms[i].key) >= 0 && NodeEq(ms[i].value, b.members[Find(b.members, ms[i].key)].value)
    case Array(xs) =>
      && b.Array?
      && |xs| == |b.elems|
      && forall i :: 0 <= i < |xs| ==> NodeEq(xs[i], b.elems[i])
  }

  /** No BOOLEAN value and no NULL node anywhere in the tree. */
  predicate Comparable(n: Node)
    decreases n
  {
    match n
    case Bool(_) => false
    case Null => false
    case Object(ms) => forall i :: 0 <= i < |ms| ==> Comparable(ms[i].value)
    case Array(es) => forall i :: 0 <= i < |es| ==> Comparable(es[i])
    case _ => true
  }
}

=== FILE: request_handler.dfy ===
/**
 * `ctx::request_handler` (src/request_handler.cpp): the older client API over
 * `ctx::dbus_client` (src/dbus_client.cpp).  The class below holds the file's
 * static state: the request-id counter, whether `dbus_handle` exists and the
 * subject-to-callback map `response_cb_map` (None while the pointer is NULL).
 * Every request takes the outcomes it cannot see as inputs: the allocations and
 * connection setup of `initialize` (`Setup`), whether the option or data
 * document could be serialised (`dupOk`), and what the bus did.  Documents
 * cross the bus as text.
 */
module RequestHandler {
  import opened Common
  import opened BusProtocol

  /** The outcomes `initialize` depends on: the map allocation, the handle allocation and `init()`. */
  datatype Setup = Setup(mapAlloc: bool, handleAlloc: bool, initOk: bool)

  predicate SetupOk(s: Setup)
  {
    s.mapAlloc && s.handleAlloc && s.initOk
  }

  /** The request functions, for the code they return when `initialize` fails. */
  datatype Operation = SubscribeOp | UnsubscribeOp | ReadOp | ReadSyncOp | WriteOp | WriteWithReplyOp | IsSupportedOp

  /**
   * The code a request returns when `initialize` fails, as written: subscribe
   * returns ERR_OPERATION_FAILED, every other request returns `false`, which
   * converts to 0, that is ERR_NONE.
   */
  function InitFailureCode(op: Operation): (r: int)
    ensures r == ERR_NONE <==> op != SubscribeOp
    ensures op == SubscribeOp ==> r == ERR_OPERATION_FAILED
  {
    if op == SubscribeOp then ERR_OPERATION_FAILED else 0
  }

  /** A read whose connection could not be set up reports success. */
  lemma InitFailureReportsSuccess()
    ensures InitFailureCode(ReadOp) == ERR_NONE
    ensures InitFailureCode(SubscribeOp) != ERR_NONE
  {
  }

  /** The code every request evidently means to return when `initialize` fails, as subscribe does. */
  function InitFailureCodeChecked(op: Operation): (r: int)
    ensures r != ERR_NONE
    ensures r == InitFailureCode(SubscribeOp)
  {
    ERR_OPERATION_FAILED
  }

  /**
   * `deliver(subject, req_id, error, data)` on a given map: the callback
   * registered for the subject is called with the arguments unchanged; an
   * unknown subject is dropped without a call.
   */
  function DeliverTo(callbacks: map<string, ListenerRef>, subject: string, reqId: int, error: int, data: string)
    : (p: Option<Publish<ListenerRef>>)
    ensures p.Some? <==> subject in callbacks
    ensures p.Some? ==> p.value == Publish(callbacks[subject], subject, reqId, error, data)
  {
    if subject in callbacks then Some(Publish(callbacks[subject], subject, reqId, error, data)) else None
  }

  /** After a registration, deliveries for that subject reach the new callback and no other subject is affected. */
  lemma DeliverAfterRegister(callbacks: map<string, ListenerRef>, subject: string, callback: ListenerRef,
                             other: string, reqId: int, error: int, data: string)
    ensures DeliverTo(callbacks[subject := callback], subject, reqId, error, data)
      == Some(Publish(callback, subject, reqId, error, data))
    ensures other != subject ==>
      DeliverTo(callbacks[subject := callback], other, reqId, error, data) == DeliverTo(callbacks, other, reqId, error, data)
  {
  }

  class RequestHandlerState {
    /** The static counter of `generate_req_id`. */
    var reqCounter: int
    /** `dbus_handle != NULL`. */
    var handle: bool
    /** `response_cb_map`, None while NULL. */
    var callbacks: Option<map<string, ListenerRef>>

    /** The handle and the map exist together. */
    ghost predicate Valid()
      reads this
    {
      0 <= reqCounter <= INT32_MAX && (handle <==> callbacks.Some?)
    }

    constructor ()
      ensures Valid() && reqCounter == 0 && !handle && callbacks == None
    {
      reqCounter := 0;
      handle := false;
      callbacks := None;
    }

    /**
     * `generate_req_id()`: the pre-incremented counter, which restarts at 1
     * once it would leave the positive `int` range.
     */
    method GenerateReqId() returns (id: int)
      requires Valid()
      modifies this
      ensures Valid()
      ensures reqCounter == NextReqId(old(reqCounter)) && id == reqCounter
      ensures 1 <= id <= INT32_MAX
      ensures handle == old(handle) && callbacks == old(callbacks)
    {
      reqCounter := NextReqId(reqCounter);
      return reqCounter;
    }

    /**
     * `initialize()`: nothing to do once the handle exists; otherwise a fresh
     * empty map and a connected handle, or, on any failure, neither.
     */
    method Initialize(setup: Setup) returns (ok: bool)
      requires Valid()
      modifies this
      ensures Valid() && reqCounter == old(reqCounter)
      ensures old(handle) ==> ok && handle && callbacks == old(callbacks)
      ensures !old(handle) ==> ok == SetupOk(setup) && handle == ok
      ensures !old(handle) && ok ==> callbacks == Some(map[])
    {
      if handle {
        return true;
      }
      if !setup.mapAlloc {
        return false;
      }
      callbacks := Some(map[]);
      if !setup.handleAlloc || !setup.initOk {
        callbacks := None;
        return false;
      }
      handle := true;
      return true;
    }

    /**
     * `register_callback(subject, callback)`: false for a missing subject or
     * callback, or when `initialize` fails; otherwise the callback replaces
     * any earlier one for the subject.
     */
    method RegisterCallback(subject: Option<string>, callback: Option<ListenerRef>, setup: Setup)
      returns (ok: bool)
      requires Valid()
      modifies this
      ensures Valid() && reqCounter == old(reqCounter)
      ensures subject.None? || callback.None? ==> !ok && handle == old(handle) && callbacks == old(callbacks)
      ensures ok <==> subject.Some? && callback.Some? && (old(handle) || SetupOk(setup))
      ensures ok ==>
        callbacks == Some((if old(handle) then old(callbacks).value else map[])[subject.value := callback.value])
      ensures !ok ==> handle == old(handle) && callbacks == old(callbacks)
    {
      if subject.None? || callback.None? {
        return false;
      }
      var up := Initialize(setup);
      if !up {
        return false;
      }
      callbacks := Some(callbacks.value[subject.value := callback.value]);
      return true;
    }

    /** `response_handler::deliver`: the map must exist, since its pointer is not checked. */
    function Deliver(subject: string, reqId: int, error: int, data: string): (p: Option<Publish<ListenerRef>>)
      reads this
      requires callbacks.Some?
      ensures p.Some? <==> subject in callbacks.value
      ensures p.Some? ==> p.value.listener == callbacks.value[subject]
    {
      DeliverTo(callbacks.value, subject, reqId, error, data)
    }

    /**
     * `subscribe(subject, option, req_id, request_result)`: the subject and
     * the id pointer are required; a fresh id goes into `*req_id` before the
     * option is serialised; the reply's result text goes into
     * `*request_result` when given (empty without a reply).
     */
    method Subscribe(subject: Option<string>, option: Option<string>, reqId: Ptr<int>, result: Ptr<string>,
                     setup: Setup, dupOk: bool, paramAlloc: bool, reply: Option<Reply>)
      returns (err: int, sent: Option<Wire>, reqId': Ptr<int>, result': Ptr<string>)
      requires Valid()
      modifies this
      ensures Valid()
      ensures subject.None? || reqId.Null? ==>
        err == ERR_INVALID_PARAMETER && sent == None && reqId' == reqId && result' == result
        && reqCounter == old(reqCounter) && handle == old(handle) && callbacks == old(callbacks)
      ensures subject.Some? && reqId.At? && !(old(handle) || SetupOk(setup)) ==>
        err == InitFailureCode(SubscribeOp) && sent == None && reqId' == reqId && result' == result
        && reqCounter == old(reqCounter)
      ensures subject.Some? && reqId.At? && (old(handle) || SetupOk(setup)) ==>
        reqCounter == NextReqId(old(reqCounter)) && reqId' == At(reqCounter) && handle
      ensures subject.Some? && reqId.At? && (old(handle) || SetupOk(setup)) && option.Some? && !dupOk ==>
        err == ERR_OPERATION_FAILED && sent == None && result' == result
      ensures subject.Some? && reqId.At? && (old(handle) || SetupOk(setup)) && (option.None? || dupOk) ==>
        var a := Request(REQ_SUBSCRIBE, reqCounter, subject.value, option, At(""), Ptr.Null, paramAlloc, reply);
        err == a.error && sent == a.sent && result' == (if result.At? then a.result else Ptr.Null)
    {
      if subject.None? || reqId.Null? {
        return ERR_INVALID_PARAMETER, None, reqId, result;
      }
      var up := Initialize(setup);
      if !up {
        return InitFailureCode(SubscribeOp), None, reqId, result;
      }
      var id := GenerateReqId();
      reqId' := At(id);
      if option.Some? && !dupOk {
        return ERR_OPERATION_FAILED, None, reqId', result;
      }
      var a := Request(REQ_SUBSCRIBE, id, subject.value, option, At(""), Ptr.Null, paramAlloc, reply);
      result' := if result.At? then a.result else result;
      return a.error, a.sent, reqId', result';
    }

    /** `unsubscribe(subject, req_id)`: the caller's id is sent unchanged. */
    method Unsubscribe(subject: Option<string>, reqId: int, setup: Setup, paramAlloc: bool, reply: Option<Reply>)
      returns (err: int, sent: Option<Wire>)
      requires Valid()
      modifies this
      ensures Valid() && reqCounter == old(reqCounter)
      ensures subject.None? ==>
        err == ERR_INVALID_PARAMETER && sent == None && handle == old(handle) && callbacks == old(callbacks)
      ensures subject.Some? && !(old(handle) || SetupOk(setup)) ==>
        err == InitFailureCode(UnsubscribeOp) && sent == None
      ensures subject.Some? && (old(handle) || SetupOk(setup)) ==>
        var a := Request(REQ_UNSUBSCRIBE, reqId, subject.value, None, Ptr.Null, Ptr.Null, paramAlloc, reply);
        err == a.error && sent == a.sent
    {
      if subject.None? {
        return ERR_INVALID_PARAMETER, None;
      }
      var up := Initialize(setup);
      if !up {
        return InitFailureCode(UnsubscribeOp), None;
      }
      var a := Request(REQ_UNSUBSCRIBE, reqId, subject.value, None, Ptr.Null, Ptr.Null, paramAlloc, reply);
      return a.error, a.sent;
    }

    /** `read(subject, option, req_id, request_result)`: as subscribe, with REQ_READ. */
    method Read(subject: Option<string>, option: Option<string>, reqId: Ptr<int>, result: Ptr<string>,
                setup: Setup, dupOk: bool, paramAlloc: bool, reply: Option<Reply>)
      returns (err: int, sent: Option<Wire>, reqId': Ptr<int>, result': Ptr<string>)
      requires Valid()
      modifies this
      ensures Valid()
      ensures subject.None? || reqId.Null? ==>
        err == ERR_INVALID_PARAMETER && sent == None && reqId' == reqId && result' == result
        && reqCounter == old(reqCounter) && handle == old(handle) && callbacks == old(callbacks)
      ensures subject.Some? && reqId.At? && !(old(handle) || SetupOk(setup)) ==>
        err == InitFailureCode(ReadOp) && sent == None && reqId' == reqId && result' == result
        && reqCounter == old(reqCounter)
      ensures subject.Some? && reqId.At? && (old(handle) || SetupOk(setup)) ==>
        reqCounter == NextReqId(old(reqCounter)) && reqId' == At(reqCounter) && handle
      ensures subject.Some? && reqId.At? && (old(handle) || SetupOk(setup)) && option.Some? && !dupOk ==>
        err == ERR_OPERATION_FAILED && sent == None && result' == result
      ensures subject.Some? && reqId.At? && (old(handle) || SetupOk(setup)) && (option.None? || dupOk) ==>
        var a := Request(REQ_READ, reqCounter, subject.value, option, At(""), Ptr.Null, paramAlloc, reply);
        err == a.error && sent == a.sent && result' == (if result.At? then a.result else Ptr.Null)
    {
      if subject.None? || reqId.Null? {
        return ERR_INVALID_PARAMETER, None, reqId, result;
      }
      var up := Initialize(setup);
      if !up {
        return InitFailureCode(ReadOp), None, reqId, result;
      }
      var id := GenerateReqId();
      reqId' := At(id);
      if option.Some? && !dupOk {
        return ERR_OPERATION_FAILED, None, reqId', result;
      }
      var a := Request(REQ_READ, id, subject.value, option, At(""), Ptr.Null, paramAlloc, reply);
      result' := if result.At? then a.result else result;
      return a.error, a.sent, reqId', result';
    }

    /**
     * `read_sync(subject, option, req_id, data_read)`: all three pointers are
     * required; once the request has been made, `*data_read` is overwritten
     * with the reply's data text, empty when there was no reply.
     */
    method ReadSync(subject: Option<string>, option: Option<string>, reqId: Ptr<int>, dataRead: Ptr<string>,
                    setup: Setup, dupOk: bool, paramAlloc: bool, reply: Option<Reply>)
      returns (err: int, sent: Option<Wire>, reqId': Ptr<int>, dataRead': Ptr<string>)
      requires Valid()
      modifies this
      ensures Valid()
      ensures subject.None? || reqId.Null? || dataRead.Null? ==>
        err == ERR_INVALID_PARAMETER && sent == None && reqId' == reqId && dataRead' == dataRead
        && reqCounter == old(reqCounter) && handle == old(handle) && callbacks == old(callbacks)
      ensures subject.Some? && reqId.At? && dataRead.At? && !(old(handle) || SetupOk(setup)) ==>
        err == InitFailureCode(ReadSyncOp) && sent == None && reqId' == reqId && dataRead' == dataRead
        && reqCounter == old(reqCounter)
      ensures subject.Some? && reqId.At? && dataRead.At? && (old(handle) || SetupOk(setup)) ==>
        reqCounter == NextReqId(old(reqCounter)) && reqId' == At(reqCounter) && handle
      ensures subject.Some? && reqId.At? && dataRead.At? && (old(handle) || SetupOk(setup)) && option.Some? && !dupOk ==>
        err == ERR_OPERATION_FAILED && sent == None && dataRead' == dataRead
      ensures subject.Some? && reqId.At? && dataRead.At? && (old(handle) || SetupOk(setup)) && (option.None? || dupOk) ==>
        var a := Request(REQ_READ_SYNC, reqCounter, subject.value, option, Ptr.Null, At(""), paramAlloc, reply);
        err == a.error && sent == a.sent
        && dataRead' == At(if paramAlloc && reply.Some? then reply.value.output else "")
    {
      if subject.None? || reqId.Null? || dataRead.Null? {
        return ERR_INVALID_PARAMETER, None, reqId, dataRead;
      }
      var up := Initialize(setup);
      if !up {
        return InitFailureCode(ReadSyncOp), None, reqId, dataRead;
      }
      var id := GenerateReqId();
      reqId' := At(id);
      if option.Some? && !dupOk {
        return ERR_OPERATION_FAILED, None, reqId', dataRead;
      }
      var a := Request(REQ_READ_SYNC, id, subject.value, option, Ptr.Null, At(""), paramAlloc, reply);
      return a.error, a.sent, reqId', a.output;
    }

    /** `write(subject, data)`: the request without reply, REQ_WRITE with a fresh id. */
    method Write(subject: Option<string>, data: Option<string>, setup: Setup, dupOk: bool,
                 paramAlloc: bool, callFails: bool)
      returns (err: int, sent: Option<Wire>)
      requires Valid()
      modifies this
      ensures Valid()
      ensures subject.None? || data.None? ==>
        err == ERR_INVALID_PARAMETER && sent == None
        && reqCounter == old(reqCounter) && handle == old(handle) && callbacks == old(callbacks)
      ensures subject.Some? && data.Some? && !(old(handle) || SetupOk(setup)) ==>
        err == InitFailureCode(WriteOp) && sent == None && reqCounter == old(reqCounter)
      ensures subject.Some? && data.Some? && (old(handle) || SetupOk(setup)) ==>
        reqCounter == NextReqId(old(reqCounter)) && handle
      ensures subject.Some? && data.Some? && (old(handle) || SetupOk(setup)) && !dupOk ==>
        err == ERR_OPERATION_FAILED && sent == None
      ensures subject.Some? && data.Some? && (old(handle) || SetupOk(setup)) && dupOk ==>
        var a := RequestNoReply(REQ_WRITE, reqCounter, subject.value, data, paramAlloc, callFails);
        err == a.error && sent == a.sent
    {
      if subject.None? || data.None? {
        return ERR_INVALID_PARAMETER, None;
      }
      var up := Initialize(setup);
      if !up {
        return InitFailureCode(WriteOp), None;
      }
      var id := GenerateReqId();
      if !dupOk {
        return ERR_OPERATION_FAILED, None;
      }
      var a := RequestNoReply(REQ_WRITE, id, subject.value, data, paramAlloc, callFails);
      return a.error, a.sent;
    }

    /** `write_with_reply(subject, data, request_result)`: the replying request, REQ_WRITE with a fresh id. */
    method WriteWithReply(subject: Option<string>, data: Option<string>, result: Ptr<string>,
                          setup: Setup, dupOk: bool, paramAlloc: bool, reply: Option<Reply>)
      returns (err: int, sent: Option<Wire>, result': Ptr<string>)
      requires Valid()
      modifies this
      ensures Valid()
      ensures subject.None? || data.None? ==>
        err == ERR_INVALID_PARAMETER && sent == None && result' == result
        && reqCounter == old(reqCounter) && handle == old(handle) && callbacks == old(callbacks)
      ensures subject.Some? && data.Some? && !(old(handle) || SetupOk(setup)) ==>
        err == InitFailureCode(WriteWithReplyOp) && sent == None && result' == result && reqCounter == old(reqCounter)
      ensures subject.Some? && data.Some? && (old(handle) || SetupOk(setup)) ==>
        reqCounter == NextReqId(old(reqCounter)) && handle
      ensures subject.Some? && data.Some? && (old(handle) || SetupOk(setup)) && !dupOk ==>
        err == ERR_OPERATION_FAILED && sent == None && result' == result
      ensures subject.Some? && data.Some? && (old(handle) || SetupOk(setup)) && dupOk ==>
        var a := Request(REQ_WRITE, reqCounter, subject.value, data, At(""), Ptr.Null, paramAlloc, reply);
        err == a.error && sent == a.sent && result' == (if result.At? then a.result else Ptr.Null)
    {
      if subject.None? || data.None? {
        return ERR_INVALID_PARAMETER, None, result;
      }
      var up := Initialize(setup);
      if !up {
        return InitFailureCode(WriteWithReplyOp), None, result;
      }
      var id := GenerateReqId();
      if !dupOk {
        return ERR_OPERATION_FAILED, None, result;
      }
      var a := Request(REQ_WRITE, id, subject.value, data, At(""), Ptr.Null, paramAlloc, reply);
      result' := if result.At? then a.result else result;
      return a.error, a.sent, result';
    }

    /** `is_supported(subject)`: REQ_SUPPORT with a fresh id. */
    method IsSupported(subject: Option<string>, setup: Setup, paramAlloc: bool, reply: Option<Reply>)
      returns (err: int, sent: Option<Wire>)
      requires Valid()
      modifies this
      ensures Valid()
      ensures subject.None? ==>
        err == ERR_INVALID_PARAMETER && sent == None
        && reqCounter == old(reqCounter) && handle == old(handle) && callbacks == old(callbacks)
      ensures subject.Some? && !(old(handle) || SetupOk(setup)) ==>
        err == InitFailureCode(IsSupportedOp) && sent == None && reqCounter == old(reqCounter)
      ensures subject.Some? && (old(handle) || SetupOk(setup)) ==>
        var a := Request(REQ_SUPPORT, reqCounter, subject.value, None, Ptr.Null, Ptr.Null, paramAlloc, reply);
        reqCounter == NextReqId(old(reqCounter)) && err == a.error && sent == a.sent
    {
      if subject.None? {
        return ERR_INVALID_PARAMETER, None;
      }
      var up := Initialize(setup);
      if !up {
        return InitFailureCode(IsSupportedOp), None;
      }
      var id := GenerateReqId();
      var a := Request(REQ_SUPPORT, id, subject.value, None, Ptr.Null, Ptr.Null, paramAlloc, reply);
      return a.error, a.sent;
    }
  }

  /**
   * A read on a handler whose connection cannot be set up returns the same
   * code as a read the service answered with success, and nothing is sent.
   */
  method ReadWithoutConnection() returns (err: int, sent: Option<Wire>)
    ensures err == ERR_NONE && sent == None
  {
    var h := new RequestHandlerState();
    var reqId', result';
    err, sent, reqId', result' := h.Read(Some("subject"), None, At(0), At(""),
                                         Setup(true, true, false), true, true, None);
  }
}

=== FILE: shared_vars.dfy ===
/**
 * `ctx::SharedVars` (src/server/SharedVars.cpp): a process-wide table of
 * string variables.  The class holds the static map `__varsMap`; every
 * `SharedVars` object works on that one table.
 */
module SharedVariables {

  /** `SharedVars::VarId`. */
  datatype VarId = WifiBssid

  class SharedVarStore {
    /** `__varsMap`. */
    var vars: map<VarId, string>

    constructor ()
      ensures vars == map[]
    {
      vars := map[];
    }

    /** `get(id)`: the stored value, or "" for a variable that is not set. */
    function Get(id: VarId): (v: string)
      reads this
      ensures id in vars ==> v == vars[id]
      ensures id !in vars ==> v == ""
    {
      if id in vars then vars[id] else ""
    }

    /**
     * `set(id, value)`: stores the value, replacing any earlier one, and
     * returns the stored value; every other variable keeps its value.
     */
    method Set(id: VarId, value: string) returns (stored: string)
      modifies this
      ensures vars == old(vars)[id := value]
      ensures stored == value && Get(id) == value
      ensures forall other :: other != id ==> Get(other) == old(Get(other))
    {
      vars := vars[id := value];
      stored := vars[id];
    }

    /** `clear(id)`: forgets the variable, if set; every other variable keeps its value. */
    method Clear(id: VarId)
      modifies this
      ensures vars == old(vars) - {id}
      ensures Get(id) == ""
      ensures forall other :: other != id ==> Get(other) == old(Get(other))
    {
      vars := vars - {id};
    }
  }
}

=== FILE: timer_manager.dfy ===
/**
 * `ctx::TimerManager` (src/server/TimerManager.cpp): day-of-week names for
 * bit masks, and timers registered with the platform alarm service.  The
 * alarm service is an oracle: what it answers (an alarm id or a failure) is an
 * input, and what it was asked for is an output.  The class `TimerRegistry`
 * holds the static state shared by all managers (the instance count and
 * `__listenerMap`); each `TimerManager` owns the set `__alarms` of the timers
 * it set.
 */
module Timers {
  import opened Common
  import opened DayOfWeek

  const DAYS_PER_WEEK: nat := 7

  function Pow2(i: nat): (p: int)
    ensures p >= 1
  {
    if i == 0 then 1 else 2 * Pow2(i - 1)
  }

  lemma {:induction false} Pow2Monotone(a: nat, b: nat)
    requires a <= b
    ensures Pow2(a) <= Pow2(b)
    decreases b
  {
    if a < b {
      Pow2Monotone(a, b - 1);
    }
  }

  /** `(int) log2(n)` for a positive `n`: the position of the highest set bit. */
  function FloorLog2(n: int): (r: nat)
    requires n >= 1
    ensures Pow2(r) <= n < Pow2(r + 1)
  {
    if n == 1 then 0 else 1 + FloorLog2(n / 2)
  }

  /** The highest set bit is determined by the power-of-two bracket the number lies in. */
  lemma {:induction false} FloorLog2Unique(n: int, i: nat)
    requires Pow2(i) <= n < Pow2(i + 1)
    ensures FloorLog2(n) == i
  {
    var r := FloorLog2(n);
    if r < i {
      Pow2Monotone(r + 1, i);
    } else if r > i {
      Pow2Monotone(i + 1, r);
    }
  }

  /** Bit `i` of each single day is set: the day values are the powers of two. */
  lemma DayValuesArePowers(i: nat)
    requires i < DAYS_PER_WEEK
    ensures DAY_VALUES[i] == Pow2(i)
  {
    assert Pow2(1) == 2 && Pow2(2) == 4 && Pow2(3) == 8;
    assert Pow2(4) == 16 && Pow2(5) == 32 && Pow2(6) == 64;
  }

  /**
   * `dowToStr(dow)`: the three groups by name, otherwise the name of the
   * highest set bit when it is one of the seven days, and "" from 128 up.
   * `log2` of zero or of a negative number is not an int, so `dow` must be
   * positive.
   */
  function DowToStr(dow: int): (r: string)
    requires dow > 0
    ensures dow == WEEKDAY ==> r == "Weekday"
    ensures dow == WEEKEND ==> r == "Weekend"
    ensures dow == EVERYDAY ==> r == "Everyday"
    ensures r == "" <==> dow >= Pow2(DAYS_PER_WEEK)
  {
    if dow == WEEKDAY then "Weekday"
    else if dow == WEEKEND then "Weekend"
    else if dow == EVERYDAY then "Everyday"
    else
      var d := FloorLog2(dow);
      if d < DAYS_PER_WEEK then
        Pow2Monotone(d + 1, DAYS_PER_WEEK);
        DAY_NAMES[d]
      else
        Pow2Monotone(DAYS_PER_WEEK, d);
        ""
  }

  /** Any other mask below 128 is named after its highest day. */
  lemma DowToStrHighestDay(dow: int, i: nat)
    requires i < DAYS_PER_WEEK && Pow2(i) <= dow < Pow2(i + 1)
    requires dow != WEEKDAY && dow != WEEKEND && dow != EVERYDAY
    ensures DowToStr(dow) == DAY_NAMES[i]
  {
    FloorLog2Unique(dow, i);
  }

  /** Each single day is named by its own name. */
  lemma DowToStrSingleDay(i: nat)
    requires i < DAYS_PER_WEEK
    ensures DowToStr(DAY_VALUES[i]) == DAY_NAMES[i]
  {
    DayValuesArePowers(i);
    DowToStrHighestDay(DAY_VALUES[i], i);
  }

  /** On the ten named values, `dowToStr` agrees with `convert_day_of_week_int_to_string`. */
  lemma DowToStrOnNamedValues(d: int)
    requires d in VALUES
    ensures DowToStr(d) == IntToString(d)
  {
    var i :| 0 <= i < |VALUES| && VALUES[i] == d;
    if i < DAYS_PER_WEEK {
      DowToStrSingleDay(i);
    }
  }

  /** `dowToInt(dowToStr(d)) == d` for the ten named values. */
  lemma DowRoundTrip(d: int)
    requires d in VALUES
    ensures StringToInt(DowToStr(d)) == d
  {
    DowToStrOnNamedValues(d);
    IntStringRoundTrip(d);
  }

  /** `dowToStr(dowToInt(s)) == s` for the ten names. */
  lemma DowNameRoundTrip(s: string)
    requires s in NAMES
    ensures DowToStr(StringToInt(s)) == s
  {
    var i :| 0 <= i < |NAMES| && NAMES[i] == s;
    assert StringToInt(s) == VALUES[i];
    DowToStrOnNamedValues(VALUES[i]);
  }

  /** `dow & day != 0` on the masks, all of which fit in eight bits. */
  predicate Selects(dow: int, day: int)
    requires 0 <= dow < 0x100 && 0 <= day < 0x100
  {
    (dow as bv8) & (day as bv8) != 0
  }

  /**
   * The weekdays, Sunday = 0, that `setAt` asks the alarm service to repeat
   * on: one test of the mask per day, as the seven `if`s build the repeat flags.
   */
  function RepeatDays(dow: int): (days: set<nat>)
    requires 0 <= dow < 0x100
    ensures days <= {0, 1, 2, 3, 4, 5, 6}
  {
    (if Selects(dow, SUN) then {0} else {})
    + (if Selects(dow, MON) then {1} else {})
    + (if Selects(dow, TUE) then {2} else {})
    + (if Selects(dow, WED) then {3} else {})
    + (if Selects(dow, THU) then {4} else {})
    + (if Selects(dow, FRI) then {5} else {})
    + (if Selects(dow, SAT) then {6} else {})
  }

  /** Each single day repeats on itself alone. */
  lemma RepeatDaysOfSingleDay(i: nat)
    requires i < DAYS_PER_WEEK
    ensures RepeatDays(DAY_VALUES[i]) == {i}
  {
    if i == 0 {
      assert RepeatDays(SUN) == {0};
    } else if i == 1 {
      assert RepeatDays(MON) == {1};
    } else if i == 2 {
      assert RepeatDays(TUE) == {2};
    } else if i == 3 {
      assert RepeatDays(WED) == {3};
    } else if i == 4 {
      assert RepeatDays(THU) == {4};
    } else if i == 5 {
      assert RepeatDays(FRI) == {5};
    } else {
      assert RepeatDays(SAT) == {6};
    }
  }

  /** The groups repeat on their days. */
  lemma RepeatDaysOfGroups()
    ensures RepeatDays(WEEKDAY) == {1, 2, 3, 4, 5}
    ensures RepeatDays(WEEKEND) == {0, 6}
    ensures RepeatDays(EVERYDAY) == {0, 1, 2, 3, 4, 5, 6}
  {
  }

  /** What `setAt` asks of the alarm service: a weekly alarm at `hour:min:00` on `days`. */
  datatype WeeklyAlarm = WeeklyAlarm(hour: int, min: int, days: set<nat>)

  /** The arguments `setAt` accepts. */
  predicate ValidTime(hour: int, min: int, dow: int)
    ensures ValidTime(hour, min, dow) ==> 0 < dow < 0x100
  {
    0 <= hour < 24 && 0 <= min < 60 && 0 < dow <= EVERYDAY
  }

  /** An entry of `__listenerMap`: the listener to notify and the manager that set the timer. */
  datatype Entry = Entry(listener: ListenerRef, owner: TimerManager)

  /** The static state of `TimerManager`. */
  class TimerRegistry {
    /** `__instanceCnt`. */
    var instanceCount: int
    /** `__listenerMap`. */
    var listeners: map<int, Entry>
    /** How often the alarm service was initialised (`__init`) and released (`__release`). */
    ghost var inits: nat
    ghost var releases: nat

    /** The service is initialised exactly while managers exist, and every timer belongs to a manager of this registry. */
    ghost predicate Valid()
      reads this
    {
      && 0 <= instanceCount < UINT32_MODULUS
      && inits == releases + (if instanceCount > 0 then 1 else 0)
      && (forall id :: id in listeners ==> listeners[id].owner.registry == this)
    }

    constructor ()
      ensures Valid() && instanceCount == 0 && listeners == map[] && inits == 0 && releases == 0
    {
      instanceCount := 0;
      listeners := map[];
      inits := 0;
      releases := 0;
    }

    /**
     * `__onAlarmExpired(alarmId)`: an unknown id is ignored; otherwise the
     * listener is notified, and when it answers false (`keep`) the timer is
     * removed through the manager that set it.  The answer is always 0.
     */
    method OnAlarmExpired(alarmId: int, keep: bool) returns (ret: int, notified: Option<ListenerRef>)
      requires Valid()
      modifies this, if alarmId in listeners then {listeners[alarmId].owner} else {}
      ensures Valid() && ret == 0
      ensures instanceCount == old(instanceCount) && inits == old(inits) && releases == old(releases)
      ensures alarmId !in old(listeners) ==> notified == None && listeners == old(listeners)
      ensures alarmId in old(listeners) ==> notified == Some(old(listeners)[alarmId].listener)
      ensures alarmId in old(listeners) && keep ==> listeners == old(listeners)
      ensures alarmId in old(listeners) && !keep ==>
        var owner := old(listeners)[alarmId].owner;
        listeners == old(listeners) - {alarmId} && owner.alarms == old(owner.alarms) - {alarmId}
    {
      if alarmId !in listeners {
        return 0, None;
      }
      var entry := listeners[alarmId];
      if keep {
        return 0, Some(entry.listener);
      }
      var _ := entry.owner.Remove(alarmId);
      return 0, Some(entry.listener);
    }
  }

  class TimerManager {
    const registry: TimerRegistry
    /** `__alarms`: the timers this manager set. */
    var alarms: set<int>

    /** `TimerManager()`: counts the instance; the first one initialises the alarm service. */
    constructor (registry: TimerRegistry)
      requires registry.Valid() && registry.instanceCount < UINT32_MODULUS - 1
      modifies registry
      ensures this.registry == registry && alarms == {}
      ensures registry.Valid()
      ensures registry.instanceCount == old(registry.instanceCount) + 1
      ensures registry.inits == old(registry.inits) + (if old(registry.instanceCount) == 0 then 1 else 0)
      ensures registry.releases == old(registry.releases) && registry.listeners == old(registry.listeners)
    {
      this.registry := registry;
      alarms := {};
      new;
      if registry.instanceCount == 0 {
        registry.inits := registry.inits + 1;
      }
      registry.instanceCount := registry.instanceCount + 1;
    }

    /**
     * `setFor(interval, listener)`: -1 for a non-positive interval, a missing
     * listener or a refusal of the alarm service; otherwise the service's
     * alarm id, registered for this manager.
     */
    method SetFor(interval: int, listener: Option<ListenerRef>, alarm: Option<int>) returns (id: int)
      requires registry.Valid()
      modifies registry, this
      ensures registry.Valid()
      ensures registry.instanceCount == old(registry.instanceCount)
      ensures registry.inits == old(registry.inits) && registry.releases == old(registry.releases)
      ensures interval <= 0 || listener.None? || alarm.None? ==>
        id == -1 && registry.listeners == old(registry.listeners) && alarms == old(alarms)
      ensures interval > 0 && listener.Some? && alarm.Some? ==>
        id == alarm.value
        && registry.listeners == old(registry.listeners)[id := Entry(listener.value, this)]
        && alarms == old(alarms) + {id}
    {
      if interval <= 0 || listener.None? {
        return -1;
      }
      if alarm.None? {
        return -1;
      }
      id := alarm.value;
      registry.listeners := registry.listeners[id := Entry(listener.value, this)];
      alarms := alarms + {id};
    }

    /**
     * `setAt(hour, min, dow, listener)`: -1 unless the time is valid, the mask
     * is in 1..0x7F and the listener is given; otherwise a weekly alarm on the
     * selected days is requested, and a granted one is registered as in setFor.
     */
    method SetAt(hour: int, min: int, dow: int, listener: Option<ListenerRef>, created: bool, alarm: Option<int>)
      returns (id: int, requested: Option<WeeklyAlarm>)
      requires registry.Valid()
      modifies registry, this
      ensures registry.Valid()
      ensures registry.instanceCount == old(registry.instanceCount)
      ensures registry.inits == old(registry.inits) && registry.releases == old(registry.releases)
      ensures requested.Some? <==> ValidTime(hour, min, dow) && listener.Some? && created
      ensures requested.Some? ==> requested.value == WeeklyAlarm(hour, min, RepeatDays(dow))
      ensures !(requested.Some? && alarm.Some?) ==>
        id == -1 && registry.listeners == old(registry.listeners) && alarms == old(alarms)
      ensures requested.Some? && alarm.Some? ==>
        id == alarm.value
        && registry.listeners == old(registry.listeners)[id := Entry(listener.value, this)]
        && alarms == old(alarms) + {id}
    {
      if !ValidTime(hour, min, dow) || listener.None? {
        return -1, None;
      }
      if !created {
        return -1, None;
      }
      requested := Some(WeeklyAlarm(hour, min, RepeatDays(dow)));
      if alarm.None? {
        return -1, requested;
      }
      id := alarm.value;
      registry.listeners := registry.listeners[id := Entry(listener.value, this)];
      alarms := alarms + {id};
    }

    /**
     * `remove(timerId)`: a registered timer is forgotten by the registry and
     * by this manager and cancelled with the alarm service (`cancelled`); an
     * unknown id changes nothing.
     */
    method Remove(timerId: int) returns (cancelled: bool)
      requires registry.Valid()
      modifies registry, this
      ensures registry.Valid()
      ensures registry.instanceCount == old(registry.instanceCount)
      ensures registry.inits == old(registry.inits) && registry.releases == old(registry.releases)
      ensures cancelled <==> timerId in old(registry.listeners)
      ensures cancelled ==> registry.listeners == old(registry.listeners) - {timerId} && alarms == old(alarms) - {timerId}
      ensures !cancelled ==> registry.listeners == old(registry.listeners) && alarms == old(alarms)
    {
      if timerId !in registry.listeners {
        return false;
      }
      registry.listeners := registry.listeners - {timerId};
      alarms := alarms - {timerId};
      return true;
    }

    /**
     * `~TimerManager()` as written: it takes the registry's mutex and then calls
     * `remove` for each of its timers, which takes the same non-recursive mutex
     * again, so with any timer left it blocks (`hangs`) and changes nothing more.
     * Without timers it uncounts the instance, and the last one releases the
     * alarm service and clears the registry.
     */
    method Destroy() returns (hangs: bool)
      requires registry.Valid() && registry.instanceCount > 0
      modifies registry
      ensures registry.Valid()
      ensures hangs <==> alarms != {}
      ensures hangs ==> registry.instanceCount == old(registry.instanceCount) && registry.listeners == old(registry.listeners)
      ensures !hangs ==> registry.instanceCount == old(registry.instanceCount) - 1
      ensures !hangs && registry.instanceCount > 0 ==>
        registry.listeners == old(registry.listeners) && registry.releases == old(registry.releases)
      ensures !hangs && registry.instanceCount == 0 ==>
        registry.listeners == map[] && registry.releases == old(registry.releases) + 1
    {
      if alarms != {} {
        return true;
      }
      registry.instanceCount := registry.instanceCount - 1;
      if registry.instanceCount == 0 {
        registry.listeners := map[];
        registry.releases := registry.releases + 1;
      }
      return false;
    }

    /**
     * The destructor as intended: every timer of this manager still in the
     * registry is removed and cancelled (`cancelled`) under the one lock, then
     * the instance is uncounted and the last one releases the alarm service.
     */
    method DestroyChecked() returns (cancelled: set<int>)
      requires registry.Valid() && registry.instanceCount > 0
      modifies registry, this
      ensures registry.Valid()
      ensures registry.instanceCount == old(registry.instanceCount) - 1
      ensures cancelled == old(alarms) * old(registry.listeners).Keys && alarms == {}
      ensures forall id :: id in old(alarms) ==> id !in registry.listeners
      ensures registry.instanceCount > 0 ==>
        registry.listeners == old(registry.listeners) - old(alarms) && registry.releases == old(registry.releases)
      ensures registry.instanceCount == 0 ==>
        registry.listeners == map[] && registry.releases == old(registry.releases) + 1
    {
      cancelled := alarms * registry.listeners.Keys;
      registry.listeners := registry.listeners - alarms;
      alarms := {};
      registry.instanceCount := registry.instanceCount - 1;
      if registry.instanceCount == 0 {
        registry.listeners := map[];
        registry.releases := registry.releases + 1;
      }
    }
  }

  /** A manager destroyed while one of its timers is still set never returns. */
  method DestroyWithTimerHangs() returns (hangs: bool)
    ensures hangs
  {
    var registry := new TimerRegistry();
    var manager := new TimerManager(registry);
    var id := manager.SetFor(5, Some(ListenerRef(1)), Some(3));
    hangs := manager.Destroy();
  }
}

=== FILE: timer_util.dfy ===
/**
 * Days of the week as bit masks (`day_of_week_e`, include/timer_types.h; the
 * same values as `ctx::DayOfWeek` in include/TimerManager.h) and their names,
 * with the two converters of src/server/timer_util.cpp.
 */
module DayOfWeek {
  const SUN: int := 0x01
  const MON: int := 0x02
  const TUE: int := 0x04
  const WED: int := 0x08
  const THU: int := 0x10
  const FRI: int := 0x20
  const SAT: int := 0x40
  const WEEKDAY: int := 0x3E
  const WEEKEND: int := 0x41
  const EVERYDAY: int := 0x7F

  /** The seven single days, Sunday first: bit `i` is day `i`. */
  const DAY_VALUES: seq<int> := [SUN, MON, TUE, WED, THU, FRI, SAT]
  const DAY_NAMES: seq<string> := ["Sun", "Mon", "Tue", "Wed", "Thu", "Fri", "Sat"]

  /** All ten named values: the seven days, then the three groups. */
  const VALUES: seq<int> := DAY_VALUES + [WEEKDAY, WEEKEND, EVERYDAY]
  const NAMES: seq<string> := DAY_NAMES + ["Weekday", "Weekend", "Everyday"]

  /** The groups are the bitwise unions of their days. */
  lemma GroupsAreUnions()
    ensures WEEKDAY as bv8 == MON as bv8 | TUE as bv8 | WED as bv8 | THU as bv8 | FRI as bv8
    ensures WEEKEND as bv8 == SAT as bv8 | SUN as bv8
    ensures EVERYDAY as bv8 == WEEKDAY as bv8 | WEEKEND as bv8
  {
  }

  /**
   * `convert_day_of_week_int_to_string`: the name of each of the ten values,
   * and "" for any other int.
   */
  function IntToString(d: int): (r: string)
    ensures r != "" <==> d in VALUES
    ensures forall i :: 0 <= i < |VALUES| && VALUES[i] == d ==> r == NAMES[i]
  {
    if d == SUN then "Sun"
    else if d == MON then "Mon"
    else if d == TUE then "Tue"
    else if d == WED then "Wed"
    else if d == THU then "Thu"
    else if d == FRI then "Fri"
    else if d == SAT then "Sat"
    else if d == WEEKDAY then "Weekday"
    else if d == WEEKEND then "Weekend"
    else if d == EVERYDAY then "Everyday"
    else ""
  }

  /**
   * `convert_day_of_week_string_to_int` (and `TimerManager::dowToInt`, which
   * has the same table): the value of each of the ten names, compared exactly
   * and case-sensitively, and 0 for any other string.
   */
  function StringToInt(s: string): (r: int)
    ensures r != 0 <==> s in NAMES
    ensures forall i :: 0 <= i < |NAMES| && NAMES[i] == s ==> r == VALUES[i]
  {
    if s == "Sun" then SUN
    else if s == "Mon" then MON
    else if s == "Tue" then TUE
    else if s == "Wed" then WED
    else if s == "Thu" then THU
    else if s == "Fri" then FRI
    else if s == "Sat" then SAT
    else if s == "Weekday" then WEEKDAY
    else if s == "Weekend" then WEEKEND
    else if s == "Everyday" then EVERYDAY
    else 0
  }

  /** The ten values, and the ten names, are pairwise distinct. */
  lemma TablesDistinct(i: int, j: int)
    requires 0 <= i < j < |VALUES|
    ensures VALUES[i] != VALUES[j] && NAMES[i] != NAMES[j]
  {
  }

  /** Name then value gives back every one of the ten values. */
  lemma IntStringRoundTrip(d: int)
    requires d in VALUES
    ensures StringToInt(IntToString(d)) == d
  {
    var i :| 0 <= i < |VALUES| && VALUES[i] == d;
    assert IntToString(d) == NAMES[i];
  }

  /** Value then name gives back every one of the ten names. */
  lemma StringIntRoundTrip(s: string)
    requires s in NAMES
    ensures IntToString(StringToInt(s)) == s
  {
    var i :| 0 <= i < |NAMES| && NAMES[i] == s;
    assert StringToInt(s) == VALUES[i];
  }
}

=== FILE: work_queue.dfy ===
/**
 * Messages of the event-driven worker's queue and the bookkeeping that states
 * "every accepted payload is handed to exactly one of onEvent or deleteEvent".
 * Shared by both worker classes (src/EventDrivenThread.cpp and its older twin
 * src/event_driven.cpp).
 */
module WorkQueue {
  import opened Common

  /** A queued `event_message_s`: its type, its payload (`None` is NULL) and the terminal flag. */
  datatype Message<T> = Message(kind: int, data: Option<T>, term: bool)

  /** A `(type, data)` pair accepted by pushEvent. */
  datatype Event<T> = Event(kind: int, data: Option<T>)

  /**
   * What became of a message that left the queue: passed to onEvent by the worker
   * loop, passed to deleteEvent by stop's drain, or (NULL payload) freed by the
   * drain without a deleteEvent call.
   */
  datatype Disposal<T> =
    | Handled(kind: int, data: Option<T>)
    | Deleted(kind: int, payload: T)
    | Dropped(kind: int)

  /** The terminal message stop() enqueues: type -1, no data. */
  function Terminal<T>(): Message<T> {
    Message(-1, None, true)
  }

  predicate NoTerminal<T>(q: seq<Message<T>>) {
    forall i :: 0 <= i < |q| ==> !q[i].term
  }

  /** The events still waiting in the queue, in queue order (terminal messages carry none). */
  function Pending<T>(q: seq<Message<T>>): (r: seq<Event<T>>)
    ensures |r| <= |q|
    ensures NoTerminal(q) ==> |r| == |q|
  {
    if q == [] then []
    else if q[0].term then Pending(q[1..])
    else [Event(q[0].kind, q[0].data)] + Pending(q[1..])
  }

  /** The event each disposal settled, in order. */
  function Settled<T>(log: seq<Disposal<T>>): (r: seq<Event<T>>)
    ensures |r| == |log|
  {
    if log == [] then []
    else
      var e := match log[0]
        case Handled(k, d) => Event(k, d)
        case Deleted(k, p) => Event(k, Some(p))
        case Dropped(k) => Event(k, None);
      [e] + Settled(log[1..])
  }

  /** The onEvent calls the worker loop makes for a run of messages. */
  function HandledAll<T>(q: seq<Message<T>>): (r: seq<Disposal<T>>)
    ensures |r| == |q|
  {
    if q == [] then [] else [Handled(q[0].kind, q[0].data)] + HandledAll(q[1..])
  }

  /**
   * What stop's drain does with the leftovers: deleteEvent for each message with
   * data, a silent free for a data-less one, nothing recorded for the terminal.
   */
  function DrainLog<T>(q: seq<Message<T>>): (r: seq<Disposal<T>>)
    ensures |r| <= |q|
    ensures (forall i :: 0 <= i < |q| ==> !q[i].term) ==> |r| == |q|
  {
    if q == [] then []
    else if q[0].term then DrainLog(q[1..])
    else if q[0].data.Some? then [Deleted(q[0].kind, q[0].data.value)] + DrainLog(q[1..])
    else [Dropped(q[0].kind)] + DrainLog(q[1..])
  }

  /** Payloads of a run of events, NULLs left out. */
  function Payloads<T>(es: seq<Event<T>>): seq<T>
  {
    if es == [] then []
    else if es[0].data.Some? then [es[0].data.value] + Payloads(es[1..])
    else Payloads(es[1..])
  }

  /** The payloads handed to onEvent. */
  function OnEventPayloads<T>(log: seq<Disposal<T>>): seq<T>
  {
    if log == [] then []
    else if log[0].Handled? && log[0].data.Some? then [log[0].data.value] + OnEventPayloads(log[1..])
    else OnEventPayloads(log[1..])
  }

  /** The payloads handed to deleteEvent. */
  function DeleteEventPayloads<T>(log: seq<Disposal<T>>): seq<T>
  {
    if log == [] then []
    else if log[0].Deleted? then [log[0].payload] + DeleteEventPayloads(log[1..])
    else DeleteEventPayloads(log[1..])
  }

  lemma {:induction false} PendingAppend<T>(a: seq<Message<T>>, b: seq<Message<T>>)
    ensures Pending(a + b) == Pending(a) + Pending(b)
  {
    if a == [] {
      assert a + b == b;
    } else {
      assert (a + b)[1..] == a[1..] + b;
      PendingAppend(a[1..], b);
    }
  }

  lemma {:induction false} SettledAppend<T>(a: seq<Disposal<T>>, b: seq<Disposal<T>>)
    ensures Settled(a + b) == Settled(a) + Settled(b)
  {
    if a == [] {
      assert a + b == b;
    } else {
      assert (a + b)[1..] == a[1..] + b;
      SettledAppend(a[1..], b);
    }
  }

  lemma {:induction false} HandledAllAppend<T>(a: seq<Message<T>>, b: seq<Message<T>>)
    ensures HandledAll(a + b) == HandledAll(a) + HandledAll(b)
  {
    if a == [] {
      assert a + b == b;
    } else {
      assert (a + b)[1..] == a[1..] + b;
      HandledAllAppend(a[1..], b);
    }
  }

  lemma {:induction false} DrainLogAppend<T>(a: seq<Message<T>>, b: seq<Message<T>>)
    ensures DrainLog(a + b) == DrainLog(a) + DrainLog(b)
  {
    if a == [] {
      assert a + b == b;
    } else {
      assert (a + b)[1..] == a[1..] + b;
      DrainLogAppend(a[1..], b);
    }
  }

  /** The worker loop settles exactly the events of the messages it handles, in order. */
  lemma {:induction false} SettledHandledAll<T>(q: seq<Message<T>>)
    requires NoTerminal(q)
    ensures Settled(HandledAll(q)) == Pending(q)
  {
    if q != [] {
      SettledHandledAll(q[1..]);
    }
  }

  /** The drain settles exactly the events still pending, in order. */
  lemma {:induction false} SettledDrainLog<T>(q: seq<Message<T>>)
    ensures Settled(DrainLog(q)) == Pending(q)
  {
    if q != [] {
      SettledDrainLog(q[1..]);
    }
  }

  lemma {:induction false} PayloadsAppend<T>(a: seq<Event<T>>, b: seq<Event<T>>)
    ensures Payloads(a + b) == Payloads(a) + Payloads(b)
  {
    if a == [] {
      assert a + b == b;
    } else {
      assert (a + b)[1..] == a[1..] + b;
      PayloadsAppend(a[1..], b);
    }
  }

  /**
   * Ownership: once nothing is pending, the payloads accepted equal, as a multiset,
   * the payloads given to onEvent plus those given to deleteEvent -- each
   * accepted payload reaches exactly one of the two hooks, exactly once.
   */
  lemma {:induction false} ExactlyOneHook<T>(log: seq<Disposal<T>>)
    ensures multiset(Payloads(Settled(log)))
         == multiset(OnEventPayloads(log)) + multiset(DeleteEventPayloads(log))
  {
    if log != [] {
      ExactlyOneHook(log[1..]);
      assert Settled(log) == [Settled([log[0]])[0]] + Settled(log[1..]);
    }
  }

  /** What the drain records for one message. */
  lemma DrainLogSingle<T>(m: Message<T>)
    ensures m.term ==> DrainLog([m]) == []
    ensures !m.term && m.data.Some? ==> DrainLog([m]) == [Deleted(m.kind, m.data.value)]
    ensures !m.term && m.data.None? ==> DrainLog([m]) == [Dropped(m.kind)]
  {
    assert [m][1..] == [];
  }

  /** The drain of a queue is the drain of its head followed by the drain of the rest. */
  lemma DrainLogCons<T>(q: seq<Message<T>>)
    requires q != []
    ensures DrainLog(q) == DrainLog([q[0]]) + DrainLog(q[1..])
  {
    DrainLogSingle(q[0]);
  }

  /** Draining the head of the queue moves its event from pending to settled. */
  lemma DrainStepSound<T>(log: seq<Disposal<T>>, q: seq<Message<T>>)
    requires q != []
    ensures Settled(log + DrainLog([q[0]])) + Pending(q[1..]) == Settled(log) + Pending(q)
  {
    assert q == [q[0]] + q[1..];
    PendingAppend([q[0]], q[1..]);
    SettledAppend(log, DrainLog([q[0]]));
    SettledDrainLog([q[0]]);
  }

}
